=== FILE: README.md ===
# ChartFlow core, modelled in Dafny

ChartFlow is a browser application: a user drops a CSV or Excel file, the
rows become JavaScript objects keyed by the header line, and the
application then

- scans them for dates and numbers written inconsistently and suggests
  corrections;
- offers three cleaning tools: fill or drop missing values, split a column
  on a delimiter, rename columns;
- summarises the numeric columns on a dashboard (sum, average, minimum,
  maximum, half-over-half trend), feeds the first twenty rows to the
  dashboard's charts, and draws a pie of column totals;
- computes per-column statistics and a Pearson correlation, trend,
  volatility, prediction and significance for a chosen X/Y pair;
- shows the rows in a searchable, sortable table of 50 rows a page with a
  CSV export;
- keeps a list of user-built charts that can be created and deleted.

The model is a set of pure functions over immutable values:

- `JsObject` is a string-keyed dictionary that remembers the order in which
  its keys were created. It stands for a JavaScript object. `JsObject.Keys`
  is `Object.keys`: keys that are array indices ("0", "2023", ...) come
  first in ascending numeric order, then the other keys in creation order
  (section 10.1.11.1 of ECMA-262). That order decides the column order after
  a split or a rename, and the tie-break of the mode fill.
- `JsValue.Cell` is a cell value: missing key (`Absent`), `null`, a number,
  `NaN`, a string or a boolean. The Excel decoder yields booleans for boolean
  cells; `Number` reads them as 1 and 0, `String` as "true" and "false". In
  a decoded sheet row, `Absent` is a hole: the Excel decoder leaves one for a
  blank cell.
- Conversions that the model cannot spell out are fields of a
  `JsValue.Runtime` value passed to every operation that needs them:
  `Number(string)`, `parseFloat`, `Number#toString`, `new Date(s)`
  followed by `toISOString().split("T")[0]`, and `Math.sqrt`.
- The ghost predicate `Conforming` states the few facts about them the
  proofs rely on, for example `Number("") == 0`. `TrueSqrt` states that
  `sqrt` is the non-negative square root.

`toLowerCase`, `trim`, `split`, `join`, `includes`, `endsWith`, the
`^\d{4}-\d{2}-\d{2}$` test and the string `<` comparison are written out.

The modules follow the program:

- `Ingest`, `Quality` and `Cleaning` model `components/DataImport.tsx`.
- `Analytics` and `Correlation` model `components/AdvancedAnalytics.tsx`.
- `Dashboard` models `components/Dashboard.tsx`.
- `Table` models `components/DataTable.tsx`.
- `Registry` models `contexts/DataContext.tsx`.
- `Builder` models `components/ChartBuilder.tsx`.
- `Wrappers`, `Seqs`, `Text`, `Sorting`, `JsObject` and `JsValue` hold the
  shared vocabulary.

Error paths are values. Where the code calls `setError` or throws, the
model returns `Err` with a constructor naming the reason. Where the code
returns `null`, the model returns `None`.

Where the application's written description and its code differ, the model
follows the code:

- The statistics median is the element at index `floor(n/2)` of the sorted
  values. For an even count that is the upper middle.
- Deleting a chart removes every chart with that id, not only the first.
- Filling by mean or median when the column has no numeric value writes
  `NaN` (0/0, or `undefined` averaged) into the missing cells. It does not
  refuse.
- Filling by mode in that case throws: `reduce` of an empty list with no
  initial value. The model returns `Err(ModeOfNothing)`.
- The number-format scan replaces every `,` by `.` before `parseFloat`. So
  `"1,200"` is suggested as `1.2`, not `1200`.
- The analytics view converts with `Number(...)`, so `null` counts as the
  number 0 there. The dashboard drops `null`, `undefined` and `""` first
  (see `Dashboard.NullColumnOnlyInAnalytics`).
- The correlation's means divide the full sums by `n = min(|x|, |y|)`,
  even when the two columns have different numbers of values.
- The CSV export writes `""` for every falsy cell, including the number 0
  (`Table.ZeroExportsEmpty`).
- The X picker offers every column and keeps the Y selection, so a chart
  can plot a column against itself (`Builder.XAfterYPlotsItself`).

## Model

| member | source | states |
|---|---|---|
| Ingest.FileKindIgnoresCase | components/DataImport.tsx:334 | the file's kind depends on its name only up to ASCII case, because the name is lower-cased first |
| Ingest.FileKindBySuffix | components/DataImport.tsx:334-364 | the reader is chosen by how the name ends, in any letter case: `.csv` goes to the CSV reader, otherwise `.xls` or `.xlsx` goes to the workbook reader |
| Ingest.CsvExtension | components/DataImport.tsx:343-344 | a name ending in `.csv`, in either case, goes to the CSV reader |
| Ingest.XlsxExtension | components/DataImport.tsx:345-359 | a name ending in `.XLSX` is read as a workbook |
| Ingest.XlsExtension | components/DataImport.tsx:345-359 | a name ending in `.xls` is read as a workbook |
| Ingest.OtherExtensionRefused | components/DataImport.tsx:334-364 | a name is refused as an unsupported format exactly when it ends, in any letter case, in none of `.csv`, `.xls` and `.xlsx` |
| Ingest.LowerKeepsExtension | components/DataImport.tsx:334-345 | lower-casing a name keeps its (lower-cased) extension at the end |
| Ingest.RecordOf | components/DataImport.tsx:230-236 | a sheet row becomes an object whose keys are exactly the header cells that are not holes, as strings |
| Ingest.SlotsCover | components/DataImport.tsx:232 | the header loop visits every header cell that is not a hole, in ascending position order |
| Ingest.RecordOfFields | components/DataImport.tsx:232-234 | a header's field holds the cell under its last occurrence in the header row; a header row without holes or repeats creates its keys in header order, and `Object.keys` lists them with the array-index headers first |
| Ingest.SheetToRecords | components/DataImport.tsx:202-243 | no file or no sheet is an error; the sheet is reported empty exactly when it has at most one row; otherwise one record per row after the header, each built from the header row, and column j of the column list is header cell j as a string |
| Ingest.SheetRecordFields | components/DataImport.tsx:228-236 | record i's field for header j is the cell at column j of sheet row i+1; a hole in the header row creates no key; a header row without holes or repeats gives every record exactly the column list as keys, in order |
| Ingest.CsvToRecords | components/DataImport.tsx:293-304 | reader errors fail the import; no columns are detected exactly when there is no record or the first has no key; otherwise the records are imported as is with the first record's `Object.keys` as columns |
| Ingest.CsvColumns | components/DataImport.tsx:298-304 | the CSV columns are distinct and are exactly the first record's keys; without array-index keys they are in the record's creation order |
| Quality.DateCandidate | components/DataImport.tsx:72-86 | a cell is flagged as a date exactly when it is a non-empty string that is not `YYYY-MM-DD` and that the date parser accepts; the suggestion is the parsed ISO day, at the 1-based row |
| Quality.NumberCandidate | components/DataImport.tsx:104-116 | a cell is flagged as a number exactly when it is a string that parses after commas become periods and whose parsed number prints differently from the original; the suggestion is that number |
| Quality.Gather | components/DataImport.tsx:71-88 | the candidates of a column are exactly the flags raised by its rows |
| Quality.GatherSnoc | components/DataImport.tsx:71-88 | no rows give no candidates, and one more row appends its own flag, if any: the candidates are the flags in row order, one per flagged row |
| Quality.GatherLastFor | components/DataImport.tsx:71-88 | the last candidate a column's list holds for a row is that row's own flag |
| Quality.SetEach | components/DataImport.tsx:69-70 | assigning a list to each listed column changes exactly those columns |
| Quality.Scan | components/DataImport.tsx:58-121 | no data gives no issues; otherwise a number column of the first row gets its number candidates (overriding a date list), a date column gets its date candidates, every other column gets nothing |
| Quality.DateCandidatesSound | components/DataImport.tsx:72-86 | every date candidate points at a real row whose cell is the original text, not ISO, with the parser's ISO day as suggestion |
| Quality.NumberCandidatesSound | components/DataImport.tsx:104-116 | every number candidate points at a real row whose cell is the original text, and the suggestion is what `parseFloat` gives after the comma replacement |
| Quality.ScanColumns | components/DataImport.tsx:65-67 | only keys of the first row are scanned; a number column's name has no "id" and some row parses there; a date-only column's name contains "date" |
| Quality.ScanComplete | components/DataImport.tsx:69-118 | every row the tests flag appears in its column's list: the scan misses nothing |
| Quality.NumberScanOverrides | components/DataImport.tsx:101-102 | a column that is both a date and a number column ends up with number suggestions only |
| Quality.ApplyCorrections | components/DataImport.tsx:124-138 | correcting keeps the row count, and no corrections leaves the data as it is |
| Quality.Copies | components/DataImport.tsx:127 | each row is copied with `{ ...row }`: the copy lists the same keys in the same order with the same values |
| Quality.ApplyOne | components/DataImport.tsx:130-133 | applying one correction keeps the row count |
| Quality.ApplyColumn | components/DataImport.tsx:130-134 | applying a column's corrections keeps the row count |
| Quality.ApplyKeys | components/DataImport.tsx:129-135 | applying the corrections of several columns keeps the row count |
| Quality.ApplyColumnCells | components/DataImport.tsx:130-134 | within one column, a cell takes the last suggestion aimed at its row; other columns are untouched |
| Quality.ApplyKeysCells | components/DataImport.tsx:129-135 | over distinct columns, each cell takes the last suggestion for its row in its column, or keeps its value |
| Quality.ApplyCorrectionsCells | components/DataImport.tsx:124-138 | the corrected cell is the last suggestion for that row and column, or the original cell |
| Quality.ApplyColumnKeepsRow | components/DataImport.tsx:131 | a row no correction in the column aims at is unchanged |
| Quality.ApplyKeysKeepsRow | components/DataImport.tsx:129-135 | a row no correction in any listed column aims at is unchanged |
| Quality.ApplyCorrectionsKeepsRow | components/DataImport.tsx:124-138 | a row no correction aims at comes out as a copy that lists the same keys in the same order with the same values |
| Quality.ProcessData | components/DataImport.tsx:171-200 | the imported rows and headers become the data, the cleaned data and the columns; with any non-empty issue list the issues are stored with their corrected copy, otherwise both are cleared |
| Quality.ScanLastFor | components/DataImport.tsx:58-121 | the last suggestion the scan holds for a cell is the number suggestion of its row in a number column, the date suggestion in a date column, and none elsewhere |
| Quality.ProcessDataCorrects | components/DataImport.tsx:124-200 | when corrections are stored, the corrected copy has one row per imported row, and each cell is the scan's suggestion for it when there is one, or the original cell |
| Quality.ApplySingle | components/DataImport.tsx:746-762 | applying one suggestion removes exactly that entry from its column's list, leaves other columns' lists alone and keeps the row count |
| Quality.ApplySingleCells | components/DataImport.tsx:750-759 | after applying one suggestion only the targeted cell changes, to the suggestion |
| Cleaning.NumericData | components/DataImport.tsx:395-398 | the numbers used for filling are exactly the column's cells that `parseFloat` accepts |
| Cleaning.NumericDataSnoc | components/DataImport.tsx:395-398 | no rows give no numbers, and one more row appends its parsed number, if any: the numbers are in row order with their multiplicity |
| Cleaning.MethodOfByName | components/DataImport.tsx:388-431 | `remove_rows` removes; exactly the names starting with `fill_` fill, the four known ones their own way and any other with null; every other name does neither |
| Cleaning.MedianFill | components/DataImport.tsx:405-411 | the median fill lies between the smallest and largest value; for an odd count it is the middle of the sorted values (so one of them), for an even count the mean of the two middle ones |
| Cleaning.MedianFillSplits | components/DataImport.tsx:405-411 | for either parity of the count, at most half of the values lie strictly below the median fill and at most half strictly above |
| Sorting.BetweenOrderStatistics | components/DataImport.tsx:405-411 | a value between the sorted elements at positions lo and hi has at most hi values below it and at most `n-lo-1` above |
| Cleaning.Dedup | components/DataImport.tsx:414-418 | the mode table's keys are distinct and are exactly the printed values |
| Cleaning.ModeKeys | components/DataImport.tsx:414-418 | the frequency table's keys are distinct and are exactly the printed values, listed in `Object.keys` order |
| Cleaning.ReduceIndex | components/DataImport.tsx:418-420 | the pairwise reduce picks a key with the highest count, and no later key has as high a count |
| Cleaning.ModeKey | components/DataImport.tsx:413-421 | the mode is the printed form of some value, no value occurs more often, and on ties it is the last of the tied keys |
| Cleaning.FillValueOf | components/DataImport.tsx:395-427 | mean fill times the count is the sum and lies within the range; median lies within the range and is the middle of the sorted values, or the mean of the two middle ones for an even count; with no numbers both give NaN; mode of nothing fails and mode is otherwise some value's text; literal fill is the text; other `fill_` names give null |
| Cleaning.FillMissing | components/DataImport.tsx:438-445 | a missing cell of the column takes the fill value; present cells, other columns and complete rows are untouched |
| Cleaning.RemoveMissing | components/DataImport.tsx:430-436 | removing keeps, in order and with multiplicity, exactly the rows whose cell is neither null, undefined nor "" |
| Cleaning.HandleMissing | components/DataImport.tsx:379-452 | no column, no method or no data is an error; otherwise the only errors are a blank literal for `fill_value` and a mode fill of a column without numbers, each exactly then; removing keeps, in order and with multiplicity, exactly the rows whose cell is present; filling keeps every row |
| Cleaning.HandleMissingFills | components/DataImport.tsx:395-446 | after a fill, each missing cell holds the computed fill value and every other cell is unchanged |
| Cleaning.PartCells | components/DataImport.tsx:475-477 | one part per new column name |
| Cleaning.SplitRow | components/DataImport.tsx:470-482 | a row whose cell is not a string is unchanged; otherwise the split column is deleted and keys that are neither it nor a new name are untouched |
| Cleaning.SplitRowPieces | components/DataImport.tsx:473-477 | the last column of a given name receives the matching piece of the split, or null for an empty or missing piece |
| Cleaning.SplitRowRejoins | components/DataImport.tsx:473-478 | when every piece is non-empty and has its own distinct column, the new columns hold the pieces and joining them with the delimiter gives back the original text |
| Cleaning.SplitNames | components/DataImport.tsx:467-468 | the chosen names are used when given; otherwise the defaults are used, so there is always at least one |
| Cleaning.SplitRows | components/DataImport.tsx:470-482 | every row is split the same way and the row count is kept |
| Cleaning.Without | components/DataImport.tsx:484-485 | the old headers without the split column, in order |
| Cleaning.HandleSplit | components/DataImport.tsx:454-496 | no column, no delimiter or no data is an error; empty data throws; a column that is not a key of the first row is refused exactly then; otherwise every row is split and the headers are the first row's `Object.keys` without the column, followed by the new names |
| Cleaning.RenamedKeys | components/DataImport.tsx:509-511 | each header is mapped to its new name, or kept when the mapping gives none |
| Cleaning.RenameRow | components/DataImport.tsx:501-506 | a renamed row's keys are exactly the effective names of the old keys |
| Cleaning.RenameRowValue | components/DataImport.tsx:503-505 | a value lands under its key's new name unless a later key takes the same name (the last write wins) |
| Cleaning.RenameRowKeys | components/DataImport.tsx:501-511 | when the new names are distinct, they are created in the order `Object.keys` listed the old keys, and the renamed row enumerates them with array indices first |
| Cleaning.RenameRowIdentity | components/DataImport.tsx:503-505 | a mapping that renames none of the row's keys gives a row that lists the same keys in the same order with the same values |
| Cleaning.HandleRename | components/DataImport.tsx:498-518 | no data does nothing; empty data throws; otherwise every row is renamed and the headers are the first row's `Object.keys`, renamed |
| Cleaning.HandleRenameIdentity | components/DataImport.tsx:498-518 | renaming with a mapping that changes no key succeeds, gives rows indistinguishable from the old ones, and the first row's `Object.keys` as headers |
| Analytics.NumbersIn | components/AdvancedAnalytics.tsx:65-70 | a column's values are exactly the cells that `Number` converts |
| Analytics.NumbersInSnoc | components/AdvancedAnalytics.tsx:65-70 | no rows give no values, and one more row appends its converted cell, if any: the values are in row order with their multiplicity |
| Analytics.NumericColumns | components/AdvancedAnalytics.tsx:56-60 | the numeric columns are, in column order, exactly those with some convertible, non-empty cell |
| Analytics.NumericColumnHasValues | components/AdvancedAnalytics.tsx:56-60 | a numeric column has at least one value, so its statistics exist |
| Analytics.Variance | components/AdvancedAnalytics.tsx:155-157 | the variance is never negative |
| Analytics.UpperMedian | components/AdvancedAnalytics.tsx:161-163 | the median is one of the values |
| Analytics.UpperMedianSplits | components/AdvancedAnalytics.tsx:161-163 | at most half of the values (rounded down) lie strictly below the median and at most the rest lie strictly above |
| Analytics.StatOf | components/AdvancedAnalytics.tsx:149-174 | a column has statistics exactly when it has a value; then count, mean, min and max describe those values, min and max bound them and the mean, the median is the upper median and the variance is the population variance |
| Analytics.StatisticsData | components/AdvancedAnalytics.tsx:146-177 | one statistics entry per numeric column, in column order |
| Analytics.PairCountCountsPairs | components/AdvancedAnalytics.tsx:645 | `k(k-1)/2` is a whole number and counts the unordered pairs of distinct numeric columns |
| Analytics.PearsonSums | components/AdvancedAnalytics.tsx:75-89 | the means divide the full sums by n, the length of the shorter of the two value lists; the cross sum and the two deviation sums are the dot products of the deviations over the first `n` values; the deviation sums are non-negative and the cross sum's square is at most their product |
| Analytics.CorrelationLoop | components/AdvancedAnalytics.tsx:75-89 | the accumulation loop over the first `n` positions computes exactly the three sums of `PearsonSums` |
| Analytics.PearsonMeansEqualLength | components/AdvancedAnalytics.tsx:75-77 | with equally many X and Y values the means are the ordinary means |
| Analytics.CorrelationOf | components/AdvancedAnalytics.tsx:91 | a defined correlation times the root of the deviation product is the cross sum |
| Analytics.CorrelationBounded | components/AdvancedAnalytics.tsx:75-91 | the correlation is defined exactly when both deviation sums are positive, and then lies in [-1, 1] |
| Analytics.RatioBounded | components/AdvancedAnalytics.tsx:91 | a numerator whose square is at most the squared root gives a quotient within [-1, 1] |
| Analytics.SignificanceOf | components/AdvancedAnalytics.tsx:118-123 | high exactly above 0.7 in absolute value, medium exactly in (0.4, 0.7], low otherwise or when undefined |
| Analytics.SignificanceSquared | components/AdvancedAnalytics.tsx:75-123 | significance decided without any root: high exactly when the cross sum squared exceeds 0.49 times the deviation product, medium exactly when it lies in (0.16, 0.49] of it |
| Analytics.TrendByRatio | components/AdvancedAnalytics.tsx:99-101 | for a positive first-half average the trend is increasing above a 1.05 ratio, decreasing below 0.95, stable in between |
| Analytics.TrendOfUnchanged | components/AdvancedAnalytics.tsx:99-101 | equal halves are stable for a positive average but read as increasing for a negative one |
| Analytics.PredictionOf | components/AdvancedAnalytics.tsx:110-115 | for a positive second-half average the prediction is above it exactly when increasing, below it exactly when decreasing, and equal when stable |
| Analytics.VolatilityOf | components/AdvancedAnalytics.tsx:103-107 | volatility is undefined exactly when the Y mean is 0, and otherwise carries the mean's sign |
| Analytics.Analyze | components/AdvancedAnalytics.tsx:62-132 | no result exactly when a column is unchosen, there are fewer than two rows, or either column has fewer than two values; otherwise correlation, trend over the halves split at `floor(n/2)`, prediction and significance are those of the sums |
| Correlation.CauchySchwarz | components/AdvancedAnalytics.tsx:83-91 | the squared cross sum of two deviation lists is at most the product of their squared sums (this bounds the correlation) |
| Correlation.ResidualQuadratic | components/AdvancedAnalytics.tsx:83-89 | the squared residual of a scaled list is a quadratic in the scale with the sums as coefficients |
| Correlation.ZeroNormOrthogonal | components/AdvancedAnalytics.tsx:83-89 | a list whose squared sum is zero has zero cross sum with any list |
| Dashboard.ValuesIn | components/Dashboard.tsx:80-88 | a column's counted values are exactly the convertible cells that are not null, undefined or "" |
| Dashboard.ValuesInSnoc | components/Dashboard.tsx:80-88 | no rows give no values, and one more row appends its counted value, if any: the values are in row order with their multiplicity |
| Dashboard.CountedNumber | components/Dashboard.tsx:80-88 | a counted value is the cell's `Number`; the two differ exactly on null, undefined and "" cells that `Number` would convert |
| Dashboard.BooleansCount | components/Dashboard.tsx:82-86 | a boolean workbook cell is counted, as 1 for true and 0 for false |
| Dashboard.NumericColumns | components/Dashboard.tsx:64-75 | the numeric columns are, in column order, exactly the named columns with a counted value |
| Dashboard.NumericHasValues | components/Dashboard.tsx:64-90 | a numeric column has values, so its summary is never the zero record |
| Dashboard.NumericWithinAnalytics | components/Dashboard.tsx:288-297 | every column the dashboard treats as numeric is numeric in the analytics view too |
| Dashboard.NullColumnOnlyInAnalytics | components/Dashboard.tsx:288-297 | a column holding only null is numeric for the analytics view but not for the dashboard |
| Dashboard.HalfTrend | components/Dashboard.tsx:109-127 | a trend is computed exactly for four or more values with a non-zero first-half average |
| Dashboard.HalfTrendPositive | components/Dashboard.tsx:112-126 | the trend is positive exactly when the second-half average is above a positive first-half average or below a negative one |
| Dashboard.QuotientPositive | components/Dashboard.tsx:124 | a percentage change is positive exactly when numerator and denominator have the same strict sign |
| Dashboard.SummaryOf | components/Dashboard.tsx:79-140 | a column without values gets the zero record; otherwise sum, average, min, max and count describe its values, min and max bound them, and the positive-trend flag is exactly a positive percentage |
| Dashboard.Stats | components/Dashboard.tsx:51-147 | no summaries exactly without data, columns or a numeric column; otherwise the summaries of the first eight numeric columns, none empty |
| Dashboard.CleanCell | components/Dashboard.tsx:162-177 | a cleaned chart cell is never null or undefined: those become 0, strings are trimmed and become their number, 0 when blank, or the trimmed text; other cells pass through |
| Dashboard.CleanCellIdempotent | components/Dashboard.tsx:162-177 | cleaning a cleaned cell changes nothing |
| Dashboard.ChartRow | components/Dashboard.tsx:157-181 | a chart row's keys are exactly `index` and the named columns |
| Dashboard.ChartRowFields | components/Dashboard.tsx:158-177 | a chart row holds the cleaned cell of each named column, and the 1-based position under `index` unless a column is called `index` |
| Dashboard.ChartData | components/Dashboard.tsx:149-192 | the charts get the first twenty rows, each with a 1-based `index` and every named column cleaned |
| Dashboard.LineColumns | components/Dashboard.tsx:299 | the line chart plots the first three numeric columns |
| Dashboard.BarColumns | components/Dashboard.tsx:300-301 | the bar and area charts plot the first two numeric columns |
| Dashboard.BarColumnsWithinLine | components/Dashboard.tsx:299-301 | the bar columns are a prefix of the line columns |
| Dashboard.PieSlices | components/Dashboard.tsx:613-631 | the pie shows the first six summaries, each named by its column, sized by the absolute sum and coloured by position |
| Dashboard.PieColorsDistinct | components/Dashboard.tsx:628-631 | the six slices never share a colour |
| Table.Search | components/DataTable.tsx:41-54 | an empty term shows all rows; otherwise, in order and with multiplicity, exactly the rows with some value whose lower-cased text contains the lower-cased term |
| Table.SearchIdempotent | components/DataTable.tsx:41-54 | searching the results again for the same term changes nothing |
| Table.SearchIgnoresCase | components/DataTable.tsx:48 | searching for a term or its lower-cased form gives the same rows |
| Table.NextDirection | components/DataTable.tsx:57-58 | the direction becomes descending exactly when the same column was sorted ascending |
| Table.ReclickFlips | components/DataTable.tsx:56-60 | clicking the sorted column again always flips the direction |
| Table.CompareReverses | components/DataTable.tsx:62-81 | the comparator is antisymmetric, descending is ascending with the rows swapped, and two numbers compare by their difference |
| Table.SortRows | components/DataTable.tsx:62-83 | sorting permutes the rows |
| Table.SortNumbersOrdered | components/DataTable.tsx:66-71 | when every cell of the column is numeric, the rows come out in ascending or descending numeric order |
| Table.SortTextsOrdered | components/DataTable.tsx:73-80 | when no cell is numeric, the rows come out in lexicographic order of their lower-cased text, either way round |
| Table.NumberAfter | components/DataTable.tsx:69-71 | between two numeric cells the comparator puts a row later exactly when its number is larger (ascending) or smaller (descending) |
| Table.NumberPreorder | components/DataTable.tsx:69-71 | on numeric cells the comparator is a consistent order |
| Table.TextPreorder | components/DataTable.tsx:73-80 | on non-numeric cells the comparator is a consistent order |
| Table.HandleSearch | components/DataTable.tsx:41-54 | searching goes back to page 1, keeps the sort settings and shows a subsequence of the data |
| Table.HandleSort | components/DataTable.tsx:56-84 | sorting records the column, flips the direction exactly on a re-click of an ascending sort, and permutes the shown rows |
| Table.PageRows | components/DataTable.tsx:86-89 | a page has at most 50 rows: those at positions `(page-1)*50` onwards, all of the remainder when fewer, none past the end |
| Table.TotalPages | components/DataTable.tsx:91 | the page count is the least number of 50-row pages that hold all rows |
| Table.PagesCover | components/DataTable.tsx:86-91 | every row is shown on exactly the page its position gives, and that page exists |
| Table.NavigationStaysInRange | components/DataTable.tsx:286-296 | from an existing page, previous and next move at most one page and stay among existing pages |
| Table.CsvField | components/DataTable.tsx:97 | each exported field is quoted, and is the empty quoted field exactly for falsy or empty-text cells |
| Table.CsvLines | components/DataTable.tsx:94-99 | the export has a header line and one line per shown row |
| Table.ExportLines | components/DataTable.tsx:94-99 | when no header and no cell contains a newline, splitting the export on newlines gives back the header line and the row lines |
| Table.ExportFields | components/DataTable.tsx:97 | when no cell contains a comma, splitting a row line on commas gives back each quoted cell |
| Table.ZeroExportsEmpty | components/DataTable.tsx:97 | a cell holding 0 is exported as the empty field |
| Table.FirstPresent | components/DataTable.tsx:109 | the sample is the first row whose cell is neither null nor undefined, or there is none |
| Table.ColumnType | components/DataTable.tsx:108-112 | a column is numeric exactly when its first present cell converts to a number; with no present cell it is text |
| Registry.AddChart | contexts/DataContext.tsx:43-45 | a new chart goes to the end and the others keep their order |
| Registry.Initial | contexts/DataContext.tsx:35-38 | the data, columns, charts and shown rows all start empty |
| Registry.InitialCharts | contexts/DataContext.tsx:38-49 | from the initial state a deletion leaves no chart, and the first chart added is removed again by its id |
| Registry.RemoveChart | contexts/DataContext.tsx:47-49 | deleting keeps, in order and with multiplicity, exactly the charts with another id |
| Registry.RemoveAbsent | contexts/DataContext.tsx:47-49 | deleting an id no chart has changes nothing |
| Registry.AddThenRemove | contexts/DataContext.tsx:43-49 | adding a chart with a fresh id and deleting that id restores the list |
| Registry.RemoveIdempotent | contexts/DataContext.tsx:47-49 | deleting twice is deleting once |
| Registry.RemoveTakesEveryCopy | contexts/DataContext.tsx:48 | two charts sharing an id are both deleted |
| Builder.CreateChart | components/ChartBuilder.tsx:120-137 | without a title, an X column or a Y column nothing happens; otherwise the chart is appended with the palette and the draft is reset |
| Builder.CreateOnce | components/ChartBuilder.tsx:121-135 | a second click after a creation creates nothing more |
| Builder.CreateThenRemove | components/ChartBuilder.tsx:120-137 | a chart created under a fresh id and then deleted leaves the list as before |
| Builder.YOptions | components/ChartBuilder.tsx:477-483 | the Y choices are, in order, exactly the columns other than the X column |
| Builder.ChooseY | components/ChartBuilder.tsx:469-471 | choosing a Y column makes it the only one and keeps the rest of the draft |
| Builder.ChooseX | components/ChartBuilder.tsx:444-448 | choosing an X column, from all columns, keeps the Y selection; the draft can then be created exactly with a title, a named X column and a Y column |
| Builder.XAfterYPlotsItself | components/ChartBuilder.tsx:444-471 | choosing Y and then the same column as X gives a draft that can be created and plots that column against itself |
| Builder.ChosenYCreates | components/ChartBuilder.tsx:467-494 | with a title and an X column, choosing any offered Y column enables creation, and a Y column chosen after the X column is never the X column |
| Builder.SeriesColor | components/ChartBuilder.tsx:182 | each series takes a palette colour |
| Builder.SeriesColorsCycle | components/ChartBuilder.tsx:76-85 | colours repeat every eight series and differ within any eight consecutive ones |
| Builder.CartesianRows | components/ChartBuilder.tsx:154 | the line, bar and area charts draw the first twenty rows |
| Builder.RadarRows | components/ChartBuilder.tsx:290 | the radar draws the first six rows |
| Builder.PieValueAppend | components/ChartBuilder.tsx:252-256 | the pie total over concatenated data is the sum of the totals |
| Builder.PieValueIsDashboardSum | components/ChartBuilder.tsx:252-256 | with `Number("") == 0`, the builder's pie total for a column equals the dashboard's sum for it |
| Text.Trim | components/Dashboard.tsx:168 | trimming removes exactly the leading and trailing white space and line terminators of ECMA-262 |
| Text.TrimIdempotent | components/DataImport.tsx:388 | trimming twice is trimming once |
| Text.TrimEmptyIffBlank | components/DataImport.tsx:388 | the fill-value check refuses exactly a literal made only of white space |
| Text.JoinSplit | components/DataImport.tsx:473 | joining the pieces of a split with the delimiter gives back the text |
| Text.SplitJoin | components/DataImport.tsx:473 | splitting a join on a one-character delimiter that no piece contains gives back the pieces |
| Text.LexLessTransitive | components/DataTable.tsx:77-79 | the string comparison used for sorting is transitive |
| Text.LexLessTotal | components/DataTable.tsx:77-79 | any two different strings are ordered one way or the other |
| Text.LexLessAsymmetric | components/DataTable.tsx:77-79 | no two strings are each below the other |
| JsObject.Set | components/DataImport.tsx:476 | assignment changes one key; a new key is created last, an existing key keeps its place |
| JsObject.Delete | components/DataImport.tsx:478 | deletion removes one key and keeps the order of the others |
| JsObject.Keys | components/DataImport.tsx:460 | `Object.keys` lists every key once, exactly the keys that hold a value |
| JsObject.EnumerateOrder | components/DataImport.tsx:460 | `Object.keys` lists array-index keys first, in ascending numeric order, and the other keys in creation order |
| JsObject.EnumerateWithoutIndices | components/DataImport.tsx:460 | without array-index keys, `Object.keys` is the creation order |
| JsObject.EnumerateIdempotent | components/DataImport.tsx:474 | an object created in another's `Object.keys` order enumerates in that same order |
| JsObject.EnumerateSameKeys | components/DataImport.tsx:460 | `Object.keys` lists the same keys as were created, each once when they were distinct |
| JsObject.Copy | components/DataImport.tsx:474 | `{ ...o }` is indistinguishable from `o`: same keys in the same order, same values |
| JsObject.Values | components/DataTable.tsx:47 | `Object.values` holds the value of each key, in `Object.keys` order |
| JsObject.SetAllGet | components/DataImport.tsx:232-234 | after assigning a list of keys in order, a key holds the value of its last assignment |
| JsObject.SetAllKeys | components/DataImport.tsx:503-505 | assigning distinct new keys creates them after the existing ones, in assignment order |
| Sorting.SortReals | components/AdvancedAnalytics.tsx:161 | numeric sorting permutes the values into ascending order |
| Sorting.OrderStatisticBelow | components/AdvancedAnalytics.tsx:161-163 | at most h values lie strictly below the h-th smallest |
| Sorting.OrderStatisticAbove | components/AdvancedAnalytics.tsx:161-163 | at most `n-h-1` values lie strictly above the h-th smallest |
| Sorting.SortBySorted | components/DataTable.tsx:62-81 | sorting with a consistent comparator yields sorted output |
| Seqs.SomesCount | components/AdvancedAnalytics.tsx:65-70 | dropping the failed conversions keeps each value as often as it was converted |
| Seqs.SomesSnoc | components/AdvancedAnalytics.tsx:65-70 | dropping failed conversions works row by row: one more entry appends its value, if any |

## Left out

- File reading, the XLSX and CSV parsers, the drop zone, progress timers and messages: I/O. The parsers' output is a parameter, as are whether a file was chosen and how many errors the CSV reader reported.
- Sheet names: listing a workbook's sheets is I/O; the selected sheet's rows are a parameter.
- `Number(string)`, `parseFloat`, `Number#toString`, date parsing and ISO formatting, `Math.sqrt`: fields of `Runtime`, not written out. Only the facts stated in `Conforming` and `TrueSqrt` are assumed where a proof needs them.
- IEEE floating point: numbers are exact reals. There are no infinities, no rounding, and no `-0`. The `isFinite` tests therefore always pass.
- Dashboard.SummaryOf: sum, average, minimum, maximum and trend are stated before the `toFixed(2)` rounding the code applies.
- Analytics.StatOf: the standard deviation is not modelled, because it is only the square root of the stated variance.
- Analytics.Analyze: its contract does not describe the volatility field; `Analytics.VolatilityOf` does.
- Ingest.SheetToRecords: the column list holds the header cells as strings. The code passes the raw header row on, so a numeric header cell such as 2023 stays a number in the column list, and the dashboard then skips that column because it is not a string. The records' keys are strings in both. A blank header cell is a hole in the decoded header row: the records get no key for it, as in the code, but the column list shows it as the string "undefined" where the code keeps `undefined`.
- Ingest.RecordOf: a header named `__proto__` creates no key, because the assignment goes to the prototype setter; the model creates an ordinary key.
- Cleaning.RenamedKeys: the lookup `renameMapping[key] || key` also finds properties inherited from `Object.prototype`, so a column named `constructor` or `toString` is renamed to a function. The model looks up only the mapping's own keys.
- Text.LexLess: compares strings by code point, whereas JavaScript's `<` compares UTF-16 code units. The two orders differ only between characters above U+FFFF and characters from U+E000 to U+FFFF.
- JsObject.EnumerateOrder: array indices are stated to come out in non-decreasing numeric order. That distinct indices have distinct values, which makes the order strictly increasing, is not proved.
- Quality.Gather: its own contract states which candidates occur. Their row order and multiplicity are stated by `Quality.GatherSnoc` and `Quality.GatherLastFor`.
- Cleaning.NumericData: its own contract states which numbers occur. Their row order and multiplicity are stated by `Cleaning.NumericDataSnoc`.
- Analytics.NumbersIn: its own contract states which values occur. Their row order and multiplicity are stated by `Analytics.NumbersInSnoc`.
- Dashboard.ValuesIn: its own contract states which values occur. Their row order and multiplicity are stated by `Dashboard.ValuesInSnoc`.
- Table.ExportCsv: has no contract of its own. It is described through `Table.ExportLines`, `Table.ExportFields` and `Table.CsvLines`.
- Builder.PieValue: the pie total has no contract of its own. It is described through `Builder.PieValueAppend` and `Builder.PieValueIsDashboardSum`.
- Table.SortRows: with a mix of numeric and text cells the comparator is not an order, and the result depends on the engine's sort. The model is a stable insertion sort, and the ordering lemmas cover only all-numeric and all-text columns.
- Case mapping: `toLowerCase` is modelled for ASCII letters only.
- The scatter plot's points, the text of tooltips and labels, chart rendering, the PNG and PDF exports, and the file download: presentation or I/O.
- Chart ids come from `Date.now()`, so the id is a parameter of `Builder.CreateChart`.
- The state setters, `useMemo`/`useCallback` caching and the React components themselves: the model computes the new state values as results.
- "Apply all corrections" (`components/DataImport.tsx:369-377`) copies the stored corrected rows into the state. Computing those rows is modelled by `Quality.ProcessData`.
- Rows that are not objects, which the dashboard skips: every row in the model is an object.

=== FILE: analytics.dfy ===
/** `components/AdvancedAnalytics.tsx`: which columns count as numeric, the
    per-column statistics table, and the two-column analysis (Pearson
    correlation, half-split trend, volatility, prediction, significance). */
module Analytics {
  import opened Wrappers
  import opened JsValue
  import Seqs
  import Sorting
  import Correlation

  /** `data.map(row => Number(row[col])).filter(v => !isNaN(v))`. */
  function NumbersIn(rt: Runtime, data: seq<Row>, col: string): (r: seq<real>)
    ensures |r| <= |data|
    ensures forall x :: x in r <==> exists i :: 0 <= i < |data| && NumberOf(rt, Field(data[i], col)) == Some(x)
  {
    var nums := seq(|data|, i requires 0 <= i < |data| => NumberOf(rt, Field(data[i], col)));
    forall x ensures Some(x) in nums <==> exists i :: 0 <= i < |data| && NumberOf(rt, Field(data[i], col)) == Some(x) {
      if Some(x) in nums {
        var i :| 0 <= i < |nums| && nums[i] == Some(x);
      }
      if exists i :: 0 <= i < |data| && NumberOf(rt, Field(data[i], col)) == Some(x) {
        var i :| 0 <= i < |data| && NumberOf(rt, Field(data[i], col)) == Some(x);
        assert nums[i] == Some(x);
      }
    }
    Seqs.Somes(nums)
  }

  /** The values grow row by row: a new row adds its number at the end when
      `Number` of its cell is not `NaN`. */
  lemma NumbersInSnoc(rt: Runtime, data: seq<Row>, row: Row, col: string)
    ensures NumbersIn(rt, [], col) == []
    ensures NumbersIn(rt, data + [row], col) == NumbersIn(rt, data, col) + Seqs.Present(NumberOf(rt, Field(row, col)))
  {
    var d := data + [row];
    var nums := seq(|d|, i requires 0 <= i < |d| => NumberOf(rt, Field(d[i], col)));
    var prefix := seq(|data|, i requires 0 <= i < |data| => NumberOf(rt, Field(data[i], col)));
    assert nums == prefix + [NumberOf(rt, Field(row, col))];
    Seqs.SomesSnoc(prefix, NumberOf(rt, Field(row, col)));
  }

  /** Some row's cell in `col` is not "" and `Number` of it is not `NaN`. */
  predicate HasNumber(rt: Runtime, data: seq<Row>, col: string)
  {
    exists i | 0 <= i < |data| :: NumberOf(rt, Field(data[i], col)).Some? && Field(data[i], col) != Text("")
  }

  /** `numericColumns`: the columns holding at least one number, in order. */
  function NumericColumns(rt: Runtime, data: seq<Row>, columns: seq<string>): (r: seq<string>)
    ensures Seqs.IsSubsequence(r, columns)
    ensures forall c :: c in r <==> c in columns && HasNumber(rt, data, c)
  {
    Seqs.Filter(c => HasNumber(rt, data, c), columns)
  }

  /** A numeric column always yields at least one value. */
  lemma NumericColumnHasValues(rt: Runtime, data: seq<Row>, col: string)
    requires HasNumber(rt, data, col)
    ensures |NumbersIn(rt, data, col)| > 0
  {
    var i :| 0 <= i < |data| && NumberOf(rt, Field(data[i], col)).Some? && Field(data[i], col) != Text("");
    assert NumberOf(rt, Field(data[i], col)).value in NumbersIn(rt, data, col);
  }

  /** One row of the statistics table (the standard deviation, the square
      root of `variance`, is not kept). */
  datatype Stat = Stat(column: string, mean: real, median: real, min: real, max: real, count: nat, variance: real)

  /** Population variance: the mean squared deviation from the mean. */
  function Variance(v: seq<real>): (r: real)
    requires |v| > 0
    ensures 0.0 <= r
  {
    var sq := SquaredDeviations(v, Seqs.Mean(v));
    Seqs.SumNonNegative(sq);
    Seqs.Sum(sq) / (|v| as real)
  }

  /** The squared deviations of `v` from `m`, one per value. */
  function SquaredDeviations(v: seq<real>, m: real): (sq: seq<real>)
    ensures |sq| == |v|
    ensures forall i :: 0 <= i < |sq| ==> sq[i] == (v[i] - m) * (v[i] - m) && 0.0 <= sq[i]
  {
    seq(|v|, i requires 0 <= i < |v| => Square(v[i] - m))
  }

  function Square(x: real): (r: real)
    ensures r == x * x && 0.0 <= r
  {
    if x < 0.0 then (-x) * (-x) else x * x
  }

  /** `values.sort((a, b) => a - b)[Math.floor(values.length / 2)]`. */
  function UpperMedian(v: seq<real>): (r: real)
    requires |v| > 0
    ensures r in v
  {
    var sorted := Sorting.SortReals(v);
    assert sorted[|v| / 2] in multiset(v);
    sorted[|v| / 2]
  }

  /** At most `⌊n/2⌋` values lie below the upper median, and at most
      `n - ⌊n/2⌋ - 1` above it; for an even count this is the upper of the
      two middle values. */
  lemma UpperMedianSplits(v: seq<real>)
    requires |v| > 0
    ensures |Seqs.Filter(x => x < UpperMedian(v), v)| <= |v| / 2
    ensures |Seqs.Filter(x => x > UpperMedian(v), v)| <= |v| - |v| / 2 - 1
  {
    Sorting.OrderStatisticBelow(v, |v| / 2);
    Sorting.OrderStatisticAbove(v, |v| / 2);
  }

  /** The statistics of one column; `None` when it has no value. */
  function StatOf(rt: Runtime, data: seq<Row>, col: string): (r: Option<Stat>)
    ensures r.None? <==> |NumbersIn(rt, data, col)| == 0
    ensures r.Some? ==>
              var v := NumbersIn(rt, data, col);
              var s := r.value;
              && s.column == col && s.count == |v| && s.count > 0
              && s.mean == Seqs.Mean(v)
              && s.min in v && s.max in v
              && (forall i :: 0 <= i < |v| ==> s.min <= v[i] <= s.max)
              && s.min <= s.mean <= s.max
              && s.median == UpperMedian(v) && s.median in v
              && s.variance == Variance(v) && 0.0 <= s.variance
  {
    var v := NumbersIn(rt, data, col);
    if |v| == 0 then None
    else
      var lo, hi := Seqs.MinOf(v), Seqs.MaxOf(v);
      Seqs.MeanBetween(v, lo, hi);
      Some(Stat(col, Seqs.Mean(v), UpperMedian(v), lo, hi, |v|, Variance(v)))
  }

  /** `statisticsData`: one row per numeric column, in column order. */
  function StatisticsData(rt: Runtime, data: seq<Row>, columns: seq<string>): (r: seq<Stat>)
    ensures var cols := NumericColumns(rt, data, columns);
            && |r| == |cols|
            && forall i :: 0 <= i < |r| ==> Some(r[i]) == StatOf(rt, data, cols[i]) && r[i].column == cols[i]
  {
    var cols := NumericColumns(rt, data, columns);
    var stats := seq(|cols|, i requires 0 <= i < |cols| => StatOf(rt, data, cols[i]));
    forall i | 0 <= i < |cols| ensures stats[i].Some? {
      assert cols[i] in cols;
      NumericColumnHasValues(rt, data, cols[i]);
    }
    Seqs.SomesAllPresent(stats);
    Seqs.Somes(stats)
  }

  /** "Analyses possibles": the number of unordered pairs of numeric columns. */
  function PairCount(k: nat): (r: nat)
  {
    k * (k - 1) / 2
  }

  /** Pairs `(i, j)` with `i < j < k`, counted one new column at a time. */
  function PairsUpTo(k: nat): nat
  {
    if k == 0 then 0 else PairsUpTo(k - 1) + (k - 1)
  }

  /** `k(k-1)/2` is exact and counts the unordered pairs. */
  lemma {:induction false} PairCountCountsPairs(k: nat)
    ensures (k * (k - 1)) % 2 == 0
    ensures PairCount(k) == PairsUpTo(k)
  {
    if k > 0 {
      PairCountCountsPairs(k - 1);
      assert k * (k - 1) == (k - 1) * (k - 2) + 2 * (k - 1);
    }
  }

  datatype Trend = Increasing | Decreasing | Stable
  datatype Significance = High | Medium | Low

  /** The sums of the correlation loop: `n = min(|xs|, |ys|)`, each mean is
      the full sum of its sequence divided by `n`, and the deviation products
      run over the first `n` positions. */
  datatype Sums = Sums(n: nat, xMean: real, yMean: real, num: real, xDen: real, yDen: real)

  function Deviations(v: seq<real>, n: nat, mean: real): (d: seq<real>)
    requires n <= |v|
    ensures |d| == n
  {
    seq(n, i requires 0 <= i < n => v[i] - mean)
  }

  function PearsonSums(xs: seq<real>, ys: seq<real>): (p: Sums)
    requires |xs| > 0 && |ys| > 0
    ensures p.n == Min(|xs|, |ys|) && p.n > 0
    ensures p.xMean == Seqs.Sum(xs) / (p.n as real) && p.yMean == Seqs.Sum(ys) / (p.n as real)
    ensures var dx, dy := Deviations(xs, p.n, p.xMean), Deviations(ys, p.n, p.yMean);
            && p.num == Correlation.Dot(dx, dy)
            && p.xDen == Correlation.Dot(dx, dx)
            && p.yDen == Correlation.Dot(dy, dy)
    ensures 0.0 <= p.xDen && 0.0 <= p.yDen
    ensures p.num * p.num <= p.xDen * p.yDen
  {
    var n := Min(|xs|, |ys|);
    var xMean := Seqs.Sum(xs) / (n as real);
    var yMean := Seqs.Sum(ys) / (n as real);
    var dx, dy := Deviations(xs, n, xMean), Deviations(ys, n, yMean);
    Correlation.DotSelfNonNegative(dx);
    Correlation.DotSelfNonNegative(dy);
    Correlation.CauchySchwarz(dx, dy);
    Sums(n, xMean, yMean, Correlation.Dot(dx, dy), Correlation.Dot(dx, dx), Correlation.Dot(dy, dy))
  }

  /** The accumulation loop of the correlation: one pass over the first `n`
      positions adding each product of deviations. It computes the three
      sums of `PearsonSums`. */
  method CorrelationLoop(xs: seq<real>, ys: seq<real>) returns (num: real, xDen: real, yDen: real)
    requires |xs| > 0 && |ys| > 0
    ensures num == PearsonSums(xs, ys).num
    ensures xDen == PearsonSums(xs, ys).xDen && yDen == PearsonSums(xs, ys).yDen
  {
    var n := Min(|xs|, |ys|);
    var xMean := Seqs.Sum(xs) / (n as real);
    var yMean := Seqs.Sum(ys) / (n as real);
    ghost var dx, dy := Deviations(xs, n, xMean), Deviations(ys, n, yMean);
    num, xDen, yDen := 0.0, 0.0, 0.0;
    var i := 0;
    while i < n
      invariant 0 <= i <= n
      invariant num == Correlation.Dot(dx[..i], dy[..i])
      invariant xDen == Correlation.Dot(dx[..i], dx[..i])
      invariant yDen == Correlation.Dot(dy[..i], dy[..i])
    {
      var xDiff := xs[i] - xMean;
      var yDiff := ys[i] - yMean;
      DotStep(dx, dy, i);
      DotStep(dx, dx, i);
      DotStep(dy, dy, i);
      num := num + xDiff * yDiff;
      xDen := xDen + xDiff * xDiff;
      yDen := yDen + yDiff * yDiff;
      i := i + 1;
    }
    assert dx[..n] == dx && dy[..n] == dy;
  }

  /** One more position of the loop adds one more product to a dot product. */
  lemma DotStep(a: seq<real>, b: seq<real>, i: nat)
    requires i < |a| && i < |b|
    ensures Correlation.Dot(a[..i + 1], b[..i + 1]) == Correlation.Dot(a[..i], b[..i]) + a[i] * b[i]
  {
    assert a[..i + 1][..i] == a[..i] && b[..i + 1][..i] == b[..i];
  }

  /** With equally long value lists the means are the true means, so the
      sums are those of Pearson's formula. */
  lemma PearsonMeansEqualLength(xs: seq<real>, ys: seq<real>)
    requires |xs| == |ys| > 0
    ensures PearsonSums(xs, ys).xMean == Seqs.Mean(xs)
    ensures PearsonSums(xs, ys).yMean == Seqs.Mean(ys)
  {
  }

  /** `numerator / Math.sqrt(xDenominator * yDenominator)`; `None` is `NaN`
      (the root is zero only when the numerator is too). */
  function CorrelationOf(rt: Runtime, p: Sums): (r: Option<real>)
    ensures r.Some? ==> r.value * Sqrt(rt, p.xDen * p.yDen) == p.num
  {
    CorrelateOfSums(rt, p);
    Correlate(rt, p.num, p.xDen, p.yDen)
  }

  lemma CorrelateOfSums(rt: Runtime, p: Sums)
    ensures var r := Correlate(rt, p.num, p.xDen, p.yDen);
            r.Some? ==> r.value * Sqrt(rt, p.xDen * p.yDen) == p.num
  {
    var root := Sqrt(rt, p.xDen * p.yDen);
    var r := Correlate(rt, p.num, p.xDen, p.yDen);
    assert r == Quotient(p.num, root);
    QuotientTimesRoot(p.num, root);
  }

  /** The same quotient over the three sums as plain numbers; the lemmas
      below reason at this level. */
  function Correlate(rt: Runtime, num: real, xDen: real, yDen: real): (r: Option<real>)
    ensures r.Some? ==> r.value * Sqrt(rt, xDen * yDen) == num
  {
    Quotient(num, Sqrt(rt, xDen * yDen))
  }

  /** `num / root`, undefined for a zero root. */
  function Quotient(num: real, root: real): (r: Option<real>)
    ensures r.Some? <==> root != 0.0
    ensures r.Some? ==> r.value * root == num
  {
    if root == 0.0 then None else Some(num / root)
  }

  lemma QuotientTimesRoot(num: real, root: real)
    ensures Quotient(num, root).Some? ==> Quotient(num, root).value * root == num
  {
  }

  function Abs(x: real): real { if x < 0.0 then -x else x }

  /** With a true square root, the correlation is defined exactly when both
      deviation sums are positive, and then lies in [-1, 1]. */
  lemma CorrelationBounded(rt: Runtime, xs: seq<real>, ys: seq<real>)
    requires TrueSqrt(rt) && |xs| > 0 && |ys| > 0
    ensures var p := PearsonSums(xs, ys);
            && (CorrelationOf(rt, p).Some? <==> p.xDen * p.yDen > 0.0)
            && (CorrelationOf(rt, p).Some? ==> -1.0 <= CorrelationOf(rt, p).value <= 1.0)
  {
    var p := PearsonSums(xs, ys);
    assert CorrelationOf(rt, p) == Correlate(rt, p.num, p.xDen, p.yDen);
    SqrtOfProduct(rt, p.xDen, p.yDen);
    CorrelationWithin(rt, p.num, p.xDen, p.yDen);
  }

  /** A true square root of the product of two non-negative sums. */
  lemma SqrtOfProduct(rt: Runtime, xDen: real, yDen: real)
    requires TrueSqrt(rt) && 0.0 <= xDen && 0.0 <= yDen
    ensures 0.0 <= Sqrt(rt, xDen * yDen) && Sqrt(rt, xDen * yDen) * Sqrt(rt, xDen * yDen) == xDen * yDen
  {
    NonNegativeProduct(xDen, yDen, xDen * yDen);
  }

  lemma NonNegativeProduct(a: real, b: real, p: real)
    requires 0.0 <= a && 0.0 <= b && a * b == p
    ensures 0.0 <= p
  {
    assert 0.0 <= a * b;
  }

  /** The bound for any sums that satisfy the Cauchy-Schwarz inequality,
      given the root of their product. */
  lemma CorrelationWithin(rt: Runtime, num: real, xDen: real, yDen: real)
    requires 0.0 <= Sqrt(rt, xDen * yDen) && Sqrt(rt, xDen * yDen) * Sqrt(rt, xDen * yDen) == xDen * yDen
    requires num * num <= xDen * yDen
    ensures Correlate(rt, num, xDen, yDen).Some? <==> xDen * yDen > 0.0
    ensures Correlate(rt, num, xDen, yDen).Some? ==> -1.0 <= Correlate(rt, num, xDen, yDen).value <= 1.0
  {
    RootCases(num, xDen * yDen, Sqrt(rt, xDen * yDen));
  }

  /** A zero root means a zero product; otherwise the quotient is within
      [-1, 1]. */
  lemma RootCases(num: real, prod: real, root: real)
    requires 0.0 <= root && root * root == prod && num * num <= prod
    ensures Quotient(num, root).Some? <==> prod > 0.0
    ensures Quotient(num, root).Some? ==> -1.0 <= Quotient(num, root).value <= 1.0
  {
    if root == 0.0 {
      assert prod == 0.0 * 0.0;
    } else {
      PositiveProduct(root, root, prod);
      RatioBounded(num, root, prod);
    }
  }

  /** `num / root` lies in [-1, 1] when `num² ≤ root²`. */
  lemma RatioBounded(num: real, root: real, prod: real)
    requires root > 0.0 && root * root == prod && num * num <= prod
    ensures -1.0 <= num / root <= 1.0
  {
    PositiveProduct(root, root, prod);
    var c := num / root;
    assert c * root == num;
    SquareOfProduct(c, root, num, prod);
    ScaleCompare(c * c, prod, 1.0);
    AbsAbove(c, 1.0);
  }

  /** Stated about a named product so that callers squaring one value get
      the sign without a nonlinear step of their own. */
  lemma PositiveProduct(a: real, b: real, p: real)
    requires a > 0.0 && b > 0.0 && a * b == p
    ensures p > 0.0
  {
    assert a * b > 0.0;
  }

  /** `num = c·root` and `prod = root²` give `num² = c²·prod`. */
  lemma SquareOfProduct(c: real, root: real, num: real, prod: real)
    requires c * root == num && root * root == prod
    ensures num * num == c * c * prod
  {
    assert num * num == (c * root) * (c * root);
  }

  /** Significance buckets of `|correlation|`; a `NaN` correlation is low. */
  function SignificanceOf(corr: Option<real>): (s: Significance)
    ensures s == High <==> corr.Some? && Abs(corr.value) > 0.7
    ensures s == Medium <==> corr.Some? && 0.4 < Abs(corr.value) <= 0.7
    ensures s == Low <==> corr.None? || Abs(corr.value) <= 0.4
  {
    match corr
    case None => Low
    case Some(c) => if Abs(c) > 0.7 then High else if Abs(c) > 0.4 then Medium else Low
  }

  /** With a true square root, the buckets read directly off the sums:
      high when `num² > 0.49·xDen·yDen`, medium when `num² > 0.16·xDen·yDen`,
      each only when that product is positive. */
  lemma SignificanceSquared(rt: Runtime, xs: seq<real>, ys: seq<real>)
    requires TrueSqrt(rt) && |xs| > 0 && |ys| > 0
    ensures var p := PearsonSums(xs, ys);
            var prod := p.xDen * p.yDen;
            var s := SignificanceOf(CorrelationOf(rt, p));
            && (s == High <==> prod > 0.0 && p.num * p.num > 0.49 * prod)
            && (s == Medium <==> prod > 0.0 && 0.16 * prod < p.num * p.num <= 0.49 * prod)
  {
    SignificanceOfBoundedSums(rt, PearsonSums(xs, ys));
  }

  lemma SignificanceOfBoundedSums(rt: Runtime, p: Sums)
    requires TrueSqrt(rt) && 0.0 <= p.xDen && 0.0 <= p.yDen && p.num * p.num <= p.xDen * p.yDen
    ensures var prod := p.xDen * p.yDen;
            var s := SignificanceOf(CorrelationOf(rt, p));
            && (s == High <==> prod > 0.0 && p.num * p.num > 0.49 * prod)
            && (s == Medium <==> prod > 0.0 && 0.16 * prod < p.num * p.num <= 0.49 * prod)
  {
    assert CorrelationOf(rt, p) == Correlate(rt, p.num, p.xDen, p.yDen);
    SqrtOfProduct(rt, p.xDen, p.yDen);
    SignificanceOfSums(rt, p.num, p.xDen, p.yDen);
  }

  /** The same for any sums that satisfy the Cauchy-Schwarz inequality,
      given the root of their product. */
  lemma SignificanceOfSums(rt: Runtime, num: real, xDen: real, yDen: real)
    requires 0.0 <= Sqrt(rt, xDen * yDen) && Sqrt(rt, xDen * yDen) * Sqrt(rt, xDen * yDen) == xDen * yDen
    requires num * num <= xDen * yDen
    ensures var prod := xDen * yDen;
            var s := SignificanceOf(Correlate(rt, num, xDen, yDen));
            && (s == High <==> prod > 0.0 && num * num > 0.49 * prod)
            && (s == Medium <==> prod > 0.0 && 0.16 * prod < num * num <= 0.49 * prod)
  {
    var prod := xDen * yDen;
    CorrelationWithin(rt, num, xDen, yDen);
    var corr := Correlate(rt, num, xDen, yDen);
    if corr.Some? {
      var root := Sqrt(rt, prod);
      var c := corr.value;
      assert c * root == num;
      assert root * root == prod && prod > 0.0;
      SquareOfProduct(c, root, num, prod);
      AbsAboveScaled(c, num, prod, 0.7, 0.49);
      AbsAboveScaled(c, num, prod, 0.4, 0.16);
    } else {
      assert !(prod > 0.0);
    }
  }

  /** When `num = c·√prod`, `|c| > k` is `num² > k²·prod`. */
  lemma AbsAboveScaled(c: real, num: real, prod: real, k: real, kk: real)
    requires prod > 0.0 && 0.0 <= k && k * k == kk && num * num == c * c * prod
    ensures Abs(c) > k <==> num * num > kk * prod
  {
    AbsAbove(c, k);
    ScaleCompare(c * c, prod, kk);
  }

  /** Comparing after scaling by a positive factor is comparing before. */
  lemma ScaleCompare(q: real, prod: real, k: real)
    requires prod > 0.0
    ensures q * prod > k * prod <==> q > k
    ensures q * prod <= k * prod <==> q <= k
  {
    assert q * prod - k * prod == (q - k) * prod;
    if q > k {
      ProductPositive(q - k, prod);
    } else {
      ProductNotPositive(q - k, prod);
    }
  }

  lemma ProductPositive(a: real, b: real)
    requires a > 0.0 && b > 0.0
    ensures a * b > 0.0
  {
  }

  lemma ProductNotPositive(a: real, b: real)
    requires a <= 0.0 && b >= 0.0
    ensures a * b <= 0.0
  {
  }

  /** `|c| > k` exactly when `c² > k²`, for a non-negative `k`. */
  lemma AbsAbove(c: real, k: real)
    requires 0.0 <= k
    ensures Abs(c) > k <==> c * c > k * k
  {
    var a := Abs(c);
    assert c * c == a * a;
    assert a * a - k * k == (a - k) * (a + k);
    if a > k {
      ProductPositive(a - k, a + k);
    } else {
      ProductNotPositive(a - k, a + k);
    }
  }

  /** `secondAvg > firstAvg * 1.05` is increasing, else `< firstAvg * 0.95`
      is decreasing, else stable. */
  function TrendOf(firstAvg: real, secondAvg: real): Trend
  {
    if secondAvg > firstAvg * 1.05 then Increasing
    else if secondAvg < firstAvg * 0.95 then Decreasing
    else Stable
  }

  /** For a positive baseline the trend is the ratio of the two averages
      against the 5% band. */
  lemma TrendByRatio(firstAvg: real, secondAvg: real)
    requires firstAvg > 0.0
    ensures TrendOf(firstAvg, secondAvg) == Increasing <==> secondAvg / firstAvg > 1.05
    ensures TrendOf(firstAvg, secondAvg) == Decreasing <==> secondAvg / firstAvg < 0.95
    ensures TrendOf(firstAvg, secondAvg) == Stable <==> 0.95 <= secondAvg / firstAvg <= 1.05
  {
    var q := secondAvg / firstAvg;
    assert q * firstAvg == secondAvg;
    if q > 1.05 { assert q * firstAvg > 1.05 * firstAvg; }
    if q < 0.95 { assert q * firstAvg < 0.95 * firstAvg; }
    if secondAvg > firstAvg * 1.05 { assert q > 1.05; }
    if secondAvg < firstAvg * 0.95 { assert q < 0.95; }
  }

  /** Unchanged positive averages are stable, but unchanged negative ones
      read as increasing, since `1.05 * firstAvg < firstAvg` then. */
  lemma TrendOfUnchanged(avg: real)
    ensures avg > 0.0 ==> TrendOf(avg, avg) == Stable
    ensures avg < 0.0 ==> TrendOf(avg, avg) == Increasing
  {
  }

  /** The prediction scales the second-half average by the trend. */
  function PredictionOf(trend: Trend, secondAvg: real): (r: real)
    ensures secondAvg > 0.0 ==> (r > secondAvg <==> trend == Increasing)
    ensures secondAvg > 0.0 ==> (r < secondAvg <==> trend == Decreasing)
    ensures trend == Stable ==> r == secondAvg
  {
    match trend
    case Increasing => secondAvg * 1.1
    case Decreasing => secondAvg * 0.9
    case Stable => secondAvg
  }

  /** `sqrt(Σ (y - yMean)² / n) / yMean * 100` over every value of `ys`;
      `None` when the mean is zero and the division has no finite result. */
  function VolatilityOf(rt: Runtime, ys: seq<real>, n: nat, yMean: real): (r: Option<real>)
    requires n > 0
    ensures r.None? <==> yMean == 0.0
    ensures r.Some? && TrueSqrt(rt) ==> (yMean > 0.0 ==> r.value >= 0.0) && (yMean < 0.0 ==> r.value <= 0.0)
  {
    if yMean == 0.0 then None
    else
      var sq := seq(|ys|, i requires 0 <= i < |ys| => (ys[i] - yMean) * (ys[i] - yMean));
      Seqs.SumNonNegative(sq);
      var sd := Sqrt(rt, Seqs.Sum(sq) / (n as real));
      Some(sd / yMean * 100.0)
  }

  datatype Analysis = Analysis(
    correlation: Option<real>,
    trend: Trend,
    volatility: Option<real>,
    prediction: real,
    significance: Significance)

  /** `analytics` for the chosen X and Y columns (empty names stand for none
      chosen). */
  function Analyze(rt: Runtime, data: seq<Row>, xCol: string, yCol: string): (r: Option<Analysis>)
    ensures r.None? <==>
              || xCol == "" || yCol == "" || |data| < 2
              || |NumbersIn(rt, data, xCol)| < 2 || |NumbersIn(rt, data, yCol)| < 2
    ensures r.Some? ==>
              var xs, ys := NumbersIn(rt, data, xCol), NumbersIn(rt, data, yCol);
              var p := PearsonSums(xs, ys);
              var h := p.n / 2;
              && 0 < h < |ys|
              && r.value.correlation == CorrelationOf(rt, p)
              && r.value.trend == TrendOf(Seqs.Mean(ys[..h]), Seqs.Mean(ys[h..]))
              && r.value.prediction == PredictionOf(r.value.trend, Seqs.Mean(ys[h..]))
              && r.value.significance == SignificanceOf(r.value.correlation)
  {
    if xCol == "" || yCol == "" || |data| < 2 then None
    else
      var xs, ys := NumbersIn(rt, data, xCol), NumbersIn(rt, data, yCol);
      if |xs| < 2 || |ys| < 2 then None
      else
        var p := PearsonSums(xs, ys);
        var corr := CorrelationOf(rt, p);
        var h := p.n / 2;
        var firstAvg, secondAvg := Seqs.Mean(ys[..h]), Seqs.Mean(ys[h..]);
        var trend := TrendOf(firstAvg, secondAvg);
        Some(Analysis(corr, trend, VolatilityOf(rt, ys, p.n, p.yMean), PredictionOf(trend, secondAvg), SignificanceOf(corr)))
  }
}

=== FILE: builder.dfy ===
/** `components/ChartBuilder.tsx`: the creation dialog (draft, guard, reset),
    the Y-axis picker, and what a saved chart draws: which rows, which colour
    per series, and the pie's per-column totals. */
module Builder {
  import opened Wrappers
  import opened JsValue
  import Seqs
  import Registry
  import Dashboard

  /** The dialog's `newChart`. */
  datatype Draft = Draft(title: string, kind: Registry.ChartType, xAxis: string, yAxis: seq<string>)

  /** The draft the dialog opens with and returns to after a creation. */
  const EmptyDraft: Draft := Draft("", Registry.Line, "", [])

  /** The builder's palette: the same eight colours as the dashboard's. */
  const Colors: seq<string> := Dashboard.Colors

  /** The create button is enabled, and creating does something, only with
      a title, an X column and at least one Y column. */
  predicate CanCreate(d: Draft)
  {
    d.title != "" && d.xAxis != "" && |d.yAxis| > 0
  }

  /** The chart list and the draft after a click on "create". */
  datatype Created = Created(charts: seq<Registry.ChartConfig>, draft: Draft)

  /** `handleCreateChart`, with the id `Date.now()` would give passed in: an
      incomplete draft changes nothing; a complete one is appended as a chart
      with the palette, and the draft is reset. */
  function CreateChart(charts: seq<Registry.ChartConfig>, draft: Draft, id: string): (r: Created)
    ensures !CanCreate(draft) ==> r == Created(charts, draft)
    ensures CanCreate(draft) ==>
              && |r.charts| == |charts| + 1 && r.charts[..|charts|] == charts
              && r.charts[|charts|] == Registry.ChartConfig(id, draft.title, draft.kind, draft.xAxis, draft.yAxis, Colors)
              && r.draft == EmptyDraft
  {
    if !CanCreate(draft) then Created(charts, draft)
    else
      var chart := Registry.ChartConfig(id, draft.title, draft.kind, draft.xAxis, draft.yAxis, Colors);
      Created(Registry.AddChart(charts, chart), EmptyDraft)
  }

  /** A second click right after a creation does nothing: the reset draft
      cannot create. */
  lemma CreateOnce(charts: seq<Registry.ChartConfig>, draft: Draft, id: string, id2: string)
    ensures var r := CreateChart(charts, draft, id);
            CreateChart(r.charts, r.draft, id2) == (if CanCreate(draft) then r else Created(charts, draft))
  {
  }

  /** Creating under a fresh id and then deleting that id restores the list. */
  lemma CreateThenRemove(charts: seq<Registry.ChartConfig>, draft: Draft, id: string)
    requires CanCreate(draft)
    requires forall i :: 0 <= i < |charts| ==> charts[i].id != id
    ensures Registry.RemoveChart(CreateChart(charts, draft, id).charts, id) == charts
  {
    Registry.AddThenRemove(charts, Registry.ChartConfig(id, draft.title, draft.kind, draft.xAxis, draft.yAxis, Colors));
  }

  /** The test the Y-axis picker filters with. */
  function NotX(xAxis: string): string -> bool
  {
    (c: string) => c != xAxis
  }

  /** The Y-axis picker's choices: every column but the X one, in order. */
  function YOptions(columns: seq<string>, xAxis: string): (r: seq<string>)
    ensures Seqs.IsSubsequence(r, columns)
    ensures forall c :: c in r <==> c in columns && c != xAxis
  {
    Seqs.Filter(NotX(xAxis), columns)
  }

  /** Picking a Y column makes it the only one. */
  function ChooseY(d: Draft, col: string): (r: Draft)
    ensures r.yAxis == [col] && r.title == d.title && r.kind == d.kind && r.xAxis == d.xAxis
  {
    d.(yAxis := [col])
  }

  /** Picking an X column, from all the columns, keeps the Y selection. */
  function ChooseX(d: Draft, col: string): (r: Draft)
    ensures r.xAxis == col && r.yAxis == d.yAxis && r.title == d.title && r.kind == d.kind
    ensures CanCreate(r) <==> d.title != "" && col != "" && |d.yAxis| > 0
  {
    d.(xAxis := col)
  }

  /** The X picker does not look at the Y selection: picking Y first and
      then the same column as X gives a draft that can be created and plots
      that column against itself. */
  lemma XAfterYPlotsItself(d: Draft, col: string)
    requires d.title != "" && col != ""
    ensures var r := ChooseX(ChooseY(d, col), col);
            CanCreate(r) && r.xAxis in r.yAxis
  {
  }

  /** With a title and an X column, picking any offered Y column enables
      creation, and a Y column picked after the X one is never the X
      column. */
  lemma ChosenYCreates(d: Draft, columns: seq<string>, col: string)
    requires d.title != "" && d.xAxis != "" && col in YOptions(columns, d.xAxis)
    ensures CanCreate(ChooseY(d, col))
    ensures d.xAxis !in ChooseY(d, col).yAxis
  {
  }

  /** Series `i` takes `colors[i % colors.length]`. */
  function SeriesColor(i: nat): (c: string)
    ensures c in Colors
  {
    Colors[i % |Colors|]
  }

  /** Colours repeat every eight series and differ within any eight
      consecutive ones. */
  lemma SeriesColorsCycle(i: nat, j: nat)
    ensures SeriesColor(i + |Colors|) == SeriesColor(i)
    ensures i < j < i + |Colors| ==> SeriesColor(i) != SeriesColor(j)
  {
    assert (i + 8) % 8 == i % 8;
    if i < j < i + 8 {
      assert i % 8 != j % 8;
    }
  }

  /** The rows the line, bar and area charts draw: the first twenty. */
  function CartesianRows(data: seq<Row>): (r: seq<Row>)
    ensures |r| == Min(20, |data|) && r == data[..|r|]
  {
    Seqs.Take(data, 20)
  }

  /** The radar draws the first six of those. */
  function RadarRows(data: seq<Row>): (r: seq<Row>)
    ensures |r| == Min(6, |data|) && r == data[..|r|]
  {
    Seqs.Take(CartesianRows(data), 6)
  }

  /** `Number(row[col]) || 0`: `NaN` counts as 0. */
  function PieTerm(rt: Runtime, c: Cell): real
  {
    match NumberOf(rt, c) case Some(x) => x case None => 0.0
  }

  /** One pie slice's value: the total of the column over every row (not
      only the twenty drawn elsewhere). */
  function PieValue(rt: Runtime, data: seq<Row>, col: string): real
  {
    Seqs.Sum(seq(|data|, i requires 0 <= i < |data| => PieTerm(rt, Field(data[i], col))))
  }

  /** The pie totals add up over concatenated data. */
  lemma PieValueAppend(rt: Runtime, a: seq<Row>, b: seq<Row>, col: string)
    ensures PieValue(rt, a + b, col) == PieValue(rt, a, col) + PieValue(rt, b, col)
  {
    var ta := seq(|a|, i requires 0 <= i < |a| => PieTerm(rt, Field(a[i], col)));
    var tb := seq(|b|, i requires 0 <= i < |b| => PieTerm(rt, Field(b[i], col)));
    assert seq(|a + b|, i requires 0 <= i < |a + b| => PieTerm(rt, Field((a + b)[i], col))) == ta + tb;
    Seqs.SumAppend(ta, tb);
  }

  /** On a conforming runtime (`Number("") == 0`), a pie slice shows the same
      total as the dashboard's `sum` for that column: the cells the dashboard
      skips (null, undefined, "", `NaN`) each count 0 in the pie. */
  lemma PieValueIsDashboardSum(rt: Runtime, data: seq<Row>, col: string)
    requires Conforming(rt)
    ensures PieValue(rt, data, col) == Seqs.Sum(Dashboard.ValuesIn(rt, data, col))
  {
    var nums := seq(|data|, i requires 0 <= i < |data| => Dashboard.CountedNumber(rt, Field(data[i], col)));
    Seqs.SumSomes(nums);
    var terms := seq(|data|, i requires 0 <= i < |data| => PieTerm(rt, Field(data[i], col)));
    forall i | 0 <= i < |data| ensures Seqs.OrZero(nums)[i] == terms[i] {
      var c := Field(data[i], col);
      if IsMissing(c) {
        assert c == Absent || c == Null || c == Text("");
      }
    }
    assert Seqs.OrZero(nums) == terms;
  }
}

=== FILE: cleaning.dfy ===
/** The cleaning tools of `components/DataImport.tsx`: filling or removing
    missing values of one column, splitting a text column on a delimiter, and
    renaming columns through a mapping. Each takes the working rows to new
    rows (and, for split and rename, a new column list). */
module Cleaning {
  import opened Wrappers
  import opened JsValue
  import JsObject
  import Seqs
  import Text
  import Sorting

  datatype CleanError =
    | NoColumnOrMethod     // no column, no method, or no working rows
    | NoFillValue          // "fill_value" with a blank literal
    | ModeOfNothing        // "fill_mode" with no numeric value: the reduce throws
    | NoColumnOrDelimiter  // no column, no delimiter, or no working rows
    | NoFirstRow           // `Object.keys(cleanedData[0])` on an empty list throws
    | ColumnNotFound       // the column to split is not a key of the first row
    | NoRows               // rename with no working rows

  /** The method names the missing-value select offers, and what any other
      name does. */
  datatype Method =
    | RemoveRows   // "remove_rows"
    | FillMean     // "fill_mean"
    | FillMedian   // "fill_median"
    | FillMode     // "fill_mode"
    | FillValue    // "fill_value"
    | OtherFill    // another name starting with "fill_": fills with null
    | Other        // any other name: fills with undefined

  function MethodOf(name: string): Method
  {
    if name == "remove_rows" then RemoveRows
    else if name == "fill_mean" then FillMean
    else if name == "fill_median" then FillMedian
    else if name == "fill_mode" then FillMode
    else if name == "fill_value" then FillValue
    else if "fill_" <= name then OtherFill
    else Other
  }
  /** The method names: `remove_rows` removes; every name that starts with
      `fill_` fills, the four known ones their own way; the rest are
      neither. */
  lemma MethodOfByName(name: string)
    ensures MethodOf(name) == RemoveRows <==> name == "remove_rows"
    ensures MethodOf(name) == OtherFill <==>
              "fill_" <= name && name !in ["fill_mean", "fill_median", "fill_mode", "fill_value"]
    ensures MethodOf(name) in [FillMean, FillMedian, FillMode, FillValue, OtherFill] <==> "fill_" <= name
    ensures MethodOf(name) == Other <==> name != "remove_rows" && !("fill_" <= name)
  {
    assert "remove_rows"[0] != "fill_"[0];
    assert "fill_mean"[..5] == "fill_median"[..5] == "fill_mode"[..5] == "fill_value"[..5] == "fill_";
  }

  /** `data.map(row => parseFloat(row[col])).filter(v => !isNaN(v))`. */
  function NumericData(rt: Runtime, data: seq<Row>, col: string): (r: seq<real>)
    ensures |r| <= |data|
    ensures forall x :: x in r <==> exists i :: 0 <= i < |data| && ParseFloatOf(rt, Field(data[i], col)) == Some(x)
  {
    var parsed := seq(|data|, i requires 0 <= i < |data| => ParseFloatOf(rt, Field(data[i], col)));
    forall x ensures Some(x) in parsed <==> exists i :: 0 <= i < |data| && ParseFloatOf(rt, Field(data[i], col)) == Some(x) {
      if Some(x) in parsed {
        var i :| 0 <= i < |parsed| && parsed[i] == Some(x);
      }
      if exists i :: 0 <= i < |data| && ParseFloatOf(rt, Field(data[i], col)) == Some(x) {
        var i :| 0 <= i < |data| && ParseFloatOf(rt, Field(data[i], col)) == Some(x);
        assert parsed[i] == Some(x);
      }
    }
    Seqs.Somes(parsed)
  }

  /** The parsed values grow row by row: a new row adds its value at the
      end when `parseFloat` accepts its cell. */
  lemma NumericDataSnoc(rt: Runtime, data: seq<Row>, row: Row, col: string)
    ensures NumericData(rt, [], col) == []
    ensures NumericData(rt, data + [row], col) == NumericData(rt, data, col) + Seqs.Present(ParseFloatOf(rt, Field(row, col)))
  {
    var d := data + [row];
    var parsed := seq(|d|, i requires 0 <= i < |d| => ParseFloatOf(rt, Field(d[i], col)));
    var prefix := seq(|data|, i requires 0 <= i < |data| => ParseFloatOf(rt, Field(data[i], col)));
    assert parsed == prefix + [ParseFloatOf(rt, Field(row, col))];
    Seqs.SomesSnoc(prefix, ParseFloatOf(rt, Field(row, col)));
  }

  /** `x` is the middle of the values in ascending order: the middle value for
      an odd count, the mean of the two middle values for an even one. */
  ghost predicate MiddleOfSorted(v: seq<real>, x: real)
    requires |v| > 0
  {
    var sorted, mid := Sorting.SortReals(v), |v| / 2;
    if |v| % 2 == 1 then x == sorted[mid] else 2.0 * x == sorted[mid - 1] + sorted[mid]
  }

  /** The `fill_median` value: the middle of the sorted values, or the
      average of the two middle ones for an even count. */
  function MedianFill(v: seq<real>): (r: real)
    requires |v| > 0
    ensures Seqs.MinOf(v) <= r <= Seqs.MaxOf(v)
    ensures |v| % 2 == 1 ==> r in v
    ensures MiddleOfSorted(v, r)
  {
    var sorted := Sorting.SortReals(v);
    var mid := |v| / 2;
    assert sorted[mid] in multiset(v);
    if |v| % 2 != 0 then sorted[mid]
    else
      assert sorted[mid - 1] in multiset(v);
      (sorted[mid - 1] + sorted[mid]) / 2.0
  }

  /** The median fill is a true median for either parity of the count: no
      more than half the values lie strictly below it, and no more than half
      strictly above. */
  lemma MedianFillSplits(v: seq<real>)
    requires |v| > 0
    ensures |Seqs.Filter(x => x < MedianFill(v), v)| <= |v| / 2
    ensures |Seqs.Filter(x => x > MedianFill(v), v)| <= |v| / 2
  {
    var mid := |v| / 2;
    if |v| % 2 == 1 {
      Sorting.BetweenOrderStatistics(v, mid, mid, MedianFill(v));
    } else {
      Sorting.BetweenOrderStatistics(v, mid - 1, mid, MedianFill(v));
    }
  }

  /** The distinct elements of `s` in order of first occurrence. */
  function Dedup(s: seq<string>): (r: seq<string>)
    ensures Seqs.Distinct(r)
    ensures forall x :: x in r <==> x in s
    decreases |s|
  {
    if |s| == 0 then []
    else
      var n := |s| - 1;
      var d := Dedup(s[..n]);
      assert s == s[..n] + [s[n]];
      if s[n] in d then d else d + [s[n]]
  }

  /** `keys.reduce((a, b) => count[a] > count[b] ? a : b)`, as an index. */
  function ReduceIndex(keys: seq<string>, count: string -> nat): (i: nat)
    requires |keys| > 0
    ensures i < |keys|
    ensures forall j :: 0 <= j < |keys| ==> count(keys[j]) <= count(keys[i])
    ensures forall j :: i < j < |keys| ==> count(keys[j]) < count(keys[i])
    decreases |keys|
  {
    var n := |keys| - 1;
    if n == 0 then 0
    else
      var a := ReduceIndex(keys[..n], count);
      assert forall j :: 0 <= j < n ==> keys[..n][j] == keys[j];
      if count(keys[a]) > count(keys[n]) then a else n
  }

  /** `Object.keys(modeMap)`: `String(v)` of each value once, the array
      indices among them in ascending numeric order, then the others in order
      of first occurrence. */
  function ModeKeys(rt: Runtime, v: seq<real>): (r: seq<string>)
    ensures Seqs.Distinct(r)
    ensures forall k :: k in r <==> exists i :: 0 <= i < |v| && rt.numToString(v[i]) == k
  {
    var strs := seq(|v|, i requires 0 <= i < |v| => rt.numToString(v[i]));
    var d := Dedup(strs);
    JsObject.EnumerateSameKeys(d);
    forall k ensures k in d <==> exists i :: 0 <= i < |v| && rt.numToString(v[i]) == k {
      if k in strs {
        var i :| 0 <= i < |strs| && strs[i] == k;
      }
      if exists i :: 0 <= i < |v| && rt.numToString(v[i]) == k {
        var i :| 0 <= i < |v| && rt.numToString(v[i]) == k;
        assert strs[i] == k;
      }
    }
    JsObject.Enumerate(d)
  }

  /** How many values print as `k`. */
  function Frequency(rt: Runtime, v: seq<real>, k: string): nat
  {
    multiset(seq(|v|, i requires 0 <= i < |v| => rt.numToString(v[i])))[k]
  }

  /** The counts the reduce compares. */
  function FrequencyOf(rt: Runtime, v: seq<real>): string -> nat
  {
    k => Frequency(rt, v, k)
  }

  /** Where the reduce ends among the `modeMap` keys. */
  function ModeIndex(rt: Runtime, v: seq<real>): (best: nat)
    requires |v| > 0
    ensures best < |ModeKeys(rt, v)|
  {
    assert rt.numToString(v[0]) in ModeKeys(rt, v);
    ReduceIndex(ModeKeys(rt, v), FrequencyOf(rt, v))
  }

  /** The `fill_mode` key: a printed value of highest frequency; among keys
      of equal frequency, the one the reduce meets last. */
  function ModeKey(rt: Runtime, v: seq<real>): (r: string)
    requires |v| > 0
    ensures exists i :: 0 <= i < |v| && rt.numToString(v[i]) == r
    ensures forall i :: 0 <= i < |v| ==> Frequency(rt, v, rt.numToString(v[i])) <= Frequency(rt, v, r)
    ensures forall j :: 0 <= j < |ModeKeys(rt, v)| && ModeKeys(rt, v)[j] != r
                        && Frequency(rt, v, ModeKeys(rt, v)[j]) == Frequency(rt, v, r) ==>
              exists i :: j < i < |ModeKeys(rt, v)| && ModeKeys(rt, v)[i] == r
  {
    ModeKeyChosen(rt, v);
    ModeKeys(rt, v)[ModeIndex(rt, v)]
  }

  /** The key the reduce ends on is printed from some value, is at least as
      frequent as every other, and comes after every key just as frequent. */
  lemma ModeKeyChosen(rt: Runtime, v: seq<real>)
    requires |v| > 0
    ensures var keys := ModeKeys(rt, v);
            var r := keys[ModeIndex(rt, v)];
            && (exists i :: 0 <= i < |v| && rt.numToString(v[i]) == r)
            && (forall i :: 0 <= i < |v| ==> Frequency(rt, v, rt.numToString(v[i])) <= Frequency(rt, v, r))
            && (forall j :: 0 <= j < |keys| && keys[j] != r && Frequency(rt, v, keys[j]) == Frequency(rt, v, r) ==>
                  exists i :: j < i < |keys| && keys[i] == r)
  {
    var keys := ModeKeys(rt, v);
    var r := keys[ModeIndex(rt, v)];
    assert r in keys;
    ModeKeyMost(rt, v);
    ModeKeyLast(rt, v);
  }

  lemma ModeKeyMost(rt: Runtime, v: seq<real>)
    requires |v| > 0
    ensures var r := ModeKeys(rt, v)[ModeIndex(rt, v)];
            forall i :: 0 <= i < |v| ==> Frequency(rt, v, rt.numToString(v[i])) <= Frequency(rt, v, r)
  {
    var keys := ModeKeys(rt, v);
    var best := ModeIndex(rt, v);
    var count := FrequencyOf(rt, v);
    assert best == ReduceIndex(keys, count);
    forall i | 0 <= i < |v| ensures Frequency(rt, v, rt.numToString(v[i])) <= Frequency(rt, v, keys[best]) {
      var k := rt.numToString(v[i]);
      assert k in keys;
      var j :| 0 <= j < |keys| && keys[j] == k;
      assert count(keys[j]) <= count(keys[best]);
    }
  }

  lemma ModeKeyLast(rt: Runtime, v: seq<real>)
    requires |v| > 0
    ensures var keys := ModeKeys(rt, v);
            var r := keys[ModeIndex(rt, v)];
            forall j :: 0 <= j < |keys| && keys[j] != r && Frequency(rt, v, keys[j]) == Frequency(rt, v, r) ==>
              exists i :: j < i < |keys| && keys[i] == r
  {
    var keys := ModeKeys(rt, v);
    var best := ModeIndex(rt, v);
    var count := FrequencyOf(rt, v);
    assert best == ReduceIndex(keys, count);
    forall j | 0 <= j < |keys| && keys[j] != keys[best] && Frequency(rt, v, keys[j]) == Frequency(rt, v, keys[best])
      ensures exists i :: j < i < |keys| && keys[i] == keys[best]
    {
      assert j != best && count(keys[j]) == count(keys[best]);
      assert j < best && keys[best] == keys[best];
    }
  }

  /** The value written into missing cells, or the error that stops the
      operation first. */
  function FillValueOf(rt: Runtime, m: Method, literal: string, v: seq<real>): (r: Result<Cell, CleanError>)
    ensures r.Err? <==> m == FillMode && |v| == 0
    ensures m == FillMean && |v| > 0 ==>
              r.value.Num? && r.value.n * (|v| as real) == Seqs.Sum(v)
              && Seqs.MinOf(v) <= r.value.n <= Seqs.MaxOf(v)
    ensures m == FillMedian && |v| > 0 ==>
              r.value.Num? && Seqs.MinOf(v) <= r.value.n <= Seqs.MaxOf(v)
              && MiddleOfSorted(v, r.value.n)
    ensures (m == FillMean || m == FillMedian) && |v| == 0 ==> r == Ok(NaN)
    ensures m == FillMode && |v| > 0 ==> r.value.Text? && exists i :: 0 <= i < |v| && rt.numToString(v[i]) == r.value.s
    ensures m == FillValue ==> r == Ok(Text(literal))
    ensures m == OtherFill ==> r == Ok(Null)
  {
    match m
    case FillMean =>
      if |v| == 0 then Ok(NaN)
      else
        Seqs.MeanBetween(v, Seqs.MinOf(v), Seqs.MaxOf(v));
        Ok(Num(Seqs.Mean(v)))
    case FillMedian =>
      if |v| == 0 then Ok(NaN)
      else Ok(Num(MedianFill(v)))
    case FillMode => if |v| == 0 then Err(ModeOfNothing) else Ok(Text(ModeKey(rt, v)))
    case FillValue => Ok(Text(literal))
    case OtherFill => Ok(Null)
    case _ => Ok(Absent)
  }

  /** Every row, with the missing cell of `col` set to `fill`. */
  function FillMissing(data: seq<Row>, col: string, fill: Cell): (r: seq<Row>)
    ensures |r| == |data|
    ensures forall i :: 0 <= i < |data| ==>
              Field(r[i], col) == if IsMissing(Field(data[i], col)) then fill else Field(data[i], col)
    ensures forall i, k :: 0 <= i < |data| && k != col ==> JsObject.Get(r[i], k) == JsObject.Get(data[i], k)
    ensures forall i :: 0 <= i < |data| && !IsMissing(Field(data[i], col)) ==> r[i] == data[i]
  {
    seq(|data|, i requires 0 <= i < |data| =>
      if IsMissing(Field(data[i], col)) then JsObject.Set(data[i], col, fill) else data[i])
  }

  /** `remove_rows`: the rows whose cell in the column is present, in order. */
  function RemoveMissing(data: seq<Row>, column: string): (r: seq<Row>)
    ensures Seqs.IsSubsequence(r, data)
    ensures forall i :: 0 <= i < |r| ==> !IsMissing(Field(r[i], column))
    ensures forall row :: multiset(r)[row] == if IsMissing(Field(row, column)) then 0 else multiset(data)[row]
  {
    var kept := Seqs.Filter((row: Row) => !IsMissing(Field(row, column)), data);
    assert forall i :: 0 <= i < |kept| ==> kept[i] in kept;
    kept
  }

  /** `handleMissingValues`. `cleaned` is `None` when there are no working
      rows; an empty `column` or `methodName` stands for none chosen. */
  function HandleMissing(rt: Runtime, column: string, methodName: string, literal: string,
                         cleaned: Option<seq<Row>>): (r: Result<seq<Row>, CleanError>)
    ensures column == "" || methodName == "" || cleaned.None? ==> r == Err(NoColumnOrMethod)
    ensures column != "" && methodName != "" && cleaned.Some? ==>
              (r == Err(NoFillValue) <==> MethodOf(methodName) == FillValue && Text.Trim(literal) == "")
    ensures column != "" && methodName != "" && cleaned.Some? ==>
              (r == Err(ModeOfNothing) <==> MethodOf(methodName) == FillMode && |NumericData(rt, cleaned.value, column)| == 0)
    ensures column != "" && methodName != "" && cleaned.Some? ==>
              (r.Err? <==> || (MethodOf(methodName) == FillValue && Text.Trim(literal) == "")
                           || (MethodOf(methodName) == FillMode && |NumericData(rt, cleaned.value, column)| == 0))
    ensures r.Ok? && MethodOf(methodName) == RemoveRows ==>
              && Seqs.IsSubsequence(r.value, cleaned.value)
              && (forall i :: 0 <= i < |r.value| ==> !IsMissing(Field(r.value[i], column)))
              && (forall row :: multiset(r.value)[row] ==
                    if IsMissing(Field(row, column)) then 0 else multiset(cleaned.value)[row])
    ensures r.Ok? && MethodOf(methodName) != RemoveRows ==> |r.value| == |cleaned.value|
  {
    if column == "" || methodName == "" || cleaned.None? then Err(NoColumnOrMethod)
    else
      var data := cleaned.value;
      var m := MethodOf(methodName);
      if m == FillValue && Text.Trim(literal) == "" then Err(NoFillValue)
      else if m == RemoveRows then Ok(RemoveMissing(data, column))
      else
        var fill :- FillValueOf(rt, m, literal, NumericData(rt, data, column));
        Ok(FillMissing(data, column, fill))
  }

  /** A fill method keeps every row, writes the fill value into exactly the
      missing cells of the column, and leaves every other cell alone. */
  lemma HandleMissingFills(rt: Runtime, column: string, methodName: string, literal: string,
                           data: seq<Row>, i: nat, k: string)
    requires HandleMissing(rt, column, methodName, literal, Some(data)).Ok?
    requires MethodOf(methodName) != RemoveRows && i < |data|
    ensures var fill := FillValueOf(rt, MethodOf(methodName), literal, NumericData(rt, data, column)).value;
            var out := HandleMissing(rt, column, methodName, literal, Some(data)).value;
            && Field(out[i], column) == (if IsMissing(Field(data[i], column)) then fill else Field(data[i], column))
            && (k != column ==> JsObject.Get(out[i], k) == JsObject.Get(data[i], k))
  {
  }

  /** `parts[i] || null`: a missing or empty piece becomes `null`. */
  function PartCell(parts: seq<string>, i: nat): Cell
  {
    if i < |parts| && parts[i] != "" then Text(parts[i]) else Null
  }

  /** The pieces written into the new columns. */
  function PartCells(parts: seq<string>, newColumns: seq<string>): (cells: seq<Cell>)
    ensures |cells| == |newColumns|
  {
    seq(|newColumns|, i requires 0 <= i < |newColumns| => PartCell(parts, i))
  }

  /** One row of `handleSplitColumn`: a string cell is split, its pieces go to
      the new columns of a copy of the row and the source key is deleted from
      the copy; any other row is kept. */
  function SplitRow(row: Row, column: string, delimiter: string, newColumns: seq<string>): (r: Row)
    requires |delimiter| > 0
    ensures !Field(row, column).Text? ==> r == row
    ensures Field(row, column).Text? ==> JsObject.Get(r, column) == None
    ensures Field(row, column).Text? ==> forall k :: k != column && k !in newColumns ==> JsObject.Get(r, k) == JsObject.Get(row, k)
  {
    match Field(row, column)
    case Text(s) =>
      var parts := Text.Split(s, delimiter);
      JsObject.Delete(JsObject.SetAll(JsObject.Copy(row), newColumns, PartCells(parts, newColumns)), column)
    case _ => row
  }

  /** Each new column (other than the source) receives its piece of the
      split, or null when the piece is empty or missing. */
  lemma SplitRowPieces(row: Row, column: string, delimiter: string, newColumns: seq<string>, i: nat)
    requires |delimiter| > 0 && Field(row, column).Text?
    requires i < |newColumns| && Seqs.LastOccurrence(newColumns, i) && newColumns[i] != column
    ensures JsObject.Get(SplitRow(row, column, delimiter, newColumns), newColumns[i]) ==
              Some(PartCell(Text.Split(Field(row, column).s, delimiter), i))
  {
    var parts := Text.Split(Field(row, column).s, delimiter);
    JsObject.SetAllGet(JsObject.Copy(row), newColumns, PartCells(parts, newColumns), i);
  }

  /** When the text splits into exactly one non-empty piece per new column,
      the new columns hold the pieces in order, and joining them back with
      the delimiter restores the text. */
  lemma SplitRowRejoins(row: Row, column: string, delimiter: string, newColumns: seq<string>)
    requires |delimiter| > 0 && Field(row, column).Text?
    requires Seqs.Distinct(newColumns) && column !in newColumns
    requires var parts := Text.Split(Field(row, column).s, delimiter);
             |parts| == |newColumns| && forall j :: 0 <= j < |parts| ==> parts[j] != ""
    ensures var parts := Text.Split(Field(row, column).s, delimiter);
            && (forall j :: 0 <= j < |newColumns| ==>
                  Field(SplitRow(row, column, delimiter, newColumns), newColumns[j]) == Text(parts[j]))
            && Text.Join(parts, delimiter) == Field(row, column).s
  {
    var s := Field(row, column).s;
    var parts := Text.Split(s, delimiter);
    forall j | 0 <= j < |newColumns|
      ensures Field(SplitRow(row, column, delimiter, newColumns), newColumns[j]) == Text(parts[j])
    {
      SplitRowPieces(row, column, delimiter, newColumns, j);
    }
    Text.JoinSplit(s, delimiter);
  }

  /** `newColumnNames`, or `["Part 1", "Part 2"]` when none were given. */
  function SplitNames(names: seq<string>): (r: seq<string>)
    ensures |r| > 0
    ensures |names| > 0 ==> r == names
  {
    if |names| > 0 then names else ["Part 1", "Part 2"]
  }

  function SplitRows(data: seq<Row>, column: string, delimiter: string, newColumns: seq<string>): (r: seq<Row>)
    requires |delimiter| > 0
    ensures |r| == |data|
    ensures forall i :: 0 <= i < |data| ==> r[i] == SplitRow(data[i], column, delimiter, newColumns)
  {
    seq(|data|, i requires 0 <= i < |data| => SplitRow(data[i], column, delimiter, newColumns))
  }

  /** `headers.filter(h => h !== column)`: every other header, in order. */
  function Without(headers: seq<string>, column: string): (r: seq<string>)
    ensures Seqs.IsSubsequence(r, headers)
    ensures forall h :: h in r <==> h in headers && h != column
  {
    Seqs.Filter(h => h != column, headers)
  }

  /** `handleSplitColumn`: the new rows and the new column list. */
  function HandleSplit(column: string, delimiter: string, names: seq<string>, cleaned: Option<seq<Row>>)
    : (r: Result<(seq<Row>, seq<string>), CleanError>)
    ensures column == "" || delimiter == "" || cleaned.None? ==> r == Err(NoColumnOrDelimiter)
    ensures column != "" && delimiter != "" && cleaned.Some? ==>
              && (|cleaned.value| == 0 ==> r == Err(NoFirstRow))
              && (|cleaned.value| > 0 ==> (r == Err(ColumnNotFound) <==> column !in cleaned.value[0].vals))
    ensures r.Ok? ==>
              && |r.value.0| == |cleaned.value|
              && (forall i :: 0 <= i < |cleaned.value| ==>
                    r.value.0[i] == SplitRow(cleaned.value[i], column, delimiter, SplitNames(names)))
              && r.value.1 == Without(JsObject.Keys(cleaned.value[0]), column) + SplitNames(names)
  {
    if column == "" || delimiter == "" || cleaned.None? then Err(NoColumnOrDelimiter)
    else
      var data := cleaned.value;
      if |data| == 0 then Err(NoFirstRow)
      else
        var headers := JsObject.Keys(data[0]);
        if column !in headers then Err(ColumnNotFound)
        else
          var newColumns := SplitNames(names);
          var rows := SplitRows(data, column, delimiter, newColumns);
          Ok((rows, Without(headers, column) + newColumns))
  }

  /** `mapping[k] || k`: an empty or missing entry keeps the name. */
  function EffectiveName(mapping: JsObject.Obj<string>, k: string): string
  {
    match JsObject.Get(mapping, k)
    case Some(n) => if n != "" then n else k
    case None => k
  }

  function RenamedKeys(mapping: JsObject.Obj<string>, keys: seq<string>): (r: seq<string>)
    ensures |r| == |keys|
    ensures forall i :: 0 <= i < |keys| ==> r[i] == EffectiveName(mapping, keys[i])
  {
    seq(|keys|, i requires 0 <= i < |keys| => EffectiveName(mapping, keys[i]))
  }

  /** One row of `handleRenameColumns`: a new object receiving each value
      under its new name, in the order `Object.keys(row)` lists the old keys. */
  function RenameRow(mapping: JsObject.Obj<string>, row: Row): (r: Row)
    ensures forall k :: k in r.vals <==> exists was :: was in row.vals && EffectiveName(mapping, was) == k
  {
    RenamedDomain(mapping, row);
    JsObject.SetAll(JsObject.Empty(), RenamedKeys(mapping, JsObject.Keys(row)), JsObject.Values(row))
  }

  /** The renamed row holds exactly the new names of the row's keys. */
  lemma RenamedDomain(mapping: JsObject.Obj<string>, row: Row)
    ensures var r := JsObject.SetAll(JsObject.Empty(), RenamedKeys(mapping, JsObject.Keys(row)), JsObject.Values(row));
            forall k :: k in r.vals <==> exists was :: was in row.vals && EffectiveName(mapping, was) == k
  {
    var ks := JsObject.Keys(row);
    var names := RenamedKeys(mapping, ks);
    var r := JsObject.SetAll(JsObject.Empty(), names, JsObject.Values(row));
    assert forall k :: k in r.vals <==> k in names by {
      assert JsObject.Empty<Cell>().vals == map[];
    }
    RenamedNames(mapping, ks, row.vals.Keys);
  }

  /** The new names of a list of keys are the new names of its members. */
  lemma RenamedNames(mapping: JsObject.Obj<string>, ks: seq<string>, u: set<string>)
    requires forall k :: k in ks <==> k in u
    ensures forall k :: k in RenamedKeys(mapping, ks) <==> exists was :: was in u && EffectiveName(mapping, was) == k
  {
    var names := RenamedKeys(mapping, ks);
    forall k ensures k in names <==> exists was :: was in u && EffectiveName(mapping, was) == k {
      if k in names {
        var i :| 0 <= i < |names| && names[i] == k;
        assert ks[i] in u && EffectiveName(mapping, ks[i]) == k;
      }
      if exists was :: was in u && EffectiveName(mapping, was) == k {
        var was :| was in u && EffectiveName(mapping, was) == k;
        assert was in ks;
        var i :| 0 <= i < |ks| && ks[i] == was;
        assert names[i] == k;
      }
    }
  }

  /** Each new name holds the value of the last old key, in enumeration
      order, mapped to it. */
  lemma RenameRowValue(mapping: JsObject.Obj<string>, row: Row, i: nat)
    requires i < |JsObject.Keys(row)|
    requires var ks := JsObject.Keys(row);
             forall j :: i < j < |ks| ==> EffectiveName(mapping, ks[j]) != EffectiveName(mapping, ks[i])
    ensures var ks := JsObject.Keys(row);
            JsObject.Get(RenameRow(mapping, row), EffectiveName(mapping, ks[i])) == JsObject.Get(row, ks[i])
  {
    var names := RenamedKeys(mapping, JsObject.Keys(row));
    JsObject.SetAllGet(JsObject.Empty(), names, JsObject.Values(row), i);
  }

  /** When the renaming keeps the row's names apart, the renamed row is
      created with the new names in the old enumeration order, and
      `Object.keys` lists them in the order that creation order gives. */
  lemma RenameRowKeys(mapping: JsObject.Obj<string>, row: Row)
    requires Seqs.Distinct(RenamedKeys(mapping, JsObject.Keys(row)))
    ensures RenameRow(mapping, row).keys == RenamedKeys(mapping, JsObject.Keys(row))
    ensures JsObject.Keys(RenameRow(mapping, row)) == JsObject.Enumerate(RenamedKeys(mapping, JsObject.Keys(row)))
  {
    JsObject.SetAllFresh(RenamedKeys(mapping, JsObject.Keys(row)), JsObject.Values(row));
  }

  /** A mapping that renames none of the row's keys gives back an object
      JavaScript cannot tell from the row. */
  lemma RenameRowIdentity(mapping: JsObject.Obj<string>, row: Row)
    requires forall k :: k in row.vals ==> EffectiveName(mapping, k) == k
    ensures JsObject.Same(RenameRow(mapping, row), row)
  {
    KeepsOrder(mapping, row);
    KeepsValues(mapping, row);
  }

  /** Under such a mapping the renamed row enumerates the row's keys. */
  lemma KeepsOrder(mapping: JsObject.Obj<string>, row: Row)
    requires forall k :: k in row.vals ==> EffectiveName(mapping, k) == k
    ensures JsObject.Keys(RenameRow(mapping, row)) == JsObject.Keys(row)
  {
    KeepsNames(mapping, row);
    RenameRowKeys(mapping, row);
    JsObject.EnumerateIdempotent(row.keys);
  }

  /** ... and holds the row's values. */
  lemma KeepsValues(mapping: JsObject.Obj<string>, row: Row)
    requires forall k :: k in row.vals ==> EffectiveName(mapping, k) == k
    ensures RenameRow(mapping, row).vals == row.vals
  {
    var r := RenameRow(mapping, row);
    var ks := JsObject.Keys(row);
    KeepsDomain(mapping, row);
    forall k | k in row.vals ensures r.vals[k] == row.vals[k] {
      var i :| 0 <= i < |ks| && ks[i] == k;
      KeepsValue(mapping, row, i);
    }
  }

  lemma KeepsDomain(mapping: JsObject.Obj<string>, row: Row)
    requires forall k :: k in row.vals ==> EffectiveName(mapping, k) == k
    ensures RenameRow(mapping, row).vals.Keys == row.vals.Keys
  {
    var r := RenameRow(mapping, row);
    forall k | k in r.vals ensures k in row.vals {
      var was :| was in row.vals && EffectiveName(mapping, was) == k;
    }
    forall k | k in row.vals ensures k in r.vals {
      assert EffectiveName(mapping, k) == k;
    }
  }

  /** Under such a mapping the new names are the old ones. */
  lemma KeepsNames(mapping: JsObject.Obj<string>, row: Row)
    requires forall k :: k in row.vals ==> EffectiveName(mapping, k) == k
    ensures RenamedKeys(mapping, JsObject.Keys(row)) == JsObject.Keys(row)
  {
    var ks := JsObject.Keys(row);
    var names := RenamedKeys(mapping, ks);
    forall i | 0 <= i < |ks| ensures names[i] == ks[i] {
      assert ks[i] in row.vals;
    }
  }

  /** ... and each key keeps its value. */
  lemma KeepsValue(mapping: JsObject.Obj<string>, row: Row, i: nat)
    requires forall k :: k in row.vals ==> EffectiveName(mapping, k) == k
    requires i < |JsObject.Keys(row)|
    ensures var ks := JsObject.Keys(row);
            JsObject.Get(RenameRow(mapping, row), ks[i]) == JsObject.Get(row, ks[i])
  {
    var ks := JsObject.Keys(row);
    assert EffectiveName(mapping, ks[i]) == ks[i];
    forall j | i < j < |ks| ensures EffectiveName(mapping, ks[j]) != EffectiveName(mapping, ks[i]) {
      assert ks[j] in row.vals;
    }
    RenameRowValue(mapping, row, i);
  }

  /** `handleRenameColumns`: renamed rows, and the column list built from
      the first row's keys, as `Object.keys` lists them, renamed. */
  function HandleRename(mapping: JsObject.Obj<string>, cleaned: Option<seq<Row>>)
    : (r: Result<(seq<Row>, seq<string>), CleanError>)
    ensures cleaned.None? ==> r == Err(NoRows)
    ensures cleaned.Some? ==> (r == Err(NoFirstRow) <==> |cleaned.value| == 0)
    ensures r.Ok? ==>
              && |r.value.0| == |cleaned.value|
              && (forall i :: 0 <= i < |cleaned.value| ==> r.value.0[i] == RenameRow(mapping, cleaned.value[i]))
              && r.value.1 == RenamedKeys(mapping, JsObject.Keys(cleaned.value[0]))
  {
    match cleaned
    case None => Err(NoRows)
    case Some(data) =>
      if |data| == 0 then Err(NoFirstRow)
      else
        var rows := seq(|data|, i requires 0 <= i < |data| => RenameRow(mapping, data[i]));
        Ok((rows, RenamedKeys(mapping, JsObject.Keys(data[0]))))
  }

  /** Renaming with a mapping that renames nothing leaves every row as
      JavaScript sees it, and the column list is the first row's keys. */
  lemma HandleRenameIdentity(mapping: JsObject.Obj<string>, data: seq<Row>)
    requires |data| > 0
    requires forall i, k :: 0 <= i < |data| && k in data[i].vals ==> EffectiveName(mapping, k) == k
    ensures var r := HandleRename(mapping, Some(data));
            && r.Ok?
            && |r.value.0| == |data|
            && (forall i :: 0 <= i < |data| ==> JsObject.Same(r.value.0[i], data[i]))
            && r.value.1 == JsObject.Keys(data[0])
  {
    forall i | 0 <= i < |data| ensures JsObject.Same(RenameRow(mapping, data[i]), data[i]) {
      RenameRowIdentity(mapping, data[i]);
    }
    KeepsNames(mapping, data[0]);
  }
}

=== FILE: correlation.dfy ===
/** The sums behind Pearson's correlation as `AdvancedAnalytics` computes it,
    and the Cauchy–Schwarz inequality that bounds them: the squared
    cross-deviation sum never exceeds the product of the two squared
    deviation sums. */
module Correlation {
  /** `Σ a[i] * b[i]`. */
  function Dot(a: seq<real>, b: seq<real>): real
    requires |a| == |b|
    decreases |a|
  {
    if |a| == 0 then 0.0 else Dot(a[..|a| - 1], b[..|b| - 1]) + a[|a| - 1] * b[|b| - 1]
  }

  /** `Σ (a[i] * t - b[i])²`. */
  function Residual(a: seq<real>, b: seq<real>, t: real): real
    requires |a| == |b|
    decreases |a|
  {
    if |a| == 0 then 0.0
    else
      var d := a[|a| - 1] * t - b[|b| - 1];
      Residual(a[..|a| - 1], b[..|b| - 1], t) + d * d
  }

  lemma {:induction false} ResidualNonNegative(a: seq<real>, b: seq<real>, t: real)
    requires |a| == |b|
    ensures 0.0 <= Residual(a, b, t)
    decreases |a|
  {
    if |a| > 0 {
      ResidualNonNegative(a[..|a| - 1], b[..|b| - 1], t);
    }
  }

  lemma SquareExpansion(x: real, y: real, t: real)
    ensures (x * t - y) * (x * t - y) == t * t * (x * x) - 2.0 * t * (x * y) + y * y
  {
  }

  /** The residual is the quadratic `t²·Σa² − 2t·Σab + Σb²`. */
  lemma {:induction false} ResidualQuadratic(a: seq<real>, b: seq<real>, t: real)
    requires |a| == |b|
    ensures Residual(a, b, t) == t * t * Dot(a, a) - 2.0 * t * Dot(a, b) + Dot(b, b)
    decreases |a|
  {
    if |a| > 0 {
      var n := |a| - 1;
      ResidualQuadratic(a[..n], b[..n], t);
      SquareExpansion(a[n], b[n], t);
    }
  }

  lemma {:induction false} DotSelfNonNegative(a: seq<real>)
    ensures 0.0 <= Dot(a, a)
    decreases |a|
  {
    if |a| > 0 {
      DotSelfNonNegative(a[..|a| - 1]);
    }
  }

  /** Cauchy–Schwarz: `(Σab)² ≤ Σa² · Σb²`. */
  lemma CauchySchwarz(a: seq<real>, b: seq<real>)
    requires |a| == |b|
    ensures Dot(a, b) * Dot(a, b) <= Dot(a, a) * Dot(b, b)
  {
    DotSelfNonNegative(a);
    DotSelfNonNegative(b);
    if Dot(a, a) == 0.0 {
      ZeroNormOrthogonal(a, b);
    } else {
      var t := Dot(a, b) / Dot(a, a);
      ResidualQuadratic(a, b, t);
      ResidualNonNegative(a, b, t);
      QuadraticMinimum(Dot(a, a), Dot(a, b), Dot(b, b));
    }
  }

  /** A sequence whose squares sum to zero is orthogonal to every other. */
  lemma ZeroNormOrthogonal(a: seq<real>, b: seq<real>)
    requires |a| == |b| && Dot(a, a) == 0.0
    ensures Dot(a, b) == 0.0
  {
    var ab, bb := Dot(a, b), Dot(b, b);
    if ab != 0.0 {
      var t := (bb + 1.0) / (2.0 * ab);
      ResidualQuadratic(a, b, t);
      ResidualNonNegative(a, b, t);
      LineGoesNegative(ab, bb);
      assert false;
    }
  }

  lemma LineGoesNegative(ab: real, bb: real)
    requires ab != 0.0
    ensures var t := (bb + 1.0) / (2.0 * ab); t * t * 0.0 - 2.0 * t * ab + bb < 0.0
  {
    var t := (bb + 1.0) / (2.0 * ab);
    assert 2.0 * t * ab == bb + 1.0;
  }

  /** At `t = ab / aa` the quadratic is `bb − ab²/aa`, so its non-negativity
      is the inequality. */
  lemma QuadraticMinimum(aa: real, ab: real, bb: real)
    requires aa > 0.0
    requires 0.0 <= (ab / aa) * (ab / aa) * aa - 2.0 * (ab / aa) * ab + bb
    ensures ab * ab <= aa * bb
  {
    var t := ab / aa;
    assert t * t * aa == t * ab;
    assert 0.0 <= bb - t * ab;
    assert t * ab * aa == ab * ab;
  }
}

=== FILE: dashboard.dfy ===
/** `components/Dashboard.tsx`: the summary cards (`stats`), the cleaned rows
    every chart draws (`chartData`), and which columns and summaries each
    chart shows. The two decimals `toFixed(2)` keeps are not modelled: the
    figures here are exact. */
module Dashboard {
  import opened Wrappers
  import opened JsValue
  import Seqs
  import Text
  import JsObject
  import Analytics

  /** `Number(value)` for a cell that is not null, undefined or ""; `None`
      for those cells and for a value that is not a finite number. */
  function CountedNumber(rt: Runtime, c: Cell): (r: Option<real>)
    ensures r.Some? ==> r == NumberOf(rt, c)
    ensures r != NumberOf(rt, c) <==> IsMissing(c) && NumberOf(rt, c).Some?
  {
    if IsMissing(c) then None else NumberOf(rt, c)
  }

  /** A boolean workbook cell is counted, as 1 or 0. */
  lemma BooleansCount(rt: Runtime, b: bool)
    ensures CountedNumber(rt, Bool(b)) == Some(if b then 1.0 else 0.0)
  {
  }

  /** The values one summary counts, in row order. */
  function ValuesIn(rt: Runtime, data: seq<Row>, col: string): (r: seq<real>)
    ensures |r| <= |data|
    ensures forall x :: x in r <==> exists i :: 0 <= i < |data| && CountedNumber(rt, Field(data[i], col)) == Some(x)
  {
    var nums := seq(|data|, i requires 0 <= i < |data| => CountedNumber(rt, Field(data[i], col)));
    forall x ensures Some(x) in nums <==> exists i :: 0 <= i < |data| && CountedNumber(rt, Field(data[i], col)) == Some(x) {
      if Some(x) in nums {
        var i :| 0 <= i < |nums| && nums[i] == Some(x);
      }
      if exists i :: 0 <= i < |data| && CountedNumber(rt, Field(data[i], col)) == Some(x) {
        var i :| 0 <= i < |data| && CountedNumber(rt, Field(data[i], col)) == Some(x);
        assert nums[i] == Some(x);
      }
    }
    Seqs.Somes(nums)
  }

  /** `ValuesIn` keeps the counted values of the rows in order: none for no
      rows, and one more row adds its own value, if it has one, at the end. */
  lemma ValuesInSnoc(rt: Runtime, data: seq<Row>, row: Row, col: string)
    ensures ValuesIn(rt, [], col) == []
    ensures ValuesIn(rt, data + [row], col) == ValuesIn(rt, data, col) + Seqs.Present(CountedNumber(rt, Field(row, col)))
  {
    var d := data + [row];
    var nums := seq(|d|, i requires 0 <= i < |d| => CountedNumber(rt, Field(d[i], col)));
    var prefix := seq(|data|, i requires 0 <= i < |data| => CountedNumber(rt, Field(data[i], col)));
    assert nums == prefix + [CountedNumber(rt, Field(row, col))];
    Seqs.SomesSnoc(prefix, CountedNumber(rt, Field(row, col)));
  }

  /** A non-empty column name with at least one counted value. */
  predicate IsNumeric(rt: Runtime, data: seq<Row>, col: string)
  {
    col != "" && exists i | 0 <= i < |data| :: CountedNumber(rt, Field(data[i], col)).Some?
  }

  /** The dashboard's `numericColumns`, in column order. */
  function NumericColumns(rt: Runtime, data: seq<Row>, columns: seq<string>): (r: seq<string>)
    ensures Seqs.IsSubsequence(r, columns)
    ensures forall c :: c in r <==> c in columns && IsNumeric(rt, data, c)
  {
    Seqs.Filter(c => IsNumeric(rt, data, c), columns)
  }

  lemma NumericHasValues(rt: Runtime, data: seq<Row>, col: string)
    requires IsNumeric(rt, data, col)
    ensures |ValuesIn(rt, data, col)| > 0
  {
    var i :| 0 <= i < |data| && CountedNumber(rt, Field(data[i], col)).Some?;
    assert CountedNumber(rt, Field(data[i], col)).value in ValuesIn(rt, data, col);
  }

  /** A column the dashboard summarises is numeric for the analytics view
      too, whose test is looser (it lets `null` count as 0). */
  lemma NumericWithinAnalytics(rt: Runtime, data: seq<Row>, columns: seq<string>)
    ensures forall c :: c in NumericColumns(rt, data, columns) ==> c in Analytics.NumericColumns(rt, data, columns)
  {
    forall c | c in NumericColumns(rt, data, columns)
      ensures c in Analytics.NumericColumns(rt, data, columns)
    {
      var i :| 0 <= i < |data| && CountedNumber(rt, Field(data[i], c)).Some?;
      assert NumberOf(rt, Field(data[i], c)).Some? && Field(data[i], c) != Text("");
    }
  }

  /** The converse fails: a column holding only `null` is numeric for the
      analytics view and not for the dashboard. */
  lemma NullColumnOnlyInAnalytics(rt: Runtime)
    ensures var data := [JsObject.Set(JsObject.Empty(), "a", Null)];
            && "a" in Analytics.NumericColumns(rt, data, ["a"])
            && "a" !in NumericColumns(rt, data, ["a"])
  {
    var data := [JsObject.Set(JsObject.Empty(), "a", Null)];
    assert Field(data[0], "a") == Null;
    assert Analytics.HasNumber(rt, data, "a");
  }

  /** The half-split trend: with at least four values and a non-zero
      first-half average, `(secondAvg - firstAvg) / firstAvg * 100` with the
      halves split at `⌊n/2⌋`; otherwise no trend. */
  function HalfTrend(v: seq<real>): (t: Option<real>)
    ensures t.Some? <==> |v| >= 4 && Seqs.Mean(v[..|v| / 2]) != 0.0
  {
    if |v| < 4 then None
    else
      var mid := |v| / 2;
      var first, second := Seqs.Mean(v[..mid]), Seqs.Mean(v[mid..]);
      if first == 0.0 then None else Some((second - first) / first * 100.0)
  }

  /** The trend is positive exactly when the second half moves away from zero
      in the direction of the first: up from a positive average, down from a
      negative one. */
  lemma HalfTrendPositive(v: seq<real>)
    requires |v| >= 4
    ensures var f, s := Seqs.Mean(v[..|v| / 2]), Seqs.Mean(v[|v| / 2..]);
            HalfTrend(v).Some? && HalfTrend(v).value > 0.0 <==> (f > 0.0 && s > f) || (f < 0.0 && s < f)
  {
    var f, s := Seqs.Mean(v[..|v| / 2]), Seqs.Mean(v[|v| / 2..]);
    if f != 0.0 {
      QuotientPositive(s - f, f);
    }
  }

  /** A quotient is positive exactly when both operands have the same sign. */
  lemma QuotientPositive(a: real, b: real)
    requires b != 0.0
    ensures a / b * 100.0 > 0.0 <==> (a > 0.0 && b > 0.0) || (a < 0.0 && b < 0.0)
  {
    var q := a / b;
    assert q * b == a;
    if q > 0.0 && b > 0.0 {
      Analytics.ProductPositive(q, b);
    } else if q > 0.0 && b < 0.0 {
      Analytics.ProductPositive(q, -b);
    } else if q <= 0.0 && b > 0.0 {
      Analytics.ProductNotPositive(q, b);
    } else if q <= 0.0 && b < 0.0 {
      Analytics.ProductNotPositive(q, -b);
    }
  }

  /** One summary card. */
  datatype Summary = Summary(
    column: string, sum: real, avg: real, min: real, max: real, count: nat,
    trendPercent: real, isPositiveTrend: bool)

  /** The summary of one column; all zeros when it has no counted value. */
  function SummaryOf(rt: Runtime, data: seq<Row>, col: string): (r: Summary)
    ensures r.column == col && r.count == |ValuesIn(rt, data, col)|
    ensures r.isPositiveTrend <==> r.trendPercent > 0.0
    ensures r.count == 0 ==> r == Summary(col, 0.0, 0.0, 0.0, 0.0, 0, 0.0, false)
    ensures r.count > 0 ==>
              var v := ValuesIn(rt, data, col);
              && r.sum == Seqs.Sum(v) && r.avg == r.sum / (r.count as real)
              && r.min in v && r.max in v
              && (forall i :: 0 <= i < |v| ==> r.min <= v[i] <= r.max)
              && r.min <= r.avg <= r.max
              && (HalfTrend(v).Some? ==> r.trendPercent == HalfTrend(v).value)
              && (HalfTrend(v).None? ==> r.trendPercent == 0.0)
  {
    var v := ValuesIn(rt, data, col);
    if |v| == 0 then Summary(col, 0.0, 0.0, 0.0, 0.0, 0, 0.0, false)
    else
      var lo, hi := Seqs.MinOf(v), Seqs.MaxOf(v);
      Seqs.MeanBetween(v, lo, hi);
      var trend := match HalfTrend(v) case Some(t) => t case None => 0.0;
      var positive := HalfTrend(v).Some? && trend > 0.0;
      Summary(col, Seqs.Sum(v), Seqs.Sum(v) / (|v| as real), lo, hi, |v|, trend, positive)
  }

  predicate Counted(s: Summary) { s.count > 0 }

  /** `stats`: `None` without data, columns or a numeric column; otherwise the
      summaries of the first eight numeric columns, in column order, none of
      them empty. */
  function Stats(rt: Runtime, data: seq<Row>, columns: seq<string>): (r: Option<seq<Summary>>)
    ensures r.None? <==> |data| == 0 || |columns| == 0 || |NumericColumns(rt, data, columns)| == 0
    ensures r.Some? ==>
              var cols := Seqs.Take(NumericColumns(rt, data, columns), 8);
              && |r.value| == |cols|
              && forall i :: 0 <= i < |cols| ==>
                   && r.value[i] == SummaryOf(rt, data, cols[i])
                   && r.value[i].count > 0
  {
    if |data| == 0 || |columns| == 0 then None
    else
      var numeric := NumericColumns(rt, data, columns);
      if |numeric| == 0 then None
      else
        var cols := Seqs.Take(numeric, 8);
        AllCounted(rt, data, cols);
        Some(Seqs.Filter(Counted, Summaries(rt, data, cols)))
  }

  /** The summary of each column, in order. */
  function Summaries(rt: Runtime, data: seq<Row>, cols: seq<string>): (r: seq<Summary>)
    ensures |r| == |cols| && forall i :: 0 <= i < |cols| ==> r[i] == SummaryOf(rt, data, cols[i])
  {
    seq(|cols|, i requires 0 <= i < |cols| => SummaryOf(rt, data, cols[i]))
  }

  /** The summaries of numeric columns all count something, so filtering
      out the empty ones keeps them all. */
  lemma AllCounted(rt: Runtime, data: seq<Row>, cols: seq<string>)
    requires forall c :: c in cols ==> IsNumeric(rt, data, c)
    ensures var all := Summaries(rt, data, cols);
            && (forall i :: 0 <= i < |all| ==> all[i].count > 0)
            && Seqs.Filter(Counted, all) == all
  {
    var all := Summaries(rt, data, cols);
    forall i | 0 <= i < |all| ensures Counted(all[i]) {
      assert cols[i] in cols;
      NumericHasValues(rt, data, cols[i]);
    }
    Seqs.FilterKeepsAll(Counted, all);
  }

  /** The cleaning `chartData` applies to one cell: null and undefined become
      0; a string is trimmed, then becomes its number when `Number` accepts
      it, 0 when nothing is left, and stays the trimmed text otherwise. */
  function CleanCell(rt: Runtime, c: Cell): (r: Cell)
    ensures !IsNullish(r)
    ensures IsNullish(c) ==> r == Num(0.0)
    ensures c.Text? ==> match rt.numberOfText(Text.Trim(c.s))
                        case Some(n) => r == Num(n)
                        case None => r == (if Text.Trim(c.s) == "" then Num(0.0) else Text(Text.Trim(c.s)))
    ensures !c.Text? && !IsNullish(c) ==> r == c
  {
    match c
    case Absent => Num(0.0)
    case Null => Num(0.0)
    case Text(s) =>
      var t := Text.Trim(s);
      (match rt.numberOfText(t)
       case Some(n) => Num(n)
       case None => if t == "" then Num(0.0) else Text(t))
    case _ => c
  }

  /** Cleaning an already cleaned cell changes nothing. */
  lemma CleanCellIdempotent(rt: Runtime, c: Cell)
    ensures CleanCell(rt, CleanCell(rt, c)) == CleanCell(rt, c)
  {
    if c.Text? {
      Text.TrimIdempotent(c.s);
    }
  }

  /** `if (col && typeof col === "string")`. */
  predicate Named(col: string) { col != "" }

  /** One chart row: `{ index: i + 1 }` followed by the cleaned cell of every
      named column. */
  function ChartRow(rt: Runtime, row: Row, i: nat, columns: seq<string>): (r: Row)
    ensures forall k :: k in r.vals <==> k == "index" || (k in columns && k != "")
  {
    var cols := Seqs.Filter(Named, columns);
    var cells := seq(|cols|, j requires 0 <= j < |cols| => CleanCell(rt, Field(row, cols[j])));
    JsObject.SetAll(JsObject.Set(JsObject.Empty(), "index", Num((i + 1) as real)), cols, cells)
  }

  lemma ChartRowFields(rt: Runtime, row: Row, i: nat, columns: seq<string>, col: string)
    ensures col in columns && col != "" ==> Field(ChartRow(rt, row, i, columns), col) == CleanCell(rt, Field(row, col))
    ensures "index" !in columns ==> Field(ChartRow(rt, row, i, columns), "index") == Num((i + 1) as real)
  {
    if col in columns && col != "" {
      ChartRowColumn(rt, row, i, columns, col);
    }
    if "index" !in columns {
      ChartRowIndex(rt, row, i, columns);
    }
  }

  /** A named column holds its cleaned cell ... */
  lemma ChartRowColumn(rt: Runtime, row: Row, i: nat, columns: seq<string>, col: string)
    requires col in columns && col != ""
    ensures Field(ChartRow(rt, row, i, columns), col) == CleanCell(rt, Field(row, col))
  {
    var cols := Seqs.Filter(Named, columns);
    var cells := seq(|cols|, j requires 0 <= j < |cols| => CleanCell(rt, Field(row, cols[j])));
    var start := JsObject.Set(JsObject.Empty(), "index", Num((i + 1) as real));
    JsObject.SetAllByKey(start, cols, cells, k => CleanCell(rt, Field(row, k)), col);
  }

  /** ... and `index` keeps its number unless a column is called so. */
  lemma ChartRowIndex(rt: Runtime, row: Row, i: nat, columns: seq<string>)
    requires "index" !in columns
    ensures Field(ChartRow(rt, row, i, columns), "index") == Num((i + 1) as real)
  {
    var cols := Seqs.Filter(Named, columns);
    var cells := seq(|cols|, j requires 0 <= j < |cols| => CleanCell(rt, Field(row, cols[j])));
    var start := JsObject.Set(JsObject.Empty(), "index", Num((i + 1) as real));
    assert "index" !in cols;
    assert JsObject.Get(start, "index") == Some(Num((i + 1) as real));
  }

  /** `chartData`: the first twenty rows, numbered from 1, each named column
      cleaned. */
  function ChartData(rt: Runtime, data: seq<Row>, columns: seq<string>): (r: seq<Row>)
    ensures |r| == Min(20, |data|)
    ensures forall i, col :: 0 <= i < |r| && col in columns && col != "" ==>
              Field(r[i], col) == CleanCell(rt, Field(data[i], col))
    ensures "index" !in columns ==> forall i :: 0 <= i < |r| ==> Field(r[i], "index") == Num((i + 1) as real)
    ensures forall i, k :: 0 <= i < |r| ==> (k in r[i].vals <==> k == "index" || (k in columns && k != ""))
  {
    var r := seq(Min(20, |data|), i requires 0 <= i < Min(20, |data|) => ChartRow(rt, data[i], i, columns));
    ChartRowsFields(rt, data, columns, r);
    r
  }

  /** Rows built by `ChartRow` from a prefix of the data, in order, carry
      the cleaned cells, the index and exactly those keys. */
  lemma ChartRowsFields(rt: Runtime, data: seq<Row>, columns: seq<string>, r: seq<Row>)
    requires |r| <= |data| && forall i :: 0 <= i < |r| ==> r[i] == ChartRow(rt, data[i], i, columns)
    ensures forall i, col :: 0 <= i < |r| && col in columns && col != "" ==>
              Field(r[i], col) == CleanCell(rt, Field(data[i], col))
    ensures "index" !in columns ==> forall i :: 0 <= i < |r| ==> Field(r[i], "index") == Num((i + 1) as real)
    ensures forall i, k :: 0 <= i < |r| ==> (k in r[i].vals <==> k == "index" || (k in columns && k != ""))
  {
    forall i, col | 0 <= i < |r| && col in columns && col != ""
      ensures Field(r[i], col) == CleanCell(rt, Field(data[i], col))
    {
      ChartRowColumn(rt, data[i], i, columns, col);
    }
    if "index" !in columns {
      forall i | 0 <= i < |r| ensures Field(r[i], "index") == Num((i + 1) as real) {
        ChartRowIndex(rt, data[i], i, columns);
      }
    }
  }

  /** Columns each chart plots: the first three numeric columns for the line
      chart, the first two for the bar and area charts. */
  function LineColumns(rt: Runtime, data: seq<Row>, columns: seq<string>): (r: seq<string>)
    ensures var numeric := NumericColumns(rt, data, columns);
            |r| == Min(3, |numeric|) && r == numeric[..|r|]
  {
    Seqs.Take(NumericColumns(rt, data, columns), 3)
  }

  function BarColumns(rt: Runtime, data: seq<Row>, columns: seq<string>): (r: seq<string>)
    ensures var numeric := NumericColumns(rt, data, columns);
            |r| == Min(2, |numeric|) && r == numeric[..|r|]
  {
    Seqs.Take(NumericColumns(rt, data, columns), 2)
  }

  /** The bar and area charts plot a prefix of the line chart's columns. */
  lemma BarColumnsWithinLine(rt: Runtime, data: seq<Row>, columns: seq<string>)
    ensures var line, bar := LineColumns(rt, data, columns), BarColumns(rt, data, columns);
            |bar| <= |line| && bar == line[..|bar|]
  {
  }

  /** The dashboard's eight series colours. */
  const Colors: seq<string> := ["#3B82F6", "#10B981", "#F59E0B", "#EF4444", "#8B5CF6", "#06B6D4", "#F97316", "#84CC16"]

  /** One pie slice. */
  datatype Slice = Slice(name: string, value: real, color: string)

  /** The pie: one slice per summary among the first six, sized by the
      absolute column total, coloured in palette order. */
  function PieSlices(stats: seq<Summary>): (r: seq<Slice>)
    ensures |r| == Min(6, |stats|)
    ensures forall i :: 0 <= i < |r| ==>
              && r[i].name == stats[i].column
              && 0.0 <= r[i].value
              && (r[i].value == stats[i].sum || r[i].value == -stats[i].sum)
              && r[i].color == Colors[i % |Colors|]
  {
    var shown := Seqs.Take(stats, 6);
    seq(|shown|, i requires 0 <= i < |shown| => Slice(shown[i].column, Analytics.Abs(shown[i].sum), Colors[i % |Colors|]))
  }

  /** No two pie slices share a colour. */
  lemma PieColorsDistinct(stats: seq<Summary>)
    ensures var r := PieSlices(stats);
            forall i, j :: 0 <= i < j < |r| ==> r[i].color != r[j].color
  {
    var r := PieSlices(stats);
    forall i, j | 0 <= i < j < |r| ensures r[i].color != r[j].color {
      assert r[i].color == Colors[i] && r[j].color == Colors[j];
    }
  }
}

=== FILE: ingest.dfy ===
/** Ingestion normalisation in `components/DataImport.tsx`: which reader a
    dropped file goes to, how a spreadsheet sheet decoded as an array of arrays
    becomes records keyed by its header row, and the checks made on records
    decoded from CSV. Decoding itself (FileReader, the spreadsheet and CSV
    libraries) happens before these functions run. */
module Ingest {
  import opened Wrappers
  import opened JsValue
  import JsObject
  import Text
  import Seqs

  datatype ImportError =
    | NoSheetSelected      // no file or no sheet chosen
    | EmptySheet           // the sheet has a header row and nothing else, or nothing
    | CsvReadError         // the CSV reader reported errors
    | NoColumnsDetected    // the first CSV record has no keys
    | UnsupportedFormat    // neither .csv nor .xls/.xlsx

  datatype FileKind = Csv | Spreadsheet

  /** `onDrop`: the lower-cased file name's extension picks the reader. */
  function FileKindOf(name: string): Result<FileKind, ImportError>
  {
    var lower := Text.Lower(name);
    if Text.EndsWith(lower, ".csv") then Ok(Csv)
    else if Text.EndsWith(lower, ".xls") || Text.EndsWith(lower, ".xlsx") then Ok(Spreadsheet)
    else Err(UnsupportedFormat)
  }

  /** Some ending of `name` is `ext` up to the letter case. */
  ghost predicate HasSuffix(name: string, ext: string)
  {
    exists i :: 0 <= i <= |name| && Text.Lower(name[i..]) == ext
  }

  lemma EndsWithLower(name: string, ext: string)
    ensures Text.EndsWith(Text.Lower(name), ext) <==> HasSuffix(name, ext)
  {
    var lower := Text.Lower(name);
    if Text.EndsWith(lower, ext) {
      var i := |name| - |ext|;
      assert name == name[..i] + name[i..];
      Text.LowerAppend(name[..i], name[i..]);
      assert Text.Lower(name[i..]) == lower[i..];
    }
    if HasSuffix(name, ext) {
      var i :| 0 <= i <= |name| && Text.Lower(name[i..]) == ext;
      assert name == name[..i] + name[i..];
      Text.LowerAppend(name[..i], name[i..]);
      assert lower[i..] == ext;
    }
  }

  /** The reader is chosen by how the name ends, in any letter case: `.csv`
      goes to the CSV reader, `.xls` or `.xlsx` to the spreadsheet reader. */
  lemma FileKindBySuffix(name: string)
    ensures FileKindOf(name) == Ok(Csv) <==> HasSuffix(name, ".csv")
    ensures FileKindOf(name) == Ok(Spreadsheet) <==>
              !HasSuffix(name, ".csv") && (HasSuffix(name, ".xls") || HasSuffix(name, ".xlsx"))
  {
    EndsWithLower(name, ".csv");
    EndsWithLower(name, ".xls");
    EndsWithLower(name, ".xlsx");
  }

  /** The dispatch ignores letter case. */
  lemma FileKindIgnoresCase(name: string)
    ensures FileKindOf(Text.Lower(name)) == FileKindOf(name)
  {
    Text.LowerIdempotent(name);
  }

  /** A name ending in ".csv", in any letter case, goes to the CSV reader. */
  lemma CsvExtension(stem: string)
    ensures FileKindOf(stem + ".csv") == Ok(Csv)
    ensures FileKindOf(stem + ".CSV") == Ok(Csv)
  {
    var ls := Text.Lower(stem);
    Text.LowerAppend(stem, ".csv");
    Text.LowerAppend(stem, ".CSV");
    assert Text.Lower(".CSV") == Text.Lower(".csv") == ".csv";
    assert (ls + ".csv")[|ls|..] == ".csv";
  }

  /** The lower-cased name ends with the lower-cased extension. */
  lemma LowerKeepsExtension(stem: string, ext: string)
    ensures Text.EndsWith(Text.Lower(stem + ext), Text.Lower(ext))
  {
    Text.LowerAppend(stem, ext);
    var ls := Text.Lower(stem);
    assert (ls + Text.Lower(ext))[|ls|..] == Text.Lower(ext);
  }

  /** A name ending in ".xlsx", in any letter case, goes to the spreadsheet
      reader. */
  lemma XlsxExtension(stem: string)
    ensures FileKindOf(stem + ".XLSX") == Ok(Spreadsheet)
  {
    LowerKeepsExtension(stem, ".XLSX");
    assert Text.Lower(".XLSX") == ".xlsx";
    var x := Text.Lower(stem + ".XLSX");
    assert x[|x| - 1] == 'x';
  }

  /** A name ending in ".xls", in any letter case, goes to the spreadsheet
      reader. */
  lemma XlsExtension(stem: string)
    ensures FileKindOf(stem + ".xls") == Ok(Spreadsheet)
    ensures FileKindOf(stem + ".Xls") == Ok(Spreadsheet)
  {
    LowerKeepsExtension(stem, ".xls");
    LowerKeepsExtension(stem, ".Xls");
    assert Text.Lower(".xls") == Text.Lower(".Xls") == ".xls";
    var x := Text.Lower(stem + ".xls");
    assert x[|x| - 1] == 's';
    var y := Text.Lower(stem + ".Xls");
    assert y[|y| - 1] == 's';
  }

  /** Every name that ends, in any letter case, in none of `.csv`, `.xls`
      and `.xlsx` is refused, and only those. */
  lemma OtherExtensionRefused(name: string)
    ensures FileKindOf(name) == Err(UnsupportedFormat) <==>
              !HasSuffix(name, ".csv") && !HasSuffix(name, ".xls") && !HasSuffix(name, ".xlsx")
  {
    FileKindBySuffix(name);
  }

  /** `row[index]`: positions past the end of a short row read as `undefined`. */
  function CellAt(row: seq<Cell>, i: nat): Cell
  {
    if i < |row| then row[i] else Absent
  }

  /** The column list `processData` receives: the header row, each cell as
      a string. */
  function Columns(rt: Runtime, header: seq<Cell>): seq<string>
  {
    seq(|header|, j requires 0 <= j < |header| => StringOf(rt, header[j]))
  }

  /** The positions `headers.forEach` visits, in order. The sheet decoder
      leaves a hole for a blank header cell, and `forEach` skips holes. */
  function Slots(header: seq<Cell>): (r: seq<nat>)
    ensures forall k :: 0 <= k < |r| ==> r[k] < |header| && header[r[k]] != Absent
    decreases |header|
  {
    if |header| == 0 then []
    else
      var n := |header| - 1;
      var init := Slots(header[..n]);
      assert forall k :: 0 <= k < |init| ==> header[..n][init[k]] == header[init[k]];
      if header[n] == Absent then init else init + [n]
  }

  /** `forEach` visits every header cell that is not a hole, in ascending
      position order. */
  lemma {:induction false} SlotsCover(header: seq<Cell>)
    ensures forall j :: 0 <= j < |header| && header[j] != Absent ==> j in Slots(header)
    ensures forall k, l :: 0 <= k < l < |Slots(header)| ==> Slots(header)[k] < Slots(header)[l]
    decreases |header|
  {
    if |header| > 0 {
      var n := |header| - 1;
      var init := header[..n];
      SlotsCover(init);
      var r, prev := Slots(header), Slots(init);
      assert r == if header[n] == Absent then prev else prev + [n];
      forall j | 0 <= j < |header| && header[j] != Absent ensures j in r {
        if j < n {
          assert init[j] == header[j];
        }
      }
    }
  }

  /** The keys `headers.forEach` assigns, in order. */
  function SlotNames(rt: Runtime, header: seq<Cell>): (names: seq<string>)
    ensures |names| == |Slots(header)|
    ensures forall k :: k in names <==>
              exists j :: 0 <= j < |header| && header[j] != Absent && StringOf(rt, header[j]) == k
  {
    var p := Slots(header);
    var names := seq(|p|, i requires 0 <= i < |p| => StringOf(rt, header[p[i]]));
    SlotsCover(header);
    assert forall j :: 0 <= j < |header| && header[j] != Absent ==> StringOf(rt, header[j]) in names by {
      forall j | 0 <= j < |header| && header[j] != Absent ensures StringOf(rt, header[j]) in names {
        var i :| 0 <= i < |p| && p[i] == j;
        assert names[i] == StringOf(rt, header[j]);
      }
    }
    names
  }

  /** The record built from one data row: `obj[header] = row[index]` for
      every header cell that is not a hole, left to right. */
  function RecordOf(rt: Runtime, header: seq<Cell>, row: seq<Cell>): (r: Row)
    ensures forall k :: k in r.vals <==>
              exists j :: 0 <= j < |header| && header[j] != Absent && StringOf(rt, header[j]) == k
  {
    var p := Slots(header);
    JsObject.SetAll(JsObject.Empty(), SlotNames(rt, header), seq(|p|, i requires 0 <= i < |p| => CellAt(row, p[i])))
  }

  /** A header row without holes is visited at every position. */
  lemma {:induction false} SlotsWithoutHoles(header: seq<Cell>)
    requires forall j :: 0 <= j < |header| ==> header[j] != Absent
    ensures |Slots(header)| == |header|
    ensures forall k :: 0 <= k < |header| ==> Slots(header)[k] == k
    decreases |header|
  {
    if |header| > 0 {
      var n := |header| - 1;
      var init := header[..n];
      assert forall j :: 0 <= j < |init| ==> init[j] != Absent by {
        forall j | 0 <= j < |init| ensures init[j] != Absent {
          assert init[j] == header[j];
        }
      }
      SlotsWithoutHoles(init);
      SlotsSnoc(header);
      var r, prev := Slots(header), Slots(init);
      forall k | 0 <= k < n ensures r[k] == k {
        assert r[k] == prev[k];
      }
    }
  }

  /** Unfolds `Slots` at a last header cell that is not a hole. */
  lemma SlotsSnoc(header: seq<Cell>)
    requires |header| > 0 && header[|header| - 1] != Absent
    ensures Slots(header) == Slots(header[..|header| - 1]) + [|header| - 1]
  {
  }

  /** A header cell that is not a hole reads the cell at its own position,
      unless a later header cell with the same name overwrote it; a header row
      without holes and repeats creates the record's keys in header order, so
      `Object.keys` lists the headers that are array indices first,
      ascending, and the others in header order. */
  lemma RecordOfFields(rt: Runtime, header: seq<Cell>, row: seq<Cell>, j: nat)
    requires j < |header| && header[j] != Absent
    requires forall l :: j < l < |header| && header[l] != Absent ==> StringOf(rt, header[l]) != StringOf(rt, header[j])
    ensures Field(RecordOf(rt, header, row), StringOf(rt, header[j])) == CellAt(row, j)
    ensures (forall l :: 0 <= l < |header| ==> header[l] != Absent) && Seqs.Distinct(Columns(rt, header)) ==>
              RecordOf(rt, header, row).keys == Columns(rt, header)
              && JsObject.Keys(RecordOf(rt, header, row)) == JsObject.Enumerate(Columns(rt, header))
  {
    RecordField(rt, header, row, j);
    if (forall l :: 0 <= l < |header| ==> header[l] != Absent) && Seqs.Distinct(Columns(rt, header)) {
      RecordKeys(rt, header, row);
    }
  }

  /** The field half of `RecordOfFields`. */
  lemma RecordField(rt: Runtime, header: seq<Cell>, row: seq<Cell>, j: nat)
    requires j < |header| && header[j] != Absent
    requires forall l :: j < l < |header| && header[l] != Absent ==> StringOf(rt, header[l]) != StringOf(rt, header[j])
    ensures Field(RecordOf(rt, header, row), StringOf(rt, header[j])) == CellAt(row, j)
  {
    var p := Slots(header);
    var names := SlotNames(rt, header);
    var cells := seq(|p|, i requires 0 <= i < |p| => CellAt(row, p[i]));
    SlotsCover(header);
    var i :| 0 <= i < |p| && p[i] == j;
    assert names[i] == StringOf(rt, header[j]);
    assert Seqs.LastOccurrence(names, i) by {
      forall m | i < m < |names| ensures names[m] != names[i] {
        assert p[m] > j && names[m] == StringOf(rt, header[p[m]]);
      }
    }
    JsObject.SetAllGet(JsObject.Empty(), names, cells, i);
  }

  /** The key-order half of `RecordOfFields`. */
  lemma RecordKeys(rt: Runtime, header: seq<Cell>, row: seq<Cell>)
    requires forall l :: 0 <= l < |header| ==> header[l] != Absent
    requires Seqs.Distinct(Columns(rt, header))
    ensures RecordOf(rt, header, row).keys == Columns(rt, header)
  {
    var p := Slots(header);
    var names := SlotNames(rt, header);
    var cells := seq(|p|, i requires 0 <= i < |p| => CellAt(row, p[i]));
    SlotsWithoutHoles(header);
    assert forall k :: 0 <= k < |names| ==> names[k] == Columns(rt, header)[k];
    assert names == Columns(rt, header);
    JsObject.SetAllFresh(names, cells);
  }

  /** `processSelectedExcelSheet` on the decoded sheet `sheet` (an array of
      arrays whose first row holds the headers); yields the records and the
      column list. */
  function SheetToRecords(rt: Runtime, haveFile: bool, sheetName: string, sheet: seq<seq<Cell>>)
    : (r: Result<(seq<Row>, seq<string>), ImportError>)
    ensures (!haveFile || sheetName == "") ==> r == Err(NoSheetSelected)
    ensures haveFile && sheetName != "" ==> (r == Err(EmptySheet) <==> |sheet| <= 1)
    ensures r.Ok? ==> |r.value.0| == |sheet| - 1
    ensures r.Ok? ==> |r.value.1| == |sheet[0]| && forall j :: 0 <= j < |sheet[0]| ==> r.value.1[j] == StringOf(rt, sheet[0][j])
    ensures r.Ok? ==> forall i :: 0 <= i < |r.value.0| ==> r.value.0[i] == RecordOf(rt, sheet[0], sheet[i + 1])
  {
    if !haveFile || sheetName == "" then Err(NoSheetSelected)
    else if |sheet| <= 1 then Err(EmptySheet)
    else
      var rows := seq(|sheet| - 1, i requires 0 <= i < |sheet| - 1 => RecordOf(rt, sheet[0], sheet[i + 1]));
      Ok((rows, Columns(rt, sheet[0])))
  }

  /** Every record maps each header to the cell below it (the last such cell
      when a header name repeats); a hole in the header row creates no key;
      and a header row without holes and repeats gives every record exactly
      the column list as its keys, in that order. */
  lemma SheetRecordFields(rt: Runtime, sheetName: string, sheet: seq<seq<Cell>>, i: nat, j: nat)
    requires SheetToRecords(rt, true, sheetName, sheet).Ok?
    requires i < |sheet| - 1 && j < |sheet[0]|
    ensures var (rows, columns) := SheetToRecords(rt, true, sheetName, sheet).value;
            && (sheet[0][j] != Absent && (forall l :: j < l < |sheet[0]| && sheet[0][l] != Absent ==> columns[l] != columns[j]) ==>
                  Field(rows[i], columns[j]) == CellAt(sheet[i + 1], j))
            && (sheet[0][j] == Absent && (forall l :: 0 <= l < |sheet[0]| && sheet[0][l] != Absent ==> columns[l] != columns[j]) ==>
                  columns[j] !in rows[i].vals)
            && ((forall l :: 0 <= l < |sheet[0]| ==> sheet[0][l] != Absent) && Seqs.Distinct(columns) ==> rows[i].keys == columns)
  {
    var (rows, columns) := SheetToRecords(rt, true, sheetName, sheet).value;
    var header, record := sheet[0], rows[i];
    assert record == RecordOf(rt, header, sheet[i + 1]);
    assert columns == Columns(rt, header);
    if header[j] != Absent && (forall l :: j < l < |header| && header[l] != Absent ==> columns[l] != columns[j]) {
      RecordField(rt, header, sheet[i + 1], j);
    }
    if header[j] == Absent && (forall l :: 0 <= l < |header| && header[l] != Absent ==> columns[l] != columns[j]) {
      RecordSkipsHole(rt, header, sheet[i + 1], columns[j]);
    }
    if (forall l :: 0 <= l < |header| ==> header[l] != Absent) && Seqs.Distinct(columns) {
      RecordKeys(rt, header, sheet[i + 1]);
    }
  }

  /** A name no visited header cell carries is not a key of the record. */
  lemma RecordSkipsHole(rt: Runtime, header: seq<Cell>, row: seq<Cell>, name: string)
    requires forall l :: 0 <= l < |header| && header[l] != Absent ==> StringOf(rt, header[l]) != name
    ensures name !in RecordOf(rt, header, row).vals
  {
  }

  /** The checks `processCSVData` makes on the records the CSV reader
      produced: reader errors fail, and `Object.keys` of the first record
      becomes the column list, which must not be empty. */
  function CsvToRecords(records: seq<Row>, readerErrors: nat)
    : (r: Result<(seq<Row>, seq<string>), ImportError>)
    ensures readerErrors > 0 ==> r == Err(CsvReadError)
    ensures readerErrors == 0 ==>
              (r == Err(NoColumnsDetected) <==> |records| == 0 || |records[0].keys| == 0)
    ensures r.Ok? ==> r.value.0 == records && r.value.1 == JsObject.Keys(records[0])
  {
    if readerErrors > 0 then Err(CsvReadError)
    else
      var headers := if |records| > 0 then JsObject.Keys(records[0]) else [];
      if |headers| == 0 then Err(NoColumnsDetected) else Ok((records, headers))
  }

  /** The imported column list names every field of the first record once;
      when no field name is an array index, in the order the record's fields
      were created, which for a record the CSV reader builds from a header
      row is header order. */
  lemma CsvColumns(records: seq<Row>)
    requires CsvToRecords(records, 0).Ok?
    ensures var cols := CsvToRecords(records, 0).value.1;
            && Seqs.Distinct(cols)
            && (forall k :: k in cols <==> k in records[0].vals)
            && ((forall k :: k in records[0].vals ==> !JsObject.IsIndex(k)) ==> cols == records[0].keys)
  {
    if forall k :: k in records[0].vals ==> !JsObject.IsIndex(k) {
      JsObject.EnumerateWithoutIndices(records[0].keys);
    }
  }
}

=== FILE: jsobject.dfy ===
/** JavaScript plain objects as the application uses them: string keys in
    creation order, a value per key, assignment that appends a new key at the
    end and keeps an existing key in place, and `delete`. `Object.keys` and
    `Object.values` do not list keys in creation order: keys that are array
    indices ("0", "2023", ...) come first, in ascending numeric order, and the
    other keys follow in creation order (OrdinaryOwnPropertyKeys, section
    10.1.11.1 of ECMA-262). Rows, correction maps, frequency tables and chart
    rows are all such objects. */
module JsObject {
  import opened Wrappers
  import Seqs
  import Sorting
  import Text

  datatype Dict<V> = Dict(keys: seq<string>, vals: map<string, V>)

  /** Keys are listed once each, and exactly the keys that hold a value. */
  ghost predicate Valid<V>(d: Dict<V>)
  {
    && Seqs.Distinct(d.keys)
    && (forall k :: k in d.vals <==> k in d.keys)
  }

  type Obj<V> = d: Dict<V> | Valid(d) witness Dict([], map[])

  /** `{}`. */
  function Empty<V>(): Obj<V>
  {
    Dict([], map[])
  }

  function Get<V>(o: Obj<V>, k: string): Option<V>
  {
    if k in o.vals then Some(o.vals[k]) else None
  }

  /** Two objects with the same keys in the same order and the same value
      under each are the same object. */
  lemma Extensional<V>(a: Obj<V>, b: Obj<V>)
    requires a.keys == b.keys
    requires forall i :: 0 <= i < |a.keys| ==> Get(a, a.keys[i]) == Get(b, a.keys[i])
    ensures a == b
  {
    forall k | k in a.vals ensures a.vals[k] == b.vals[k] {
      var i :| 0 <= i < |a.keys| && a.keys[i] == k;
      assert Get(a, k) == Get(b, k);
    }
    assert a.vals == b.vals;
  }

  /** `o[k] = v` on a copy: a new key goes to the end, an existing key keeps
      its place, and no other key changes. */
  function Set<V>(o: Obj<V>, k: string, v: V): (r: Obj<V>)
    ensures Get(r, k) == Some(v)
    ensures forall k' :: k' != k ==> Get(r, k') == Get(o, k')
    ensures k in o.vals ==> r.keys == o.keys
    ensures k !in o.vals ==> r.keys == o.keys + [k]
  {
    var r := Dict(if k in o.vals then o.keys else o.keys + [k], o.vals[k := v]);
    assert Valid(r);
    r
  }

  /** `delete o[k]` on a copy: the key leaves, the others keep their order. */
  function Delete<V>(o: Obj<V>, k: string): (r: Obj<V>)
    ensures Get(r, k) == None
    ensures forall k' :: k' != k ==> Get(r, k') == Get(o, k')
    ensures r.keys == Seqs.Filter(x => x != k, o.keys)
  {
    var ks := Seqs.Filter(x => x != k, o.keys);
    Seqs.FilterDistinct(x => x != k, o.keys);
    var r := Dict(ks, o.vals - {k});
    assert Valid(r);
    r
  }

  /** The number a string of decimal digits spells. */
  function DecimalValue(k: string): nat
    decreases |k|
  {
    if |k| == 0 then 0
    else
      var c := k[|k| - 1];
      10 * DecimalValue(k[..|k| - 1]) + (if Text.IsDigit(c) then c as int - '0' as int else 0)
  }

  predicate AllDigits(k: string)
  {
    forall i :: 0 <= i < |k| ==> Text.IsDigit(k[i])
  }

  /** An array index: the canonical decimal numeral (no sign, no leading
      zero) of an integer from 0 to 2^32 - 2 (section 6.1.7 of ECMA-262). */
  predicate IsIndex(k: string)
  {
    && 0 < |k| <= 10
    && AllDigits(k)
    && (k[0] == '0' ==> |k| == 1)
    && DecimalValue(k) < 0xFFFF_FFFF
  }

  predicate NotIndex(k: string)
  {
    !IsIndex(k)
  }

  /** `a` is enumerated after `b`: an array index comes before every other
      key and before every larger array index. */
  predicate EnumAfter(a: string, b: string)
  {
    IsIndex(b) && (!IsIndex(a) || DecimalValue(a) > DecimalValue(b))
  }

  lemma EnumAfterPreorder(u: set<string>)
    ensures Sorting.PreorderOn(EnumAfter, u)
  {
  }

  /** The order in which `Object.keys` lists the keys of an object whose keys
      were created in the order `keys`: each new key goes before the first
      listed key that must come after it, which leaves the other keys in
      creation order. */
  function Enumerate(keys: seq<string>): (r: seq<string>)
    ensures multiset(r) == multiset(keys)
  {
    Sorting.SortBy(EnumAfter, keys)
  }

  /** The enumeration lists array indices first, in ascending numeric
      order, and keeps the creation order of every other key. */
  lemma EnumerateOrder(keys: seq<string>)
    ensures var r := Enumerate(keys);
            && (forall i, j :: 0 <= i < j < |r| && IsIndex(r[j]) ==>
                  IsIndex(r[i]) && DecimalValue(r[i]) <= DecimalValue(r[j]))
            && Seqs.Filter(NotIndex, r) == Seqs.Filter(NotIndex, keys)
  {
    var r := Enumerate(keys);
    EnumAfterPreorder(set k | k in keys);
    Sorting.SortBySorted(EnumAfter, keys, set k | k in keys);
    forall i, j | 0 <= i < j < |r| && IsIndex(r[j])
      ensures IsIndex(r[i]) && DecimalValue(r[i]) <= DecimalValue(r[j])
    {
      assert !EnumAfter(r[i], r[j]);
    }
    EnumerateKeepsOthers(keys);
  }

  /** Keys that are not array indices keep their creation order. */
  lemma {:induction false} EnumerateKeepsOthers(keys: seq<string>)
    ensures Seqs.Filter(NotIndex, Enumerate(keys)) == Seqs.Filter(NotIndex, keys)
    decreases |keys|
  {
    if |keys| > 0 {
      var n := |keys| - 1;
      var init, k := keys[..n], keys[n];
      var e := Enumerate(init);
      assert keys == init + [k];
      EnumerateKeepsOthers(init);
      Seqs.FilterAppend(NotIndex, init, [k]);
      if IsIndex(k) {
        InsertIndexKeepsOthers(k, e);
        assert Seqs.Filter(NotIndex, [k]) == [];
        assert Seqs.Filter(NotIndex, init) + [] == Seqs.Filter(NotIndex, init);
      } else {
        Sorting.InsertLast(EnumAfter, k, e);
        Seqs.FilterAppend(NotIndex, e, [k]);
      }
    }
  }

  /** Placing an array index leaves the other keys where they were. */
  lemma {:induction false} InsertIndexKeepsOthers(k: string, e: seq<string>)
    requires IsIndex(k)
    ensures Seqs.Filter(NotIndex, Sorting.Insert(EnumAfter, k, e)) == Seqs.Filter(NotIndex, e)
    decreases |e|
  {
    if |e| == 0 {
      FilterCons(k, []);
    } else if EnumAfter(e[0], k) {
      FilterCons(k, e);
    } else {
      var rest := Sorting.Insert(EnumAfter, k, e[1..]);
      InsertIndexKeepsOthers(k, e[1..]);
      assert Sorting.Insert(EnumAfter, k, e) == [e[0]] + rest;
      FilterCons(e[0], rest);
      FilterCons(e[0], e[1..]);
      assert [e[0]] + e[1..] == e;
    }
  }

  /** Filtering a sequence with a first element. */
  lemma FilterCons(x: string, s: seq<string>)
    ensures Seqs.Filter(NotIndex, [x] + s) == (if NotIndex(x) then [x] else []) + Seqs.Filter(NotIndex, s)
  {
    assert ([x] + s)[0] == x && ([x] + s)[1..] == s;
  }

  /** Keys that are not array indices are listed in creation order. */
  lemma EnumerateWithoutIndices(keys: seq<string>)
    requires forall i :: 0 <= i < |keys| ==> !IsIndex(keys[i])
    ensures Enumerate(keys) == keys
  {
    assert Sorting.SortedBy(EnumAfter, keys);
    Sorting.SortBySortedIdentity(EnumAfter, keys);
  }

  /** Listing keys already in enumeration order changes nothing. */
  lemma EnumerateIdempotent(keys: seq<string>)
    ensures Enumerate(Enumerate(keys)) == Enumerate(keys)
  {
    EnumAfterPreorder(set k | k in keys);
    Sorting.SortBySorted(EnumAfter, keys, set k | k in keys);
    Sorting.SortBySortedIdentity(EnumAfter, Enumerate(keys));
  }

  /** The enumeration lists the same keys, each as often. */
  lemma EnumerateSameKeys(keys: seq<string>)
    ensures |Enumerate(keys)| == |keys|
    ensures forall k :: k in Enumerate(keys) <==> k in keys
    ensures Seqs.Distinct(keys) ==> Seqs.Distinct(Enumerate(keys))
  {
    var r := Enumerate(keys);
    assert |multiset(r)| == |multiset(keys)|;
    assert forall k :: k in r <==> k in multiset(keys);
    if Seqs.Distinct(keys) {
      Seqs.PermutationDistinct(keys, r);
    }
  }

  /** `Object.keys(o)`: every key once. */
  function Keys<V>(o: Obj<V>): (r: seq<string>)
    ensures |r| == |o.keys|
    ensures forall k :: k in r <==> k in o.vals
    ensures Seqs.Distinct(r)
  {
    EnumerateSameKeys(o.keys);
    Enumerate(o.keys)
  }

  /** Two objects JavaScript cannot tell apart: the same values under the
      same keys, enumerated in the same order. */
  ghost predicate Same<V>(a: Obj<V>, b: Obj<V>)
  {
    Keys(a) == Keys(b) && a.vals == b.vals
  }

  /** `{ ...o }`: the copy is created in `o`'s enumeration order. */
  function Copy<V>(o: Obj<V>): (r: Obj<V>)
    ensures Same(r, o)
    ensures r.keys == Keys(o)
  {
    var r := Dict(Keys(o), o.vals);
    EnumerateIdempotent(o.keys);
    r
  }

  /** `Object.values(o)`, in enumeration order. */
  function Values<V>(o: Obj<V>): (r: seq<V>)
    ensures |r| == |Keys(o)|
    ensures forall i :: 0 <= i < |r| ==> Get(o, Keys(o)[i]) == Some(r[i])
  {
    var ks := Keys(o);
    seq(|ks|, i requires 0 <= i < |ks| => o.vals[ks[i]])
  }

  /** `keys.forEach((k, i) => { o[k] = vals[i] })`. */
  function SetAll<V>(o: Obj<V>, keys: seq<string>, vals: seq<V>): (r: Obj<V>)
    requires |vals| == |keys|
    ensures forall k :: k in r.vals <==> k in o.vals || k in keys
    ensures forall k :: k !in keys ==> Get(r, k) == Get(o, k)
    decreases |keys|
  {
    if |keys| == 0 then o
    else
      var n := |keys| - 1;
      assert keys == keys[..n] + [keys[n]];
      Set(SetAll(o, keys[..n], vals[..n]), keys[n], vals[n])
  }

  /** Each key ends up holding the value of its last assignment. */
  lemma {:induction false} SetAllGet<V>(o: Obj<V>, keys: seq<string>, vals: seq<V>, i: nat)
    requires |vals| == |keys| && i < |keys| && Seqs.LastOccurrence(keys, i)
    ensures Get(SetAll(o, keys, vals), keys[i]) == Some(vals[i])
    decreases |keys|
  {
    var n := |keys| - 1;
    SetAllSnoc(o, keys, vals);
    if i < n {
      assert keys[..n][i] == keys[i] && vals[..n][i] == vals[i];
      assert Seqs.LastOccurrence(keys[..n], i);
      SetAllGet(o, keys[..n], vals[..n], i);
      assert keys[n] != keys[i];
    }
  }

  /** When every assigned value is determined by its key, each assigned key
      holds that value, however often it repeats. */
  lemma SetAllByKey<V>(o: Obj<V>, keys: seq<string>, vals: seq<V>, f: string -> V, k: string)
    requires |vals| == |keys| && forall i :: 0 <= i < |keys| ==> vals[i] == f(keys[i])
    requires k in keys
    ensures Get(SetAll(o, keys, vals), k) == Some(f(k))
  {
    var i := Seqs.LastIndex(keys, k);
    SetAllGet(o, keys, vals, i);
  }

  /** Assigning distinct keys the object lacks appends them in order. */
  lemma {:induction false} SetAllKeys<V>(o: Obj<V>, keys: seq<string>, vals: seq<V>)
    requires |vals| == |keys| && Seqs.Distinct(keys)
    requires forall k :: k in keys ==> k !in o.vals
    ensures SetAll(o, keys, vals).keys == o.keys + keys
    decreases |keys|
  {
    if |keys| > 0 {
      var n := |keys| - 1;
      var init, last := keys[..n], keys[n];
      assert keys == init + [last];
      Seqs.DistinctInit(keys);
      forall k | k in init ensures k !in o.vals {
        assert k in keys;
      }
      SetAllKeys(o, init, vals[..n]);
      var prev := SetAll(o, init, vals[..n]);
      assert last !in o.vals && last !in init;
      assert last !in prev.vals;
      SetAllSnoc(o, keys, vals);
      assert SetAll(o, keys, vals).keys == prev.keys + [last] == (o.keys + init) + [last];
      assert (o.keys + init) + [last] == o.keys + keys;
    }
  }

  /** A fresh object assigned distinct keys lists them in order. */
  lemma SetAllFresh<V>(keys: seq<string>, vals: seq<V>)
    requires |vals| == |keys| && Seqs.Distinct(keys)
    ensures SetAll(Empty(), keys, vals).keys == keys
  {
    var e := Empty<V>();
    assert e.keys == [] && e.vals == map[];
    SetAllKeys(e, keys, vals);
  }

  /** The last assignment of a `SetAll` is a `Set`. */
  lemma SetAllSnoc<V>(o: Obj<V>, keys: seq<string>, vals: seq<V>)
    requires |vals| == |keys| && |keys| > 0
    ensures var n := |keys| - 1;
            SetAll(o, keys, vals) == Set(SetAll(o, keys[..n], vals[..n]), keys[n], vals[n])
  {
  }
}

=== FILE: jsvalue.dfy ===
/** Cell values as JavaScript sees them, and the coercions the application
    applies to them (`Number(x)`, `parseFloat(x)`, `String(x)`, truthiness,
    `== null`). Conversions between text and numbers whose results depend on
    the full ECMAScript number grammar, and `Math.sqrt`, are not written out:
    they are fields of a `Runtime` value every operation receives, so every
    property proved here holds for whatever those functions return, unless it
    names the facts it needs (`TrueSqrt`, `Conforming`). */
module JsValue {
  import opened Wrappers
  import JsObject

  /** One table cell: `undefined`, `null`, a finite number, `NaN`, a string,
      or a boolean (the Excel decoder yields `true`/`false` for boolean cells). */
  datatype Cell = Absent | Null | Num(n: real) | NaN | Text(s: string) | Bool(b: bool)

  /** The text/number conversions of the JavaScript runtime. */
  datatype Runtime = Runtime(
    /** `Number(s)` on a string; `None` stands for `NaN`. */
    numberOfText: string -> Option<real>,
    /** `parseFloat(s)`; `None` stands for `NaN`. */
    parseFloat: string -> Option<real>,
    /** `Number.prototype.toString`. */
    numToString: real -> string,
    /** `new Date(s).toISOString().split("T")[0]`; `None` for an invalid date. */
    isoDate: string -> Option<string>,
    /** `Math.sqrt`. */
    sqrt: real -> real)

  /** Facts every conforming JavaScript runtime satisfies; only worked examples
      rely on them. */
  ghost predicate Conforming(rt: Runtime)
  {
    && (forall r :: rt.parseFloat(rt.numToString(r)) == Some(r))
    && rt.parseFloat("null") == None
    && rt.parseFloat("undefined") == None
    && rt.parseFloat("NaN") == None
    && rt.numberOfText("") == Some(0.0)
  }

  /** `Math.sqrt` returns the non-negative square root of a non-negative
      argument (exactly, since the model works over the reals). */
  ghost predicate TrueSqrt(rt: Runtime)
  {
    forall x :: 0.0 <= x ==> 0.0 <= Sqrt(rt, x) && Sqrt(rt, x) * Sqrt(rt, x) == x
  }

  /** `Math.sqrt(x)`. */
  function Sqrt(rt: Runtime, x: real): real
  {
    rt.sqrt(x)
  }

  /** A row is a plain object from column name to cell. */
  type Row = JsObject.Obj<Cell>

  /** `row[k]`: a key the row lacks reads as `undefined`. */
  function Field(row: Row, k: string): Cell
  {
    if k in row.vals then row.vals[k] else Absent
  }

  /** `Number(c)`; `None` stands for `NaN`. */
  function NumberOf(rt: Runtime, c: Cell): Option<real>
  {
    match c
    case Absent => None
    case Null => Some(0.0)
    case Num(r) => Some(r)
    case NaN => None
    case Text(s) => rt.numberOfText(s)
    case Bool(b) => Some(if b then 1.0 else 0.0)
  }

  /** `String(c)`. */
  function StringOf(rt: Runtime, c: Cell): string
  {
    match c
    case Absent => "undefined"
    case Null => "null"
    case Num(r) => rt.numToString(r)
    case NaN => "NaN"
    case Text(s) => s
    case Bool(b) => if b then "true" else "false"
  }

  /** `parseFloat(c)`, which first converts its argument with `String`. */
  function ParseFloatOf(rt: Runtime, c: Cell): Option<real>
  {
    rt.parseFloat(StringOf(rt, c))
  }

  /** JavaScript truthiness. */
  predicate Truthy(c: Cell)
  {
    match c
    case Absent => false
    case Null => false
    case Num(r) => r != 0.0
    case NaN => false
    case Text(s) => s != ""
    case Bool(b) => b
  }

  /** `c === null || c === undefined || c === ""`. */
  predicate IsMissing(c: Cell)
  {
    c == Absent || c == Null || c == Text("")
  }

  /** `c == null` (loose equality). */
  predicate IsNullish(c: Cell)
  {
    c == Absent || c == Null
  }
}

=== FILE: quality.dfy ===
/** The data-quality pass of `components/DataImport.tsx`: the scan that proposes
    corrections for dates not written `YYYY-MM-DD` and for numbers whose text
    is not their canonical form, and the function that writes suggestions back
    into the rows, either all at once or one issue at a time. */
module Quality {
  import opened Wrappers
  import opened JsValue
  import JsObject
  import Seqs
  import Text

  datatype Kind = DateFormat | NumberFormat

  /** One proposed correction: the 1-based row, the text found there, the
      value to write instead, and which scan proposed it. */
  datatype Candidate = Candidate(row: int, original: string, suggestion: Cell, kind: Kind)

  /** Column name to its list of candidates, in the order the scan met them. */
  type Corrections = JsObject.Obj<seq<Candidate>>

  /** A cell the date scan flags: a non-empty string that is not already in
      ISO form but that `new Date` accepts; the suggestion is the ISO date. */
  function DateCandidate(rt: Runtime, c: Cell, index: nat): (r: Option<Candidate>)
    ensures r.Some? <==> c.Text? && c.s != "" && !Text.IsIsoDate(c.s) && rt.isoDate(c.s).Some?
    ensures r.Some? ==> r.value == Candidate(index + 1, c.s, Text(rt.isoDate(c.s).value), DateFormat)
  {
    if c.Text? && c.s != "" && !Text.IsIsoDate(c.s) then
      match rt.isoDate(c.s)
      case None => None
      case Some(d) => Some(Candidate(index + 1, c.s, Text(d), DateFormat))
    else None
  }

  /** A cell the number scan flags: a string whose comma-to-period form parses
      to a number whose own text differs from the string; the suggestion is
      that number. */
  function NumberCandidate(rt: Runtime, c: Cell, index: nat): (r: Option<Candidate>)
    ensures r.Some? <==>
              && c.Text?
              && rt.parseFloat(Text.CommaToPeriod(c.s)).Some?
              && rt.numToString(rt.parseFloat(Text.CommaToPeriod(c.s)).value) != c.s
    ensures r.Some? ==>
              r.value == Candidate(index + 1, c.s, Num(rt.parseFloat(Text.CommaToPeriod(c.s)).value), NumberFormat)
  {
    if c.Text? then
      match rt.parseFloat(Text.CommaToPeriod(c.s))
      case None => None
      case Some(num) =>
        if rt.numToString(num) != c.s then Some(Candidate(index + 1, c.s, Num(num), NumberFormat)) else None
    else None
  }

  /** The candidates one scan proposes for column `col`, row by row. */
  function Gather(data: seq<Row>, col: string, flag: (Cell, nat) -> Option<Candidate>): (r: seq<Candidate>)
    ensures |r| <= |data|
    ensures forall x :: x in r <==> exists i :: 0 <= i < |data| && flag(Field(data[i], col), i) == Some(x)
  {
    var found := seq(|data|, i requires 0 <= i < |data| => flag(Field(data[i], col), i));
    var r := Seqs.Somes(found);
    forall x ensures x in r <==> exists i :: 0 <= i < |data| && flag(Field(data[i], col), i) == Some(x) {
      if Some(x) in found {
        var i :| 0 <= i < |found| && found[i] == Some(x);
        assert flag(Field(data[i], col), i) == Some(x);
      }
      if exists i :: 0 <= i < |data| && flag(Field(data[i], col), i) == Some(x) {
        var i :| 0 <= i < |data| && flag(Field(data[i], col), i) == Some(x);
        assert found[i] == Some(x);
      }
    }
    r
  }

  /** The candidates grow row by row: a new row adds its own flag, if it
      raises one, at the end. */
  lemma GatherSnoc(data: seq<Row>, row: Row, col: string, flag: (Cell, nat) -> Option<Candidate>)
    ensures Gather([], col, flag) == []
    ensures Gather(data + [row], col, flag) == Gather(data, col, flag) + Seqs.Present(flag(Field(row, col), |data|))
  {
    var d := data + [row];
    var found := seq(|d|, i requires 0 <= i < |d| => flag(Field(d[i], col), i));
    var prefix := seq(|data|, i requires 0 <= i < |data| => flag(Field(data[i], col), i));
    assert found == prefix + [flag(Field(row, col), |data|)];
    Seqs.SomesSnoc(prefix, flag(Field(row, col), |data|));
  }

  /** The suggestion a flag carries, if it raised one. */
  function SuggestionOf(c: Option<Candidate>): Option<Cell>
  {
    if c.Some? then Some(c.value.suggestion) else None
  }

  /** A flag that names the 1-based row of the cell it flags. */
  ghost predicate NamesItsRow(flag: (Cell, nat) -> Option<Candidate>)
  {
    forall c: Cell, j: nat :: flag(c, j).Some? ==> flag(c, j).value.row == j + 1
  }

  /** Each row is flagged at most once, under its own number, so the last
      candidate for a row is the flag of that row's cell. */
  lemma {:induction false} GatherLastFor(data: seq<Row>, col: string, flag: (Cell, nat) -> Option<Candidate>, i: nat)
    requires NamesItsRow(flag) && i < |data|
    ensures LastFor(Gather(data, col, flag), i + 1) == SuggestionOf(flag(Field(data[i], col), i))
    decreases |data|
  {
    var n := |data| - 1;
    var init := data[..n];
    assert data == init + [data[n]];
    GatherSnoc(init, data[n], col, flag);
    var prev := Gather(init, col, flag);
    var last := flag(Field(data[n], col), n);
    LastForSnoc(prev, last, i + 1);
    if i == n {
      NoneGatheredAfter(init, col, flag);
    } else {
      assert init[i] == data[i];
      GatherLastFor(init, col, flag, i);
    }
  }

  /** No candidate gathered from `data` names the row after its last. */
  lemma NoneGatheredAfter(data: seq<Row>, col: string, flag: (Cell, nat) -> Option<Candidate>)
    requires NamesItsRow(flag)
    ensures LastFor(Gather(data, col, flag), |data| + 1) == None
  {
    GatherRowsBelow(data, col, flag);
    LastForAbsent(Gather(data, col, flag), |data| + 1);
  }

  /** Every candidate gathered from `data` names one of its rows. */
  lemma GatherRowsBelow(data: seq<Row>, col: string, flag: (Cell, nat) -> Option<Candidate>)
    requires NamesItsRow(flag)
    ensures forall c :: c in Gather(data, col, flag) ==> 1 <= c.row <= |data|
  {
    forall c | c in Gather(data, col, flag) ensures 1 <= c.row <= |data| {
      var j :| 0 <= j < |data| && flag(Field(data[j], col), j) == Some(c);
    }
  }

  /** One more candidate decides its own row and no other. */
  lemma LastForSnoc(cands: seq<Candidate>, last: Option<Candidate>, row: int)
    ensures LastFor(cands + Seqs.Present(last), row) ==
              if last.Some? && last.value.row == row then Some(last.value.suggestion) else LastFor(cands, row)
  {
    if last.Some? {
      assert (cands + [last.value])[..|cands|] == cands;
    } else {
      assert cands + [] == cands;
    }
  }

  /** No candidate for the row, no suggestion. */
  lemma {:induction false} LastForAbsent(cands: seq<Candidate>, row: int)
    requires forall c :: c in cands ==> c.row != row
    ensures LastFor(cands, row) == None
    decreases |cands|
  {
    if |cands| > 0 {
      assert forall c :: c in cands[..|cands| - 1] ==> c in cands;
      LastForAbsent(cands[..|cands| - 1], row);
    }
  }

  function DateCandidates(rt: Runtime, data: seq<Row>, col: string): seq<Candidate>
  {
    Gather(data, col, (c: Cell, i: nat) => DateCandidate(rt, c, i))
  }

  function NumberCandidates(rt: Runtime, data: seq<Row>, col: string): seq<Candidate>
  {
    Gather(data, col, (c: Cell, i: nat) => NumberCandidate(rt, c, i))
  }

  /** The first row's keys whose lower-cased name contains "date". */
  function DateColumns(data: seq<Row>): seq<string>
    requires |data| > 0
  {
    Seqs.Filter(k => Text.Contains(Text.Lower(k), "date"), JsObject.Keys(data[0]))
  }

  /** Some row holds, under `k`, a string that `parseFloat` accepts as is. */
  predicate SomeRowParses(rt: Runtime, data: seq<Row>, k: string)
  {
    exists i | 0 <= i < |data| :: Field(data[i], k).Text? && rt.parseFloat(Field(data[i], k).s).Some?
  }

  /** The first row's keys that do not mention "id" and under which some row
      holds a parseable string. */
  function NumberColumns(rt: Runtime, data: seq<Row>): seq<string>
    requires |data| > 0
  {
    Seqs.Filter(k => !Text.Contains(Text.Lower(k), "id") && SomeRowParses(rt, data, k), JsObject.Keys(data[0]))
  }

  /** `cols.forEach(col => { o[col] = f(col) })`. */
  function SetEach(o: Corrections, cols: seq<string>, f: string -> seq<Candidate>): (r: Corrections)
    ensures forall k :: JsObject.Get(r, k) == if k in cols then Some(f(k)) else JsObject.Get(o, k)
    decreases |cols|
  {
    if |cols| == 0 then o
    else
      var n := |cols| - 1;
      var prev := SetEach(o, cols[..n], f);
      assert forall k :: k in cols <==> k in cols[..n] || k == cols[n] by {
        assert cols == cols[..n] + [cols[n]];
      }
      JsObject.Set(prev, cols[n], f(cols[n]))
  }

  /** `detectAndSuggestCorrections`: date lists first, then number lists,
      which replace the date list of a column both scans pick. */
  function Scan(rt: Runtime, data: seq<Row>): (r: Corrections)
    ensures |data| == 0 ==> r == JsObject.Empty()
    ensures |data| > 0 ==> forall col ::
              JsObject.Get(r, col) ==
                if col in NumberColumns(rt, data) then Some(NumberCandidates(rt, data, col))
                else if col in DateColumns(data) then Some(DateCandidates(rt, data, col))
                else None
  {
    if |data| == 0 then JsObject.Empty()
    else
      var dates := SetEach(JsObject.Empty(), DateColumns(data), col => DateCandidates(rt, data, col));
      SetEach(dates, NumberColumns(rt, data), col => NumberCandidates(rt, data, col))
  }

  /** A date candidate names a row holding the flagged text, a non-empty
      string that is not in ISO form, and suggests its ISO date. */
  lemma DateCandidatesSound(rt: Runtime, data: seq<Row>, col: string, c: Candidate)
    requires c in DateCandidates(rt, data, col)
    ensures 1 <= c.row <= |data| && Field(data[c.row - 1], col) == Text(c.original)
    ensures c.kind == DateFormat && c.original != "" && !Text.IsIsoDate(c.original)
    ensures c.suggestion.Text? && rt.isoDate(c.original) == Some(c.suggestion.s)
  {
    var i :| 0 <= i < |data| && DateCandidate(rt, Field(data[i], col), i) == Some(c);
  }

  /** A number candidate names a row holding the flagged text, whose
      comma-to-period form parses to the suggested number, and the number's
      own text differs from it. */
  lemma NumberCandidatesSound(rt: Runtime, data: seq<Row>, col: string, c: Candidate)
    requires c in NumberCandidates(rt, data, col)
    ensures 1 <= c.row <= |data| && Field(data[c.row - 1], col) == Text(c.original)
    ensures c.kind == NumberFormat && c.suggestion.Num?
    ensures rt.parseFloat(Text.CommaToPeriod(c.original)) == Some(c.suggestion.n)
    ensures rt.numToString(c.suggestion.n) != c.original
  {
    var i :| 0 <= i < |data| && NumberCandidate(rt, Field(data[i], col), i) == Some(c);
  }

  /** The scan lists exactly the columns of the first row that one of the two
      scans selects: a number-scan column gets the number candidates, and any
      other date-named column gets the date candidates. */
  lemma ScanColumns(rt: Runtime, data: seq<Row>, col: string)
    requires JsObject.Get(Scan(rt, data), col).Some?
    ensures |data| > 0 && col in data[0].vals
    ensures col in NumberColumns(rt, data) ==>
              && !Text.Contains(Text.Lower(col), "id") && SomeRowParses(rt, data, col)
              && JsObject.Get(Scan(rt, data), col).value == NumberCandidates(rt, data, col)
    ensures col !in NumberColumns(rt, data) ==>
              && Text.Contains(Text.Lower(col), "date")
              && JsObject.Get(Scan(rt, data), col).value == DateCandidates(rt, data, col)
  {
  }

  /** Conversely, every cell that qualifies yields its candidate: a number
      candidate in each number column, and a date candidate in each date
      column the number scan did not also take. */
  lemma ScanComplete(rt: Runtime, data: seq<Row>, col: string, i: nat)
    requires i < |data|
    ensures col in NumberColumns(rt, data) && NumberCandidate(rt, Field(data[i], col), i).Some? ==>
              NumberCandidate(rt, Field(data[i], col), i).value in JsObject.Get(Scan(rt, data), col).value
    ensures col in DateColumns(data) && col !in NumberColumns(rt, data) && DateCandidate(rt, Field(data[i], col), i).Some? ==>
              DateCandidate(rt, Field(data[i], col), i).value in JsObject.Get(Scan(rt, data), col).value
  {
  }

  /** A column both scans select keeps only number candidates. */
  lemma NumberScanOverrides(rt: Runtime, data: seq<Row>, col: string)
    requires |data| > 0 && col in DateColumns(data) && col in NumberColumns(rt, data)
    ensures forall c :: c in JsObject.Get(Scan(rt, data), col).value ==> c.kind == NumberFormat
  {
    var list := JsObject.Get(Scan(rt, data), col).value;
    assert list == NumberCandidates(rt, data, col);
    forall c | c in list ensures c.kind == NumberFormat {
      NumberCandidatesSound(rt, data, col, c);
    }
  }

  /** The suggestion of the last candidate in `cands` for 1-based row `row`. */
  function LastFor(cands: seq<Candidate>, row: int): Option<Cell>
    decreases |cands|
  {
    if |cands| == 0 then None
    else if cands[|cands| - 1].row == row then Some(cands[|cands| - 1].suggestion)
    else LastFor(cands[..|cands| - 1], row)
  }

  /** `correctedData[c.row - 1][col] = c.suggestion` when that row exists. */
  function ApplyOne(data: seq<Row>, col: string, c: Candidate): (r: seq<Row>)
    ensures |r| == |data|
  {
    if 1 <= c.row <= |data| then data[c.row - 1 := JsObject.Set(data[c.row - 1], col, c.suggestion)]
    else data
  }

  /** `corrections[col].forEach(...)`. */
  function ApplyColumn(data: seq<Row>, col: string, cands: seq<Candidate>): (r: seq<Row>)
    ensures |r| == |data|
    decreases |cands|
  {
    if |cands| == 0 then data
    else
      var n := |cands| - 1;
      ApplyOne(ApplyColumn(data, col, cands[..n]), col, cands[n])
  }

  /** `Object.keys(corrections).forEach(...)` over the first `keys`. */
  function ApplyKeys(data: seq<Row>, corr: Corrections, keys: seq<string>): (r: seq<Row>)
    requires forall k :: k in keys ==> k in corr.vals
    ensures |r| == |data|
    decreases |keys|
  {
    if |keys| == 0 then data
    else
      var n := |keys| - 1;
      ApplyColumn(ApplyKeys(data, corr, keys[..n]), keys[n], corr.vals[keys[n]])
  }

  /** `data.map(row => ({ ...row }))`. */
  function Copies(data: seq<Row>): (r: seq<Row>)
    ensures |r| == |data|
    ensures forall i :: 0 <= i < |data| ==> JsObject.Same(r[i], data[i])
  {
    seq(|data|, i requires 0 <= i < |data| => JsObject.Copy(data[i]))
  }

  /** `applyCorrections(data, corrections)`: the columns are visited in
      `Object.keys(corrections)` order, on copies of the rows; `None` stands
      for a missing corrections argument. */
  function ApplyCorrections(data: seq<Row>, corrections: Option<Corrections>): (r: seq<Row>)
    ensures |r| == |data|
    ensures corrections.None? ==> r == data
  {
    match corrections
    case None => data
    case Some(corr) => ApplyKeys(Copies(data), corr, JsObject.Keys(corr))
  }

  /** What a cell becomes: the override if there is one, else what it was. */
  function Overridden(over: Option<Cell>, was: Option<Cell>): Option<Cell>
  {
    if over.Some? then over else was
  }

  /** The correction list of a column, empty when the column has none. */
  function ListOf(corr: Corrections, col: string): seq<Candidate>
  {
    if col in corr.vals then corr.vals[col] else []
  }

  lemma {:induction false} ApplyColumnCells(data: seq<Row>, col: string, cands: seq<Candidate>, i: nat, k: string)
    requires i < |data|
    ensures JsObject.Get(ApplyColumn(data, col, cands)[i], k) ==
              if k == col then Overridden(LastFor(cands, i + 1), JsObject.Get(data[i], k))
              else JsObject.Get(data[i], k)
    decreases |cands|
  {
    if |cands| > 0 {
      var n := |cands| - 1;
      var prev := ApplyColumn(data, col, cands[..n]);
      ApplyColumnCells(data, col, cands[..n], i, k);
      assert ApplyColumn(data, col, cands) == ApplyOne(prev, col, cands[n]);
      if cands[n].row == i + 1 {
        assert ApplyOne(prev, col, cands[n])[i] == JsObject.Set(prev[i], col, cands[n].suggestion);
      } else {
        assert ApplyOne(prev, col, cands[n])[i] == prev[i];
      }
    }
  }

  lemma {:induction false} ApplyKeysCells(data: seq<Row>, corr: Corrections, keys: seq<string>, i: nat, k: string)
    requires i < |data|
    requires Seqs.Distinct(keys) && forall k' :: k' in keys ==> k' in corr.vals
    ensures JsObject.Get(ApplyKeys(data, corr, keys)[i], k) ==
              if k in keys then Overridden(LastFor(corr.vals[k], i + 1), JsObject.Get(data[i], k))
              else JsObject.Get(data[i], k)
    decreases |keys|
  {
    if |keys| > 0 {
      var n := |keys| - 1;
      assert keys == keys[..n] + [keys[n]];
      assert keys[n] !in keys[..n];
      ApplyKeysCells(data, corr, keys[..n], i, k);
      ApplyColumnCells(ApplyKeys(data, corr, keys[..n]), keys[n], corr.vals[keys[n]], i, k);
    }
  }

  /** Cell by cell, applying corrections writes, in row `i` and column `k`,
      the suggestion of the last candidate of `k`'s list naming row `i + 1`,
      and leaves every other cell as it was; candidates naming rows outside
      the data change nothing. */
  lemma ApplyCorrectionsCells(data: seq<Row>, corr: Corrections, i: nat, k: string)
    requires i < |data|
    ensures JsObject.Get(ApplyCorrections(data, Some(corr))[i], k) ==
              Overridden(LastFor(ListOf(corr, k), i + 1), JsObject.Get(data[i], k))
  {
    ApplyKeysCells(Copies(data), corr, JsObject.Keys(corr), i, k);
  }

  /** No candidate names the row. */
  ghost predicate Untouched(corr: Corrections, row: int)
  {
    forall k, c :: k in corr.vals && c in corr.vals[k] ==> c.row != row
  }

  lemma {:induction false} ApplyColumnKeepsRow(data: seq<Row>, col: string, cands: seq<Candidate>, i: nat)
    requires i < |data| && forall c :: c in cands ==> c.row != i + 1
    ensures ApplyColumn(data, col, cands)[i] == data[i]
    decreases |cands|
  {
    if |cands| > 0 {
      assert forall c :: c in cands[..|cands| - 1] ==> c in cands;
      ApplyColumnKeepsRow(data, col, cands[..|cands| - 1], i);
    }
  }

  lemma {:induction false} ApplyKeysKeepsRow(data: seq<Row>, corr: Corrections, keys: seq<string>, i: nat)
    requires i < |data| && (forall k :: k in keys ==> k in corr.vals) && Untouched(corr, i + 1)
    ensures ApplyKeys(data, corr, keys)[i] == data[i]
    decreases |keys|
  {
    if |keys| > 0 {
      var n := |keys| - 1;
      ApplyKeysKeepsRow(data, corr, keys[..n], i);
      ApplyColumnKeepsRow(ApplyKeys(data, corr, keys[..n]), keys[n], corr.vals[keys[n]], i);
    }
  }

  /** A row no candidate names comes out as a copy JavaScript cannot tell
      from the original, key order included. */
  lemma ApplyCorrectionsKeepsRow(data: seq<Row>, corr: Corrections, i: nat)
    requires i < |data| && Untouched(corr, i + 1)
    ensures JsObject.Same(ApplyCorrections(data, Some(corr))[i], data[i])
  {
    ApplyKeysKeepsRow(Copies(data), corr, JsObject.Keys(corr), i);
  }

  /** Some column has at least one candidate. */
  predicate HasIssues(corr: Corrections)
  {
    exists k | k in corr.keys :: |corr.vals[k]| > 0
  }

  /** What the import screen holds after `processData`. */
  datatype Imported = Imported(
    data: seq<Row>,
    columns: seq<string>,
    issues: Corrections,
    corrected: Option<seq<Row>>,
    cleaned: seq<Row>)

  /** `processData`: scan the rows; when the scan found something, keep the
      scan and a fully corrected copy for review, otherwise keep nothing; the
      raw rows become the dataset either way. */
  function ProcessData(rt: Runtime, rows: seq<Row>, headers: seq<string>): (r: Imported)
    ensures r.data == rows && r.cleaned == rows && r.columns == headers
    ensures HasIssues(Scan(rt, rows)) ==>
              r.issues == Scan(rt, rows) && r.corrected == Some(ApplyCorrections(rows, Some(r.issues)))
    ensures !HasIssues(Scan(rt, rows)) ==> r.issues == JsObject.Empty() && r.corrected.None?
  {
    var scan := Scan(rt, rows);
    if HasIssues(scan) then Imported(rows, headers, scan, Some(ApplyCorrections(rows, Some(scan))), rows)
    else Imported(rows, headers, JsObject.Empty(), None, rows)
  }

  /** What the scan proposes for the cell of row `i` in column `k`: the
      number suggestion in a number column, the date suggestion in any other
      date column, nothing elsewhere. */
  function ScanSuggestion(rt: Runtime, rows: seq<Row>, i: nat, k: string): Option<Cell>
    requires i < |rows|
  {
    if k in NumberColumns(rt, rows) then SuggestionOf(NumberCandidate(rt, Field(rows[i], k), i))
    else if k in DateColumns(rows) then SuggestionOf(DateCandidate(rt, Field(rows[i], k), i))
    else None
  }

  /** The last candidate the scan lists for a cell is that cell's own flag. */
  lemma ScanLastFor(rt: Runtime, rows: seq<Row>, i: nat, k: string)
    requires i < |rows|
    ensures LastFor(ListOf(Scan(rt, rows), k), i + 1) == ScanSuggestion(rt, rows, i, k)
  {
    ScanList(rt, rows, k);
    if k in NumberColumns(rt, rows) {
      NumberLastFor(rt, rows, i, k);
    } else if k in DateColumns(rows) {
      DateLastFor(rt, rows, i, k);
    }
  }

  /** The candidates the scan lists for one column. */
  lemma ScanList(rt: Runtime, rows: seq<Row>, k: string)
    requires |rows| > 0
    ensures ListOf(Scan(rt, rows), k) ==
              if k in NumberColumns(rt, rows) then NumberCandidates(rt, rows, k)
              else if k in DateColumns(rows) then DateCandidates(rt, rows, k)
              else []
  {
    assert JsObject.Get(Scan(rt, rows), k).Some? <==> k in Scan(rt, rows).vals;
  }

  lemma NumberLastFor(rt: Runtime, rows: seq<Row>, i: nat, k: string)
    requires i < |rows|
    ensures LastFor(NumberCandidates(rt, rows, k), i + 1) == SuggestionOf(NumberCandidate(rt, Field(rows[i], k), i))
  {
    var flag := (c: Cell, j: nat) => NumberCandidate(rt, c, j);
    assert NamesItsRow(flag);
    GatherLastFor(rows, k, flag, i);
  }

  lemma DateLastFor(rt: Runtime, rows: seq<Row>, i: nat, k: string)
    requires i < |rows|
    ensures LastFor(DateCandidates(rt, rows, k), i + 1) == SuggestionOf(DateCandidate(rt, Field(rows[i], k), i))
  {
    var flag := (c: Cell, j: nat) => DateCandidate(rt, c, j);
    assert NamesItsRow(flag);
    GatherLastFor(rows, k, flag, i);
  }

  /** When the scan finds something, the corrected copy holds in every cell
      the scan flagged the scan's suggestion for that very cell, and every
      other cell as imported. */
  lemma ProcessDataCorrects(rt: Runtime, rows: seq<Row>, headers: seq<string>, i: nat, k: string)
    requires i < |rows|
    ensures var r := ProcessData(rt, rows, headers);
            r.corrected.Some? ==>
              && |r.corrected.value| == |rows|
              && JsObject.Get(r.corrected.value[i], k) == Overridden(ScanSuggestion(rt, rows, i, k), JsObject.Get(rows[i], k))
  {
    var r := ProcessData(rt, rows, headers);
    if r.corrected.Some? {
      ApplyCorrectionsCells(rows, Scan(rt, rows), i, k);
      ScanLastFor(rt, rows, i, k);
    }
  }

  /** The "apply" button of one listed issue: the issue leaves its column's
      list and only its own suggestion is written into the cleaned rows. */
  function ApplySingle(issues: Corrections, cleaned: seq<Row>, col: string, index: nat)
    : (r: (Corrections, seq<Row>))
    requires col in issues.vals && index < |issues.vals[col]|
    ensures var issue := issues.vals[col][index];
            && JsObject.Get(r.0, col) == Some(issues.vals[col][..index] + issues.vals[col][index + 1..])
            && r.0.keys == issues.keys
            && (forall k :: k != col ==> JsObject.Get(r.0, k) == JsObject.Get(issues, k))
            && |r.1| == |cleaned|
  {
    var list := issues.vals[col];
    var issue := list[index];
    var kept := list[..index] + list[index + 1..];
    var single: Corrections := JsObject.Set(JsObject.Empty(), col, [issue]);
    (JsObject.Set(issues, col, kept), ApplyCorrections(cleaned, Some(single)))
  }

  /** Applying one issue changes exactly its own cell, to its suggestion,
      when its row exists, and no other cell. */
  lemma ApplySingleCells(issues: Corrections, cleaned: seq<Row>, col: string, index: nat, i: nat, k: string)
    requires col in issues.vals && index < |issues.vals[col]| && i < |cleaned|
    ensures var issue := issues.vals[col][index];
            JsObject.Get(ApplySingle(issues, cleaned, col, index).1[i], k) ==
              if k == col && issue.row == i + 1 then Some(issue.suggestion) else JsObject.Get(cleaned[i], k)
  {
    var issue := issues.vals[col][index];
    var single: Corrections := JsObject.Set(JsObject.Empty(), col, [issue]);
    ApplyCorrectionsCells(cleaned, single, i, k);
    assert [issue][..0] == [];
  }
}

=== FILE: registry.dfy ===
/** `contexts/DataContext.tsx`: the application-wide state (the data, its
    columns, the charts and the rows the table shows) and the chart list's
    two updates. */
module Registry {
  import opened JsValue
  import Seqs

  datatype ChartType = Line | Bar | Pie | Area | Radar

  /** A chart the user created. */
  datatype ChartConfig = ChartConfig(
    id: string, title: string, kind: ChartType, xAxis: string, yAxis: seq<string>, colors: seq<string>)

  datatype State = State(data: seq<Row>, columns: seq<string>, charts: seq<ChartConfig>, filtered: seq<Row>)

  /** Everything starts empty. */
  function Initial(): (s: State)
    ensures |s.data| == 0 && |s.columns| == 0 && |s.charts| == 0 && |s.filtered| == 0
  {
    State([], [], [], [])
  }

  /** `addChart`: the chart goes to the end, the others keep their order. */
  function AddChart(charts: seq<ChartConfig>, chart: ChartConfig): (r: seq<ChartConfig>)
    ensures |r| == |charts| + 1 && r[..|charts|] == charts && r[|charts|] == chart
  {
    charts + [chart]
  }

  /** The test `removeChart` filters with. */
  function KeptBy(id: string): ChartConfig -> bool
  {
    (c: ChartConfig) => c.id != id
  }

  /** `removeChart`: every chart with the id leaves, the rest keep their
      order. */
  function RemoveChart(charts: seq<ChartConfig>, id: string): (r: seq<ChartConfig>)
    ensures Seqs.IsSubsequence(r, charts)
    ensures forall c :: c in r <==> c in charts && c.id != id
    ensures forall c :: multiset(r)[c] == if c.id != id then multiset(charts)[c] else 0
  {
    Seqs.Filter(KeptBy(id), charts)
  }

  /** Removing an id no chart has changes nothing. */
  lemma RemoveAbsent(charts: seq<ChartConfig>, id: string)
    requires forall i :: 0 <= i < |charts| ==> charts[i].id != id
    ensures RemoveChart(charts, id) == charts
  {
    Seqs.FilterKeepsAll(KeptBy(id), charts);
  }

  /** Adding a chart under a new id and then removing that id restores the
      list. */
  lemma AddThenRemove(charts: seq<ChartConfig>, chart: ChartConfig)
    requires forall i :: 0 <= i < |charts| ==> charts[i].id != chart.id
    ensures RemoveChart(AddChart(charts, chart), chart.id) == charts
  {
    Seqs.FilterAppend(KeptBy(chart.id), charts, [chart]);
    RemoveAbsent(charts, chart.id);
  }

  /** Removing twice is removing once. */
  lemma RemoveIdempotent(charts: seq<ChartConfig>, id: string)
    ensures RemoveChart(RemoveChart(charts, id), id) == RemoveChart(charts, id)
  {
    var r := RemoveChart(charts, id);
    forall i | 0 <= i < |r| ensures r[i].id != id {
      assert r[i] in r;
    }
    RemoveAbsent(r, id);
  }

  /** Two charts sharing an id both leave, not only the first. */
  lemma RemoveTakesEveryCopy(a: ChartConfig, b: ChartConfig)
    requires a.id == b.id
    ensures RemoveChart([a, b], a.id) == []
  {
    assert [a, b] == [a] + [b];
    Seqs.FilterAppend(KeptBy(a.id), [a], [b]);
  }

  /** From the initial state removing leaves no chart, and the first chart
      added can be removed again by its id. */
  lemma InitialCharts(id: string, chart: ChartConfig)
    ensures RemoveChart(Initial().charts, id) == []
    ensures RemoveChart(AddChart(Initial().charts, chart), chart.id) == Initial().charts
  {
    AddThenRemove(Initial().charts, chart);
  }
}

=== FILE: seqs.dfy ===
/** Sequence toolkit shared by every component: the JavaScript array
    operations the application uses (`filter`, `slice(0, n)`, `reduce` with
    `+`, `Math.min(...xs)`, `Math.max(...xs)`, mapping into `NaN` and then
    filtering it out), each with the facts the rest of the model relies on. */
module Seqs {
  import opened Wrappers

  /** `r` keeps some elements of `s` in their original order. */
  ghost predicate IsSubsequence<T>(r: seq<T>, s: seq<T>)
    decreases |s|
  {
    || |r| == 0
    || (&& |s| > 0
        && ((r[0] == s[0] && IsSubsequence(r[1..], s[1..])) || IsSubsequence(r, s[1..])))
  }

  /** `Array.prototype.filter`. */
  function Filter<T(!new)>(p: T -> bool, s: seq<T>): (r: seq<T>)
    ensures |r| <= |s|
    ensures IsSubsequence(r, s)
    ensures forall x :: multiset(r)[x] == if p(x) then multiset(s)[x] else 0
    ensures forall x :: x in r <==> x in s && p(x)
    decreases |s|
  {
    if |s| == 0 then []
    else
      assert s == [s[0]] + s[1..];
      var rest := Filter(p, s[1..]);
      if p(s[0]) then
        assert ([s[0]] + rest)[1..] == rest;
        [s[0]] + rest
      else rest
  }

  lemma {:induction false} FilterAppend<T(!new)>(p: T -> bool, a: seq<T>, b: seq<T>)
    ensures Filter(p, a + b) == Filter(p, a) + Filter(p, b)
    decreases |a|
  {
    if |a| == 0 {
      assert a + b == b;
    } else {
      assert (a + b)[0] == a[0];
      assert (a + b)[1..] == a[1..] + b;
      FilterAppend(p, a[1..], b);
    }
  }

  /** A test that every element passing `p` also passes keeps at least as
      many elements. */
  lemma {:induction false} FilterMonotone<T(!new)>(p: T -> bool, q: T -> bool, s: seq<T>)
    requires forall i :: 0 <= i < |s| ==> p(s[i]) ==> q(s[i])
    ensures |Filter(p, s)| <= |Filter(q, s)|
    decreases |s|
  {
    if |s| > 0 {
      var tail := s[1..];
      forall i | 0 <= i < |tail| ensures p(tail[i]) ==> q(tail[i]) {
        assert tail[i] == s[i + 1];
      }
      FilterMonotone(p, q, tail);
    }
  }

  /** Filtering keeps the whole sequence exactly when every element passes. */
  lemma FilterKeepsAll<T(!new)>(p: T -> bool, s: seq<T>)
    ensures Filter(p, s) == s <==> forall i :: 0 <= i < |s| ==> p(s[i])
  {
    if forall i :: 0 <= i < |s| ==> p(s[i]) {
      FilterAllPass(p, s);
    } else {
      var i :| 0 <= i < |s| && !p(s[i]);
      assert s[i] !in Filter(p, s);
    }
  }

  lemma {:induction false} FilterAllPass<T(!new)>(p: T -> bool, s: seq<T>)
    requires forall i :: 0 <= i < |s| ==> p(s[i])
    ensures Filter(p, s) == s
    decreases |s|
  {
    if |s| > 0 {
      var tail := s[1..];
      forall i | 0 <= i < |tail| ensures p(tail[i]) {
        assert tail[i] == s[i + 1];
      }
      FilterAllPass(p, tail);
      assert p(s[0]);
      assert s == [s[0]] + tail;
    }
  }

  /** No element occurs twice. */
  ghost predicate Distinct<T>(s: seq<T>)
  {
    forall i, j :: 0 <= i < j < |s| ==> s[i] != s[j]
  }

  /** No later element repeats the one at `i`. */
  ghost predicate LastOccurrence<T>(s: seq<T>, i: nat)
  {
    forall j :: i < j < |s| ==> s[j] != s[i]
  }

  /** Dropping the last element of a sequence without repeats leaves one
      without repeats that lacks that element. */
  lemma DistinctInit<T>(s: seq<T>)
    requires Distinct(s) && |s| > 0
    ensures Distinct(s[..|s| - 1]) && s[|s| - 1] !in s[..|s| - 1]
  {
    var init := s[..|s| - 1];
    forall i, j | 0 <= i < j < |init| ensures init[i] != init[j] {
      assert init[i] == s[i] && init[j] == s[j];
    }
    forall i | 0 <= i < |init| ensures init[i] != s[|s| - 1] {
      assert init[i] == s[i];
    }
  }

  /** Dropping the first element keeps a sequence without repeats so. */
  lemma DistinctTail<T>(s: seq<T>)
    requires Distinct(s) && |s| > 0
    ensures Distinct(s[1..]) && s[0] !in s[1..]
  {
    forall i, j | 0 <= i < j < |s[1..]| ensures s[1..][i] != s[1..][j] {
      assert s[1..][i] == s[i + 1] && s[1..][j] == s[j + 1];
    }
  }

  /** In a sequence without repeats every value occurs at most once. */
  lemma {:induction false} DistinctCounts<T>(s: seq<T>, x: T)
    requires Distinct(s)
    ensures multiset(s)[x] <= 1
    decreases |s|
  {
    if |s| > 0 {
      assert s == [s[0]] + s[1..];
      DistinctTail(s);
      DistinctCounts(s[1..], x);
    }
  }

  /** A rearrangement of a sequence without repeats has none either. */
  lemma PermutationDistinct<T>(a: seq<T>, b: seq<T>)
    requires Distinct(a) && multiset(a) == multiset(b)
    ensures Distinct(b)
  {
    forall i, j | 0 <= i < j < |b| ensures b[i] != b[j] {
      if b[i] == b[j] {
        var x := b[i];
        assert b == b[..j] + b[j..];
        assert b[..j][i] == x && b[j..][0] == x;
        assert multiset(b)[x] == multiset(b[..j])[x] + multiset(b[j..])[x];
        DistinctCounts(a, x);
        assert false;
      }
    }
  }

  /** Where `x` occurs for the last time in `s`. */
  function LastIndex<T(==)>(s: seq<T>, x: T): (i: nat)
    requires x in s
    ensures i < |s| && s[i] == x && LastOccurrence(s, i)
    decreases |s|
  {
    var n := |s| - 1;
    if s[n] == x then n
    else
      assert s == s[..n] + [s[n]];
      LastIndex(s[..n], x)
  }

  lemma {:induction false} FilterDistinct<T(!new)>(p: T -> bool, s: seq<T>)
    requires Distinct(s)
    ensures Distinct(Filter(p, s))
    decreases |s|
  {
    if |s| > 0 {
      assert Distinct(s[1..]) by {
        forall i, j | 0 <= i < j < |s[1..]| ensures s[1..][i] != s[1..][j] {
          assert s[1..][i] == s[i + 1] && s[1..][j] == s[j + 1];
        }
      }
      FilterDistinct(p, s[1..]);
      assert s[0] !in s[1..];
    }
  }

  /** Two permutations of each other keep equally many elements. */
  lemma FilterPermutationLength<T(!new)>(p: T -> bool, a: seq<T>, b: seq<T>)
    requires multiset(a) == multiset(b)
    ensures |Filter(p, a)| == |Filter(p, b)|
  {
    var fa, fb := Filter(p, a), Filter(p, b);
    assert multiset(fa) == multiset(fb) by {
      forall x ensures multiset(fa)[x] == multiset(fb)[x] { }
    }
    assert |multiset(fa)| == |fa| && |multiset(fb)| == |fb|;
  }

  /** `xs.map(f).filter(v => !isNaN(v))`: the present values in order. */
  function Somes<T(!new)>(s: seq<Option<T>>): (r: seq<T>)
    ensures |r| <= |s|
    ensures forall x :: x in r <==> Some(x) in s
    decreases |s|
  {
    if |s| == 0 then []
    else
      assert s == [s[0]] + s[1..];
      (if s[0].Some? then [s[0].value] else []) + Somes(s[1..])
  }

  lemma {:induction false} SomesAppend<T(!new)>(a: seq<Option<T>>, b: seq<Option<T>>)
    ensures Somes(a + b) == Somes(a) + Somes(b)
    decreases |a|
  {
    if |a| == 0 {
      assert a + b == b;
    } else {
      assert (a + b)[0] == a[0];
      assert (a + b)[1..] == a[1..] + b;
      SomesAppend(a[1..], b);
    }
  }

  /** Each value is kept as often as it is present. */
  lemma {:induction false} SomesCount<T(!new)>(s: seq<Option<T>>, x: T)
    ensures multiset(Somes(s))[x] == multiset(s)[Some(x)]
    decreases |s|
  {
    if |s| > 0 {
      assert s == [s[0]] + s[1..];
      SomesCount(s[1..], x);
    }
  }

  /** An option as a list of zero or one element. */
  function Present<T>(o: Option<T>): seq<T>
  {
    if o.Some? then [o.value] else []
  }

  /** One more entry adds its value at the end, if it has one. */
  lemma SomesSnoc<T(!new)>(s: seq<Option<T>>, o: Option<T>)
    ensures Somes(s + [o]) == Somes(s) + Present(o)
  {
    SomesAppend(s, [o]);
    assert [o][1..] == [];
  }

  /** Every entry present means nothing is dropped. */
  lemma {:induction false} SomesAllPresent<T(!new)>(s: seq<Option<T>>)
    requires forall i :: 0 <= i < |s| ==> s[i].Some?
    ensures |Somes(s)| == |s|
    ensures forall i :: 0 <= i < |s| ==> Somes(s)[i] == s[i].value
    decreases |s|
  {
    if |s| > 0 {
      SomesAllPresent(s[1..]);
    }
  }

  /** Absent entries read as 0. */
  function OrZero(s: seq<Option<real>>): (r: seq<real>)
    ensures |r| == |s|
    ensures forall i :: 0 <= i < |s| ==> r[i] == (if s[i].Some? then s[i].value else 0.0)
  {
    seq(|s|, i requires 0 <= i < |s| => if s[i].Some? then s[i].value else 0.0)
  }

  /** Dropping the absent entries and counting them as 0 give the same total. */
  lemma {:induction false} SumSomes(s: seq<Option<real>>)
    ensures Sum(Somes(s)) == Sum(OrZero(s))
    decreases |s|
  {
    if |s| > 0 {
      var n := |s| - 1;
      assert s == s[..n] + [s[n]];
      SomesAppend(s[..n], [s[n]]);
      SumSomes(s[..n]);
      assert OrZero(s)[..n] == OrZero(s[..n]);
      assert Somes([s[n]]) == (if s[n].Some? then [s[n].value] else []) + Somes([s[n]][1..]);
      SumAppend(Somes(s[..n]), Somes([s[n]]));
    }
  }

  /** `s.slice(0, n)`. */
  function Take<T>(s: seq<T>, n: nat): (r: seq<T>)
    ensures |r| == Min(n, |s|)
    ensures forall i :: 0 <= i < |r| ==> r[i] == s[i]
  {
    if n <= |s| then s[..n] else s
  }

  /** `xs.reduce((a, b) => a + b, 0)`. */
  function Sum(s: seq<real>): real
    decreases |s|
  {
    if |s| == 0 then 0.0 else Sum(s[..|s| - 1]) + s[|s| - 1]
  }

  lemma {:induction false} SumAppend(a: seq<real>, b: seq<real>)
    ensures Sum(a + b) == Sum(a) + Sum(b)
    decreases |b|
  {
    if |b| == 0 {
      assert a + b == a;
    } else {
      assert (a + b)[..|a + b| - 1] == a + b[..|b| - 1];
      SumAppend(a, b[..|b| - 1]);
    }
  }

  /** A lower bound on every element bounds the total from below. */
  lemma {:induction false} SumLowerBound(s: seq<real>, m: real)
    requires forall i :: 0 <= i < |s| ==> m <= s[i]
    ensures (|s| as real) * m <= Sum(s)
    decreases |s|
  {
    if |s| > 0 {
      SumLowerBound(s[..|s| - 1], m);
    }
  }

  /** An upper bound on every element bounds the total from above. */
  lemma {:induction false} SumUpperBound(s: seq<real>, m: real)
    requires forall i :: 0 <= i < |s| ==> s[i] <= m
    ensures Sum(s) <= (|s| as real) * m
    decreases |s|
  {
    if |s| > 0 {
      SumUpperBound(s[..|s| - 1], m);
    }
  }

  lemma {:induction false} SumNonNegative(s: seq<real>)
    requires forall i :: 0 <= i < |s| ==> 0.0 <= s[i]
    ensures 0.0 <= Sum(s)
    decreases |s|
  {
    if |s| > 0 {
      SumNonNegative(s[..|s| - 1]);
    }
  }

  /** `Math.min(...s)` on a non-empty list. */
  function MinOf(s: seq<real>): (r: real)
    requires |s| > 0
    ensures r in s
    ensures forall i :: 0 <= i < |s| ==> r <= s[i]
    decreases |s|
  {
    if |s| == 1 then s[0]
    else
      var m := MinOf(s[..|s| - 1]);
      assert forall i :: 0 <= i < |s| - 1 ==> s[..|s| - 1][i] == s[i];
      if s[|s| - 1] < m then s[|s| - 1] else m
  }

  /** `Math.max(...s)` on a non-empty list. */
  function MaxOf(s: seq<real>): (r: real)
    requires |s| > 0
    ensures r in s
    ensures forall i :: 0 <= i < |s| ==> s[i] <= r
    decreases |s|
  {
    if |s| == 1 then s[0]
    else
      var m := MaxOf(s[..|s| - 1]);
      assert forall i :: 0 <= i < |s| - 1 ==> s[..|s| - 1][i] == s[i];
      if s[|s| - 1] > m then s[|s| - 1] else m
  }

  /** Arithmetic mean of a non-empty list, `sum / length`. */
  function Mean(s: seq<real>): real
    requires |s| > 0
  {
    Sum(s) / (|s| as real)
  }

  /** The mean lies between any common lower and upper bound of the elements. */
  lemma MeanBetween(s: seq<real>, lo: real, hi: real)
    requires |s| > 0
    requires forall i :: 0 <= i < |s| ==> lo <= s[i] <= hi
    ensures lo <= Mean(s) <= hi
  {
    SumLowerBound(s, lo);
    SumUpperBound(s, hi);
    DivisionWithin(Sum(s), lo, hi, |s| as real);
  }

  lemma DivisionWithin(a: real, lo: real, hi: real, n: real)
    requires n > 0.0 && n * lo <= a <= n * hi
    ensures lo <= a / n <= hi
  {
  }
}

=== FILE: sorting.dfy ===
/** `Array.prototype.sort` with a comparator, as a stable insertion sort.
    `gt(a, b)` stands for "the comparator returns a positive number for
    `(a, b)`", i.e. `a` must come after `b`. The result is always a
    permutation of the input; it is ordered whenever the comparator behaves
    as a total preorder on the elements being sorted. */
module Sorting {
  import Seqs

  /** No element is required to come after a later one. */
  ghost predicate SortedBy<T>(gt: (T, T) -> bool, s: seq<T>)
  {
    forall i, j :: 0 <= i < j < |s| ==> !gt(s[i], s[j])
  }

  /** On the values of `u`, "not after" is total and transitive. */
  ghost predicate PreorderOn<T>(gt: (T, T) -> bool, u: set<T>)
  {
    && (forall a, b :: a in u && b in u ==> !gt(a, b) || !gt(b, a))
    && (forall a, b, c :: a in u && b in u && c in u && !gt(a, b) && !gt(b, c) ==> !gt(a, c))
  }

  /** Insert `x` before the first element that must come after it. */
  function Insert<T>(gt: (T, T) -> bool, x: T, s: seq<T>): (r: seq<T>)
    ensures multiset(r) == multiset(s) + multiset{x}
    ensures |r| == |s| + 1
    decreases |s|
  {
    if |s| == 0 then [x]
    else if gt(s[0], x) then [x] + s
    else
      assert s == [s[0]] + s[1..];
      [s[0]] + Insert(gt, x, s[1..])
  }

  /** Insert the elements one by one, first to last. */
  function SortBy<T>(gt: (T, T) -> bool, s: seq<T>): (r: seq<T>)
    ensures multiset(r) == multiset(s)
    ensures |r| == |s|
    decreases |s|
  {
    if |s| == 0 then []
    else
      var n := |s| - 1;
      assert s == s[..n] + [s[n]];
      Insert(gt, s[n], SortBy(gt, s[..n]))
  }

  lemma {:induction false} InsertSorted<T>(gt: (T, T) -> bool, x: T, s: seq<T>, u: set<T>)
    requires PreorderOn(gt, u) && x in u && forall i :: 0 <= i < |s| ==> s[i] in u
    requires SortedBy(gt, s)
    ensures SortedBy(gt, Insert(gt, x, s))
    decreases |s|
  {
    if |s| > 0 {
      var r := Insert(gt, x, s);
      if gt(s[0], x) {
        assert !gt(x, s[0]);
        forall j | 1 <= j < |r| ensures !gt(x, r[j]) {
          assert r[j] == s[j - 1];
        }
      } else {
        var rest := Insert(gt, x, s[1..]);
        InsertSorted(gt, x, s[1..], u);
        forall j | 0 <= j < |rest| ensures !gt(s[0], rest[j]) {
          assert rest[j] in multiset(s[1..]) + multiset{x};
          if rest[j] != x {
            var k :| 0 <= k < |s[1..]| && s[1..][k] == rest[j];
            assert s[k + 1] == rest[j];
          }
        }
        assert r == [s[0]] + rest;
      }
    }
  }

  /** On values where the comparator is a total preorder, the sort orders
      its output. */
  lemma {:induction false} SortBySorted<T>(gt: (T, T) -> bool, s: seq<T>, u: set<T>)
    requires PreorderOn(gt, u) && forall i :: 0 <= i < |s| ==> s[i] in u
    ensures SortedBy(gt, SortBy(gt, s))
    decreases |s|
  {
    if |s| > 0 {
      var n := |s| - 1;
      var init := s[..n];
      forall i | 0 <= i < |init| ensures init[i] in u {
        assert init[i] == s[i];
      }
      var t := SortBy(gt, init);
      SortBySorted(gt, init, u);
      SameElementsIn(init, t, u);
      InsertSorted(gt, s[n], t, u);
      assert SortBy(gt, s) == Insert(gt, s[n], t);
    }
  }

  /** An element nothing must follow goes to the end. */
  lemma {:induction false} InsertLast<T>(gt: (T, T) -> bool, x: T, s: seq<T>)
    requires forall i :: 0 <= i < |s| ==> !gt(s[i], x)
    ensures Insert(gt, x, s) == s + [x]
    decreases |s|
  {
    if |s| > 0 {
      assert !gt(s[0], x);
      InsertLast(gt, x, s[1..]);
      assert s == [s[0]] + s[1..];
    }
  }

  /** Sorting a sequence that is already ordered changes nothing. */
  lemma {:induction false} SortBySortedIdentity<T>(gt: (T, T) -> bool, s: seq<T>)
    requires SortedBy(gt, s)
    ensures SortBy(gt, s) == s
    decreases |s|
  {
    if |s| > 0 {
      var n := |s| - 1;
      var init := s[..n];
      assert SortedBy(gt, init);
      SortBySortedIdentity(gt, init);
      InsertLast(gt, s[n], init);
      assert init + [s[n]] == s;
    }
  }

  lemma SameElementsIn<T>(s: seq<T>, t: seq<T>, u: set<T>)
    requires multiset(t) == multiset(s) && forall i :: 0 <= i < |s| ==> s[i] in u
    ensures forall i :: 0 <= i < |t| ==> t[i] in u
  {
    forall i | 0 <= i < |t| ensures t[i] in u {
      assert t[i] in multiset(s);
    }
  }

  /** Non-decreasing. */
  ghost predicate Ascending(s: seq<real>)
  {
    forall i, j :: 0 <= i < j < |s| ==> s[i] <= s[j]
  }

  /** `[...xs].sort((a, b) => a - b)`. */
  function SortReals(s: seq<real>): (r: seq<real>)
    ensures multiset(r) == multiset(s) && |r| == |s|
    ensures Ascending(r)
  {
    var gt := (a: real, b: real) => a > b;
    var r := SortBy(gt, s);
    SortBySorted(gt, s, set x | x in s);
    r
  }

  /** The element at position `h` of the ascending sort has at most `h`
      values of the input below it. */
  lemma OrderStatisticBelow(s: seq<real>, h: nat)
    requires h < |s|
    ensures |Seqs.Filter(x => x < SortReals(s)[h], s)| <= h
  {
    var r := SortReals(s);
    var below := (x: real) => x < r[h];
    Seqs.FilterPermutationLength(below, r, s);
    assert r == r[..h] + r[h..];
    Seqs.FilterAppend(below, r[..h], r[h..]);
    NoneKept(below, r[h..]);
  }

  /** ... and at most `|s| - h - 1` values above it. */
  lemma OrderStatisticAbove(s: seq<real>, h: nat)
    requires h < |s|
    ensures |Seqs.Filter(x => x > SortReals(s)[h], s)| <= |s| - h - 1
  {
    var r := SortReals(s);
    var above := (x: real) => x > r[h];
    Seqs.FilterPermutationLength(above, r, s);
    AboveInAscending(r, h, above);
  }

  /** A value between the sorted elements at positions `lo` and `hi` has at
      most `hi` values of the input below it and at most `|s| - lo - 1` above. */
  lemma BetweenOrderStatistics(s: seq<real>, lo: nat, hi: nat, m: real)
    requires lo <= hi < |s| && SortReals(s)[lo] <= m <= SortReals(s)[hi]
    ensures |Seqs.Filter(x => x < m, s)| <= hi
    ensures |Seqs.Filter(x => x > m, s)| <= |s| - lo - 1
  {
    var r := SortReals(s);
    Seqs.FilterMonotone(x => x < m, x => x < r[hi], s);
    Seqs.FilterMonotone(x => x > m, x => x > r[lo], s);
    OrderStatisticBelow(s, hi);
    OrderStatisticAbove(s, lo);
  }

  lemma AboveInAscending(r: seq<real>, h: nat, above: real -> bool)
    requires Ascending(r) && h < |r| && forall x :: above(x) <==> x > r[h]
    ensures |Seqs.Filter(above, r)| <= |r| - h - 1
  {
    assert r == r[..h + 1] + r[h + 1..];
    Seqs.FilterAppend(above, r[..h + 1], r[h + 1..]);
    NoneAbove(r, h, r[..h + 1]);
    NoneKept(above, r[..h + 1]);
  }

  /** In an ascending sequence nothing up to position `h` exceeds `s[h]`. */
  lemma NoneAbove(s: seq<real>, h: nat, low: seq<real>)
    requires Ascending(s) && h < |s| && low == s[..h + 1]
    ensures forall i :: 0 <= i < |low| ==> !(low[i] > s[h])
  {
    forall i | 0 <= i < |low| ensures !(low[i] > s[h]) {
      assert low[i] == s[i];
      if i < h {
        assert s[i] <= s[h];
      }
    }
  }

  /** Filtering with a test no element passes leaves nothing. */
  lemma NoneKept<T(!new)>(p: T -> bool, s: seq<T>)
    requires forall i :: 0 <= i < |s| ==> !p(s[i])
    ensures Seqs.Filter(p, s) == []
  {
  }
}

=== FILE: table.dfy ===
/** `components/DataTable.tsx`: the search box, column sorting with its
    direction toggle, pagination, CSV export and the column-type badge. */
module Table {
  import opened Wrappers
  import opened JsValue
  import Seqs
  import Text
  import JsObject
  import Sorting

  /** Some value of the row, converted with `String` and lowercased,
      contains `needle`. */
  predicate Matches(rt: Runtime, row: Row, needle: string)
  {
    exists v :: v in JsObject.Values(row) && Text.Contains(Text.Lower(StringOf(rt, v)), needle)
  }

  /** The row test of the search, for a lowercased term. */
  function Matcher(rt: Runtime, needle: string): Row -> bool
  {
    (row: Row) => Matches(rt, row, needle)
  }

  /** `handleSearch`: an empty term shows every row; otherwise the rows with
      a value containing the term, case aside, in their original order. */
  function Search(rt: Runtime, data: seq<Row>, term: string): (r: seq<Row>)
    ensures term == "" ==> r == data
    ensures term != "" ==> Seqs.IsSubsequence(r, data)
    ensures term != "" ==> forall row :: multiset(r)[row] == if Matches(rt, row, Text.Lower(term)) then multiset(data)[row] else 0
    ensures term != "" ==> forall row :: row in r <==> row in data && Matches(rt, row, Text.Lower(term))
  {
    if term == "" then data else Seqs.Filter(Matcher(rt, Text.Lower(term)), data)
  }

  /** Searching the result again for the same term changes nothing. */
  lemma SearchIdempotent(rt: Runtime, data: seq<Row>, term: string)
    ensures Search(rt, Search(rt, data, term), term) == Search(rt, data, term)
  {
    if term != "" {
      var r := Search(rt, data, term);
      Seqs.FilterKeepsAll(Matcher(rt, Text.Lower(term)), r);
      forall i | 0 <= i < |r| ensures Matcher(rt, Text.Lower(term))(r[i]) {
        assert r[i] in r;
      }
    }
  }

  /** The search ignores the case of the term. */
  lemma SearchIgnoresCase(rt: Runtime, data: seq<Row>, term: string)
    ensures Search(rt, data, Text.Lower(term)) == Search(rt, data, term)
  {
    Text.LowerIdempotent(term);
  }

  datatype Direction = Asc | Desc

  /** A click on `column` sorts descending exactly when that column is
      already sorted ascending. */
  function NextDirection(sortColumn: Option<string>, dir: Direction, column: string): (d: Direction)
    ensures d == Desc <==> sortColumn == Some(column) && dir == Asc
  {
    if sortColumn == Some(column) && dir == Asc then Desc else Asc
  }

  /** Clicking the same column again always flips the direction. */
  lemma ReclickFlips(sortColumn: Option<string>, dir: Direction, column: string)
    ensures NextDirection(Some(column), NextDirection(sortColumn, dir, column), column) != NextDirection(sortColumn, dir, column)
  {
  }

  /** The sort comparator: numeric difference when both cells convert to a
      number, otherwise the comparison of the lowercased `String` forms. */
  function Compare(rt: Runtime, column: string, dir: Direction, a: Row, b: Row): real
  {
    var av, bv := Field(a, column), Field(b, column);
    match (NumberOf(rt, av), NumberOf(rt, bv))
    case (Some(x), Some(y)) => if dir == Asc then x - y else y - x
    case _ =>
      var sa, sb := Text.Lower(StringOf(rt, av)), Text.Lower(StringOf(rt, bv));
      if dir == Asc then (if Text.LexLess(sa, sb) then -1.0 else if Text.LexLess(sb, sa) then 1.0 else 0.0)
      else (if Text.LexLess(sb, sa) then -1.0 else if Text.LexLess(sa, sb) then 1.0 else 0.0)
  }

  /** The comparator is antisymmetric, and the descending order is the
      ascending one with the rows swapped; two numbers compare by their
      difference. */
  lemma CompareReverses(rt: Runtime, column: string, a: Row, b: Row)
    ensures Compare(rt, column, Asc, a, b) == -Compare(rt, column, Asc, b, a)
    ensures Compare(rt, column, Desc, a, b) == Compare(rt, column, Asc, b, a)
    ensures NumberOf(rt, Field(a, column)).Some? && NumberOf(rt, Field(b, column)).Some? ==>
              Compare(rt, column, Asc, a, b) == NumberOf(rt, Field(a, column)).value - NumberOf(rt, Field(b, column)).value
  {
    var sa, sb := Text.Lower(StringOf(rt, Field(a, column))), Text.Lower(StringOf(rt, Field(b, column)));
    Text.LexLessAsymmetric(sa, sb);
  }

  /** "`a` goes after `b`": the comparator is positive. */
  function After(rt: Runtime, column: string, dir: Direction): (Row, Row) -> bool
  {
    (a: Row, b: Row) => Compare(rt, column, dir, a, b) > 0.0
  }

  /** `[...rows].sort(comparator)`, as a stable sort. */
  function SortRows(rt: Runtime, rows: seq<Row>, column: string, dir: Direction): (r: seq<Row>)
    ensures multiset(r) == multiset(rows) && |r| == |rows|
  {
    Sorting.SortBy(After(rt, column, dir), rows)
  }

  /** The number a row's cell converts to (0 when it does not). */
  function NumKey(rt: Runtime, row: Row, column: string): real
  {
    match NumberOf(rt, Field(row, column)) case Some(x) => x case None => 0.0
  }

  /** The text a row's cell is compared by. */
  function TextKey(rt: Runtime, row: Row, column: string): string
  {
    Text.Lower(StringOf(rt, Field(row, column)))
  }

  /** When every cell of the column is a number, ascending sorts the numbers
      non-decreasing and descending non-increasing. */
  lemma SortNumbersOrdered(rt: Runtime, rows: seq<Row>, column: string, dir: Direction)
    requires forall i :: 0 <= i < |rows| ==> NumberOf(rt, Field(rows[i], column)).Some?
    ensures var r := SortRows(rt, rows, column, dir);
            forall i, j :: 0 <= i < j < |r| ==>
              && (dir == Asc ==> NumKey(rt, r[i], column) <= NumKey(rt, r[j], column))
              && (dir == Desc ==> NumKey(rt, r[i], column) >= NumKey(rt, r[j], column))
  {
    var gt := After(rt, column, dir);
    var r := SortRows(rt, rows, column, dir);
    assert Sorting.SortedBy(gt, r) by {
      var u := set x | x in rows && NumberOf(rt, Field(x, column)).Some?;
      assert forall i :: 0 <= i < |rows| ==> rows[i] in u;
      NumberPreorder(rt, column, dir, u);
      Sorting.SortBySorted(gt, rows, u);
    }
    forall i, j | 0 <= i < j < |r|
      ensures && (dir == Asc ==> NumKey(rt, r[i], column) <= NumKey(rt, r[j], column))
              && (dir == Desc ==> NumKey(rt, r[i], column) >= NumKey(rt, r[j], column))
    {
      assert r[i] in multiset(rows) && r[j] in multiset(rows);
      assert !gt(r[i], r[j]);
      NumberAfter(rt, column, dir, r[i], r[j]);
    }
  }

  /** When no cell of the column is a number, the rows come out in the
      string order of their lowercased cells, reversed for descending. */
  lemma SortTextsOrdered(rt: Runtime, rows: seq<Row>, column: string, dir: Direction)
    requires forall i :: 0 <= i < |rows| ==> NumberOf(rt, Field(rows[i], column)).None?
    ensures var r := SortRows(rt, rows, column, dir);
            forall i, j :: 0 <= i < j < |r| ==>
              && (dir == Asc ==> !Text.LexLess(TextKey(rt, r[j], column), TextKey(rt, r[i], column)))
              && (dir == Desc ==> !Text.LexLess(TextKey(rt, r[i], column), TextKey(rt, r[j], column)))
  {
    var gt := After(rt, column, dir);
    var r := SortRows(rt, rows, column, dir);
    assert Sorting.SortedBy(gt, r) by {
      var u := set x | x in rows && NumberOf(rt, Field(x, column)).None?;
      assert forall i :: 0 <= i < |rows| ==> rows[i] in u;
      TextPreorder(rt, column, dir, u);
      Sorting.SortBySorted(gt, rows, u);
    }
    forall i, j | 0 <= i < j < |r|
      ensures && (dir == Asc ==> !Text.LexLess(TextKey(rt, r[j], column), TextKey(rt, r[i], column)))
              && (dir == Desc ==> !Text.LexLess(TextKey(rt, r[i], column), TextKey(rt, r[j], column)))
    {
      assert r[i] in multiset(rows) && r[j] in multiset(rows);
      assert !gt(r[i], r[j]);
      Text.LexLessAsymmetric(TextKey(rt, r[i], column), TextKey(rt, r[j], column));
    }
  }

  /** Between two numeric cells the comparator compares the numbers. */
  lemma NumberAfter(rt: Runtime, column: string, dir: Direction, a: Row, b: Row)
    requires NumberOf(rt, Field(a, column)).Some? && NumberOf(rt, Field(b, column)).Some?
    ensures After(rt, column, dir)(a, b) <==>
              if dir == Asc then NumKey(rt, a, column) > NumKey(rt, b, column)
              else NumKey(rt, b, column) > NumKey(rt, a, column)
  {
  }

  /** On rows whose cells are numbers, the comparator is a total preorder. */
  lemma NumberPreorder(rt: Runtime, column: string, dir: Direction, u: set<Row>)
    requires forall x :: x in u ==> NumberOf(rt, Field(x, column)).Some?
    ensures Sorting.PreorderOn(After(rt, column, dir), u)
  {
    forall a, b | a in u && b in u {
      NumberAfter(rt, column, dir, a, b);
    }
  }

  /** On rows without numbers in the column, the comparator orders by the
      string order, which is a total preorder. */
  lemma TextPreorder(rt: Runtime, column: string, dir: Direction, u: set<Row>)
    requires forall x :: x in u ==> NumberOf(rt, Field(x, column)).None?
    ensures Sorting.PreorderOn(After(rt, column, dir), u)
  {
    var gt := After(rt, column, dir);
    forall a, b | a in u && b in u
      ensures gt(a, b) <==> (if dir == Asc then Text.LexLess(TextKey(rt, b, column), TextKey(rt, a, column))
                                          else Text.LexLess(TextKey(rt, a, column), TextKey(rt, b, column)))
    {
      Text.LexLessAsymmetric(TextKey(rt, a, column), TextKey(rt, b, column));
    }
    forall a, b, c | a in u && b in u && c in u && !gt(a, b) && !gt(b, c)
      ensures !gt(a, c)
    {
      var sa, sb, sc := TextKey(rt, a, column), TextKey(rt, b, column), TextKey(rt, c, column);
      if dir == Asc {
        NotBelowChain(sa, sb, sc);
      } else {
        NotBelowChain(sc, sb, sa);
      }
    }
  }

  /** `a ≤ b ≤ c` in the string order gives `a ≤ c`. */
  lemma NotBelowChain(a: string, b: string, c: string)
    requires !Text.LexLess(b, a) && !Text.LexLess(c, b)
    ensures !Text.LexLess(c, a)
  {
    Text.LexLessTotal(a, b);
    Text.LexLessTotal(b, c);
    if Text.LexLess(a, b) && Text.LexLess(b, c) {
      Text.LexLessTransitive(a, b, c);
      Text.LexLessAsymmetric(a, c);
    } else if Text.LexLess(a, b) {
      Text.LexLessAsymmetric(a, b);
    } else if Text.LexLess(b, c) {
      Text.LexLessAsymmetric(b, c);
    } else {
      Text.LexLessAsymmetric(a, a);
    }
  }

  /** What the table shows: the filtered rows, the sort state and the page. */
  datatype View = View(filtered: seq<Row>, sortColumn: Option<string>, direction: Direction, page: int)

  /** The table before any interaction: every row, unsorted, page 1. */
  function InitialView(data: seq<Row>): View
  {
    View(data, None, Asc, 1)
  }

  /** `handleSearch`: the search result, back on page 1, sort state kept. */
  function HandleSearch(rt: Runtime, data: seq<Row>, view: View, term: string): (r: View)
    ensures r.page == 1 && r.sortColumn == view.sortColumn && r.direction == view.direction
    ensures Seqs.IsSubsequence(r.filtered, data)
  {
    Seqs.FilterKeepsAll(x => true, data);
    view.(filtered := Search(rt, data, term), page := 1)
  }

  /** `handleSort`: the shown rows reordered by the clicked column in the
      toggled direction; the page is kept. */
  function HandleSort(rt: Runtime, view: View, column: string): (r: View)
    ensures r.sortColumn == Some(column) && r.page == view.page
    ensures r.direction == Desc <==> view.sortColumn == Some(column) && view.direction == Asc
    ensures multiset(r.filtered) == multiset(view.filtered)
  {
    var dir := NextDirection(view.sortColumn, view.direction, column);
    view.(sortColumn := Some(column), direction := dir, filtered := SortRows(rt, view.filtered, column, dir))
  }

  const PageSize: nat := 50

  /** `Array.prototype.slice(start, end)`: a negative bound counts from the
      end, and both are clamped to the sequence. */
  function Slice<T>(s: seq<T>, start: int, end: int): (r: seq<T>)
    ensures |r| <= |s|
  {
    var from := if start < 0 then Max(|s| + start, 0) else Min(start, |s|);
    var to := if end < 0 then Max(|s| + end, 0) else Min(end, |s|);
    if from < to then s[from..to] else []
  }

  function Max(a: int, b: int): int { if a >= b then a else b }

  /** `paginatedData`: the rows of one page. */
  function PageRows<T>(rows: seq<T>, page: int): (r: seq<T>)
    ensures |r| <= PageSize
    ensures page >= 1 ==> forall k :: 0 <= k < |r| ==> (page - 1) * PageSize + k < |rows| && r[k] == rows[(page - 1) * PageSize + k]
    ensures page >= 1 && (page - 1) * PageSize < |rows| ==> |r| == Min(PageSize, |rows| - (page - 1) * PageSize)
    ensures page >= 1 && (page - 1) * PageSize >= |rows| ==> r == []
  {
    var start := (page - 1) * PageSize;
    Slice(rows, start, start + PageSize)
  }

  /** `Math.ceil(n / 50)`: the fewest pages of 50 that hold `n` rows. */
  function TotalPages(n: nat): (t: nat)
    ensures n <= t * PageSize
    ensures t == 0 || (t - 1) * PageSize < n
  {
    (n + PageSize - 1) / PageSize
  }

  /** Every row is on exactly one page: row `i` is entry `i % 50` of page
      `i / 50 + 1`, and that page exists. */
  lemma PagesCover<T>(rows: seq<T>, i: nat)
    requires i < |rows|
    ensures var p := i / PageSize + 1;
            && 1 <= p <= TotalPages(|rows|)
            && i % PageSize < |PageRows(rows, p)|
            && PageRows(rows, p)[i % PageSize] == rows[i]
  {
    var p := i / PageSize + 1;
    assert (p - 1) * PageSize + i % PageSize == i;
  }

  /** The "previous" and "next" buttons. */
  function PrevPage(page: int): int { Max(1, page - 1) }

  function NextPage(page: int, total: int): int { Min(total, page + 1) }

  /** From a page that exists both buttons lead to a page that exists, one
      step at most. */
  lemma NavigationStaysInRange(page: int, total: int)
    requires 1 <= page <= total
    ensures 1 <= PrevPage(page) <= page <= NextPage(page, total) <= total
    ensures PrevPage(page) >= page - 1 && NextPage(page, total) <= page + 1
  {
  }

  /** One CSV field: `"${value || ""}"`, so falsy values export empty and
      quotes inside are not escaped. */
  function CsvField(rt: Runtime, c: Cell): (r: string)
    ensures |r| >= 2 && r[0] == '"' && r[|r| - 1] == '"'
    ensures r == "\"\"" <==> !Truthy(c) || StringOf(rt, c) == ""
  {
    "\"" + (if Truthy(c) then StringOf(rt, c) else "") + "\""
  }

  function CsvLine(rt: Runtime, columns: seq<string>, row: Row): string
  {
    Text.Join(seq(|columns|, j requires 0 <= j < |columns| => CsvField(rt, Field(row, columns[j]))), ",")
  }

  /** The exported lines: the header, then one line per shown row. */
  function CsvLines(rt: Runtime, columns: seq<string>, rows: seq<Row>): (r: seq<string>)
    ensures |r| == 1 + |rows|
  {
    [Text.Join(columns, ",")] + seq(|rows|, i requires 0 <= i < |rows| => CsvLine(rt, columns, rows[i]))
  }

  /** `exportToCSV`'s text. */
  function ExportCsv(rt: Runtime, columns: seq<string>, rows: seq<Row>): string
  {
    Text.Join(CsvLines(rt, columns, rows), "\n")
  }

  /** The text a cell contributes to the export. */
  function ExportedText(rt: Runtime, c: Cell): string
  {
    if Truthy(c) then StringOf(rt, c) else ""
  }

  /** Without line breaks in the names or the exported values, splitting the
      export at line breaks gives back the header and one line per row. */
  lemma ExportLines(rt: Runtime, columns: seq<string>, rows: seq<Row>)
    requires forall k :: 0 <= k < |columns| ==> '\n' !in columns[k]
    requires forall i, k :: 0 <= i < |rows| && 0 <= k < |columns| ==> '\n' !in ExportedText(rt, Field(rows[i], columns[k]))
    ensures Text.Split(ExportCsv(rt, columns, rows), "\n") == CsvLines(rt, columns, rows)
    ensures |Text.Split(ExportCsv(rt, columns, rows), "\n")| == 1 + |rows|
    ensures Text.Split(ExportCsv(rt, columns, rows), "\n")[0] == Text.Join(columns, ",")
  {
    var lines := CsvLines(rt, columns, rows);
    assert "\n"[0] == '\n';
    forall k | 0 <= k < |lines| ensures '\n' !in lines[k] {
      if k == 0 {
        Text.JoinExcludes(columns, ",", '\n');
      } else {
        LineExcludes(rt, columns, rows[k - 1], '\n');
      }
    }
    Text.SplitJoin(lines, "\n");
  }

  /** A character that is neither a comma nor a quote, and that no exported
      value contains, does not occur in the row's line. */
  lemma LineExcludes(rt: Runtime, columns: seq<string>, row: Row, c: char)
    requires c != ',' && c != '"'
    requires forall k :: 0 <= k < |columns| ==> c !in ExportedText(rt, Field(row, columns[k]))
    ensures c !in CsvLine(rt, columns, row)
  {
    var fields := seq(|columns|, j requires 0 <= j < |columns| => CsvField(rt, Field(row, columns[j])));
    forall j | 0 <= j < |columns| ensures c !in fields[j] {
      assert fields[j] == "\"" + ExportedText(rt, Field(row, columns[j])) + "\"";
    }
    Text.JoinExcludes(fields, ",", c);
  }

  /** Without commas in the exported values, splitting a row's line at the
      commas gives back its quoted fields, one per column. */
  lemma ExportFields(rt: Runtime, columns: seq<string>, row: Row)
    requires |columns| > 0
    requires forall k :: 0 <= k < |columns| ==> ',' !in ExportedText(rt, Field(row, columns[k]))
    ensures var fields := Text.Split(CsvLine(rt, columns, row), ",");
            && |fields| == |columns|
            && forall k :: 0 <= k < |columns| ==> fields[k] == "\"" + ExportedText(rt, Field(row, columns[k])) + "\""
  {
    var fields := seq(|columns|, j requires 0 <= j < |columns| => CsvField(rt, Field(row, columns[j])));
    forall k | 0 <= k < |columns| ensures ","[0] !in fields[k] {
      assert fields[k] == "\"" + ExportedText(rt, Field(row, columns[k])) + "\"";
    }
    Text.SplitJoin(fields, ",");
  }

  /** A zero exports as an empty field. */
  lemma ZeroExportsEmpty(rt: Runtime)
    ensures CsvField(rt, Num(0.0)) == "\"\""
  {
  }

  datatype ColumnKind = NumberKind | TextKind

  /** The first row whose cell in `column` is neither null nor undefined. */
  function FirstPresent(data: seq<Row>, column: string): (r: Option<nat>)
    ensures r.Some? ==> r.value < |data| && !IsNullish(Field(data[r.value], column))
    ensures r.Some? ==> forall j :: 0 <= j < r.value ==> IsNullish(Field(data[j], column))
    ensures r.None? <==> forall j :: 0 <= j < |data| ==> IsNullish(Field(data[j], column))
    decreases |data|
  {
    if |data| == 0 then None
    else if !IsNullish(Field(data[0], column)) then Some(0)
    else
      match FirstPresent(data[1..], column)
      case None => None
      case Some(j) => Some(j + 1)
  }

  /** `getColumnType`: "number" exactly when the first present cell converts
      to a number; "text" for a column with no present cell. */
  function ColumnType(rt: Runtime, data: seq<Row>, column: string): (k: ColumnKind)
    ensures (forall j :: 0 <= j < |data| ==> IsNullish(Field(data[j], column))) ==> k == TextKind
    ensures k == NumberKind <==>
              exists i :: && 0 <= i < |data|
                          && !IsNullish(Field(data[i], column))
                          && (forall j :: 0 <= j < i ==> IsNullish(Field(data[j], column)))
                          && NumberOf(rt, Field(data[i], column)).Some?
  {
    match FirstPresent(data, column)
    case None => TextKind
    case Some(i) =>
      if NumberOf(rt, Field(data[i], column)).Some? then NumberKind else TextKind
  }
}

=== FILE: text.dfy ===
/** The JavaScript string operations the application applies to cell text and
    column names: `toLowerCase`, `includes`, `endsWith`, `trim`,
    `replace(/,/g, ".")`, `split(delimiter)`, `join(delimiter)` and the
    `^\d{4}-\d{2}-\d{2}$` test used by the date scan. */
module Text {
  import opened Wrappers

  function LowerChar(c: char): char
  {
    if 'A' <= c <= 'Z' then (c as int + 32) as char else c
  }

  /** `toLowerCase`, restricted to the ASCII letters. */
  function Lower(s: string): (r: string)
    ensures |r| == |s|
    ensures forall i :: 0 <= i < |s| ==> r[i] == LowerChar(s[i])
  {
    seq(|s|, i requires 0 <= i < |s| => LowerChar(s[i]))
  }

  lemma LowerAppend(a: string, b: string)
    ensures Lower(a + b) == Lower(a) + Lower(b)
  {
  }

  lemma LowerIdempotent(s: string)
    ensures Lower(Lower(s)) == Lower(s)
  {
  }

  /** `d` occurs in `s` starting at position `i`. */
  predicate OccursAt(s: string, d: string, i: int)
  {
    0 <= i && i + |d| <= |s| && s[i..i + |d|] == d
  }

  /** `s.includes(t)`: `t` occurs somewhere in `s` (the empty string always does). */
  predicate Contains(s: string, t: string)
    decreases |s|
  {
    t <= s || (|s| > 0 && Contains(s[1..], t))
  }

  /** `Contains` agrees with the positional reading of "occurs in". */
  lemma {:induction false} ContainsAt(s: string, t: string)
    ensures Contains(s, t) <==> exists i :: OccursAt(s, t, i)
    decreases |s|
  {
    if t <= s {
      assert OccursAt(s, t, 0);
    } else if |s| > 0 {
      ContainsAt(s[1..], t);
      if exists i :: OccursAt(s, t, i) {
        var i :| OccursAt(s, t, i);
        assert i != 0;
        DropOneShift(s, i, |t|);
        assert OccursAt(s[1..], t, i - 1);
      }
      if Contains(s[1..], t) {
        var j :| OccursAt(s[1..], t, j);
        DropOneShift(s, j + 1, |t|);
        assert OccursAt(s, t, j + 1);
      }
    } else {
      assert forall i :: !OccursAt(s, t, i);
    }
  }

  /** A piece of `s[1..]` is the piece of `s` one position further on. */
  lemma DropOneShift(s: string, i: int, n: nat)
    requires 1 <= i && i + n <= |s|
    ensures s[1..][i - 1..i - 1 + n] == s[i..i + n]
  {
    var a, b := s[1..][i - 1..i - 1 + n], s[i..i + n];
    forall k | 0 <= k < n ensures a[k] == b[k] {
      assert a[k] == s[1..][i - 1 + k] == s[i + k];
    }
    assert a == b;
  }

  predicate EndsWith(s: string, t: string)
  {
    |t| <= |s| && s[|s| - |t|..] == t
  }

  /** The characters `String.prototype.trim` removes from both ends: the
      WhiteSpace and LineTerminator code points of sections 12.2 and 12.3 of
      ECMA-262. These are tab, vertical tab, form feed, space, no-break space,
      the byte order mark, every Unicode space separator (category Zs: U+1680,
      U+2000 to U+200A, U+202F, U+205F, U+3000), line feed, carriage return,
      and the line and paragraph separators. */
  predicate IsSpace(c: char)
  {
    || c in {' ', '\t', '\n', '\r', '\U{B}', '\U{C}', '\U{A0}', '\U{FEFF}', '\U{2028}', '\U{2029}'}
    || c in {'\U{1680}', '\U{202F}', '\U{205F}', '\U{3000}'}
    || '\U{2000}' <= c <= '\U{200A}'
  }

  /** The first position at or after `i` that does not hold a space. */
  function SpacesFrom(s: string, i: nat): (j: nat)
    requires i <= |s|
    ensures i <= j <= |s|
    ensures forall k :: i <= k < j ==> IsSpace(s[k])
    ensures j < |s| ==> !IsSpace(s[j])
    decreases |s| - i
  {
    if i < |s| && IsSpace(s[i]) then SpacesFrom(s, i + 1) else i
  }

  /** The end of `s[lo..hi]` once its trailing spaces are dropped. */
  function SpacesBefore(s: string, lo: nat, hi: nat): (e: nat)
    requires lo <= hi <= |s|
    ensures lo <= e <= hi
    ensures forall k :: e <= k < hi ==> IsSpace(s[k])
    ensures lo < e ==> !IsSpace(s[e - 1])
    decreases hi - lo
  {
    if lo < hi && IsSpace(s[hi - 1]) then SpacesBefore(s, lo, hi - 1) else hi
  }

  /** How many characters `trim` removes from the front. */
  function LeadingSpaces(s: string): (n: nat)
    ensures n <= |s|
  {
    SpacesFrom(s, 0)
  }

  /** `trim`: the longest piece of `s` that neither starts nor ends with a space. */
  function Trim(s: string): (r: string)
    ensures |r| > 0 ==> !IsSpace(r[0]) && !IsSpace(r[|r| - 1])
    ensures OccursAt(s, r, LeadingSpaces(s))
    ensures forall i :: 0 <= i < LeadingSpaces(s) ==> IsSpace(s[i])
    ensures forall i :: LeadingSpaces(s) + |r| <= i < |s| ==> IsSpace(s[i])
  {
    var n := LeadingSpaces(s);
    s[n..SpacesBefore(s, n, |s|)]
  }

  /** A string is blank exactly when `trim` leaves nothing. */
  lemma TrimEmptyIffBlank(s: string)
    ensures Trim(s) == "" <==> forall i :: 0 <= i < |s| ==> IsSpace(s[i])
  {
    var n := LeadingSpaces(s);
    if Trim(s) == "" {
      assert SpacesBefore(s, n, |s|) == n;
      assert n == |s|;
    }
  }

  /** Trimming twice is trimming once. */
  lemma TrimIdempotent(s: string)
    ensures Trim(Trim(s)) == Trim(s)
  {
    var r := Trim(s);
    if |r| > 0 {
      assert LeadingSpaces(r) == 0;
      assert SpacesBefore(r, 0, |r|) == |r|;
    }
  }

  /** `s.replace(/,/g, ".")`. */
  function CommaToPeriod(s: string): (r: string)
    ensures |r| == |s|
    ensures forall i :: 0 <= i < |s| ==> r[i] == (if s[i] == ',' then '.' else s[i])
  {
    seq(|s|, i requires 0 <= i < |s| => if s[i] == ',' then '.' else s[i])
  }

  /** `s.indexOf(d)` for a non-empty `d`: the first position where `d` occurs. */
  function IndexOf(s: string, d: string): (r: Option<nat>)
    requires |d| > 0
    ensures r.Some? ==> OccursAt(s, d, r.value)
    ensures r.Some? ==> forall i :: 0 <= i < r.value ==> !OccursAt(s, d, i)
    ensures r.None? ==> forall i :: !OccursAt(s, d, i)
    decreases |s|
  {
    if |s| < |d| then None
    else if s[..|d|] == d then Some(0)
    else
      var rest := IndexOf(s[1..], d);
      assert forall i :: 1 <= i ==> OccursAt(s, d, i) == OccursAt(s[1..], d, i - 1) by {
        forall i | 1 <= i ensures OccursAt(s, d, i) == OccursAt(s[1..], d, i - 1) {
          if i + |d| <= |s| {
            DropOneShift(s, i, |d|);
          }
        }
      }
      match rest
      case None => None
      case Some(j) => Some(j + 1)
  }

  /** `s.split(d)` for a non-empty delimiter `d`. */
  function Split(s: string, d: string): (parts: seq<string>)
    requires |d| > 0
    ensures |parts| >= 1
    decreases |s|
  {
    match IndexOf(s, d)
    case None => [s]
    case Some(i) => [s[..i]] + Split(s[i + |d|..], d)
  }

  /** `parts.join(d)`. */
  function Join(parts: seq<string>, d: string): string
    decreases |parts|
  {
    if |parts| == 0 then ""
    else if |parts| == 1 then parts[0]
    else parts[0] + d + Join(parts[1..], d)
  }

  /** Joining the pieces of a split with the same delimiter gives back the text. */
  lemma {:induction false} JoinSplit(s: string, d: string)
    requires |d| > 0
    ensures Join(Split(s, d), d) == s
    decreases |s|
  {
    match IndexOf(s, d)
    case None =>
    case Some(i) =>
      var tail := s[i + |d|..];
      var parts := [s[..i]] + Split(tail, d);
      assert Split(s, d) == parts;
      assert parts[1..] == Split(tail, d);
      assert Join(parts, d) == s[..i] + d + Join(Split(tail, d), d);
      JoinSplit(tail, d);
      assert s[i..i + |d|] == d;
      assert s == s[..i] + s[i..i + |d|] + tail;
  }

  /** Splitting a join on a one-character delimiter that no piece contains
      gives back the pieces. */
  lemma {:induction false} SplitJoin(parts: seq<string>, d: string)
    requires |d| == 1 && |parts| > 0
    requires forall k :: 0 <= k < |parts| ==> d[0] !in parts[k]
    ensures Split(Join(parts, d), d) == parts
    decreases |parts|
  {
    var p := parts[0];
    if |parts| == 1 {
      assert Join(parts, d) == p;
      forall i ensures !OccursAt(p, d, i) {
        if 0 <= i < |p| {
          assert p[i..i + 1][0] == p[i];
        }
      }
    } else {
      var rest := Join(parts[1..], d);
      var s := p + d + rest;
      assert Join(parts, d) == s;
      FirstOccurrence(p, d, rest);
      assert s[..|p|] == p;
      assert s[|p| + 1..] == rest;
      SplitJoin(parts[1..], d);
      assert parts == [p] + parts[1..];
    }
  }

  /** A one-character delimiter absent from `p` is first found right after `p`. */
  lemma FirstOccurrence(p: string, d: string, rest: string)
    requires |d| == 1 && d[0] !in p
    ensures IndexOf(p + d + rest, d) == Some(|p|)
  {
    var s := p + d + rest;
    assert OccursAt(s, d, |p|) by {
      assert s[|p|..|p| + 1] == d;
    }
    forall i | 0 <= i < |p| ensures !OccursAt(s, d, i) {
      assert s[i..i + 1][0] == p[i];
    }
  }

  /** A character absent from the delimiter and from every piece is absent
      from their join. */
  lemma {:induction false} JoinExcludes(parts: seq<string>, d: string, c: char)
    requires c !in d && forall k :: 0 <= k < |parts| ==> c !in parts[k]
    ensures c !in Join(parts, d)
    decreases |parts|
  {
    if |parts| > 1 {
      JoinExcludes(parts[1..], d, c);
    }
  }

  /** The string `<` of JavaScript: the first differing character decides,
      and a proper prefix comes first. */
  predicate LexLess(a: string, b: string)
    decreases |a|
  {
    if |a| == 0 then |b| > 0
    else if |b| == 0 then false
    else if a[0] != b[0] then a[0] < b[0]
    else LexLess(a[1..], b[1..])
  }

  lemma {:induction false} LexLessAsymmetric(a: string, b: string)
    ensures !(LexLess(a, b) && LexLess(b, a))
    decreases |a|
  {
    if |a| > 0 && |b| > 0 && a[0] == b[0] {
      LexLessAsymmetric(a[1..], b[1..]);
    }
  }

  lemma {:induction false} LexLessTransitive(a: string, b: string, c: string)
    requires LexLess(a, b) && LexLess(b, c)
    ensures LexLess(a, c)
    decreases |a|
  {
    if |a| > 0 && a[0] == b[0] && b[0] == c[0] {
      LexLessTransitive(a[1..], b[1..], c[1..]);
    }
  }

  /** Two different strings are always ordered one way or the other. */
  lemma {:induction false} LexLessTotal(a: string, b: string)
    ensures a == b || LexLess(a, b) || LexLess(b, a)
    decreases |a|
  {
    if |a| > 0 && |b| > 0 && a[0] == b[0] {
      LexLessTotal(a[1..], b[1..]);
      if a[1..] == b[1..] {
        assert a == [a[0]] + a[1..] && b == [b[0]] + b[1..];
      }
    }
  }

  predicate IsDigit(c: char) { '0' <= c <= '9' }

  /** The regular expression `^\d{4}-\d{2}-\d{2}$`. */
  predicate IsIsoDate(s: string)
  {
    && |s| == 10
    && IsDigit(s[0]) && IsDigit(s[1]) && IsDigit(s[2]) && IsDigit(s[3])
    && s[4] == '-'
    && IsDigit(s[5]) && IsDigit(s[6])
    && s[7] == '-'
    && IsDigit(s[8]) && IsDigit(s[9])
  }
}

=== FILE: wrappers.dfy ===
/** Failure-compatible wrappers used throughout the model: `Option` for values
    JavaScript may leave `undefined`/`NaN`, `Result` for operations that stop
    with an error message instead of producing a dataset. */
module Wrappers {

  datatype Option<+T> = None | Some(value: T) {
    predicate IsFailure() { None? }

    function PropagateFailure<U>(): Option<U>
      requires None?
    {
      None
    }

    function Extract(): T
      requires Some?
    {
      value
    }
  }

  datatype Result<+T, +E> = Ok(value: T) | Err(error: E) {
    predicate IsFailure() { Err? }

    function PropagateFailure<U>(): Result<U, E>
      requires Err?
    {
      Err(error)
    }

    function Extract(): T
      requires Ok?
    {
      value
    }
  }

  function Min(a: int, b: int): int { if a <= b then a else b }
}
